=== FILE: README.md ===
# DWHFinancial file intake, modelled in Dafny

DWHFinancial is a personal-finance warehouse. Bank and card statements go
into Google Drive folders. They are turned into clean rows, written to
Cloud Storage, loaded into BigQuery, and then reshaped by dbt.

The heart of the intake is a coordinator that uses folders as state. Each
account folder holds a `pending` folder, an `in_progress` folder (the
lease) and a `processed` folder. Where a file sits says where it is in the
pipeline.

The repository holds six variants of this coordinator, and they disagree
on purpose. They differ on what an empty result does, on whether a failed
move raises, and on what gets counted. This project models each variant
as written, in its own module:

| module | source |
|---|---|
| `IntakeV2` | `ingestion_function/main2.py` (Pub/Sub function, lease and rollback) |
| `IntakeV1` | `ingestion_function/main.py` (its predecessor, with the dbt decision) |
| `IntakeLocal` | `ingestion/main.py` (the local runner) |
| `IntakeHttp` | `ingestion_fuction/main.py` (the HTTP function, no lease) |
| `EtlDrive` | `cloud_functions/etl_drive_to_gcs/main.py` (per-source config, move in `finally`) |
| `CardPayments` | `cloud_functions/drive_to_gcs_card_payments/main.py` (one event, one file) |

Around the coordinators sit the event handlers and one script:

| module | source |
|---|---|
| `ExternalTable` | `cloud_functions/create_external_table/main.py` |
| `GcsToBq` | `cloud_functions/gcs_to_bq/main.py` |
| `AiSuggest` | `scripts/ai_suggest.py` |

The helpers they share have their own modules:
- `Drive`: the file tree, moves, sub-folder ids and downloads.
- `Frames`: the pandas operations used.
- `Hashing`: row-id preimages.
- `Amounts`: amount rewriting.
- `Text`: strip, lower and capitalize.
- `Paths`: stem, suffix, splitext and dirname.
- `Sweep`: the generic per-file loop and a reference batch semantics.
- `Config`: per-account configuration.
- `Base`: `Option`, `Result`, JSON values and Python key and index errors.

## How the model is built

- **The Drive tree** is an immutable map from file id to its one parent
  folder.
- **Every external call** is a field of an oracle datatype made of total
  functions. This covers Drive (`Cloud`), pandas (`Pandas`), BigQuery and
  Gemini. The oracle says whether the call succeeds and what it returns.
  Nothing about that library's behaviour is assumed beyond what the code
  relies on.
- **A move** is Drive's `update(addParents=to, removeParents=from)` on a
  file whose parent is `cur`:
  - It is refused when it would leave two parents.
  - When the parent is already `to`, it succeeds without changing
    anything.
  - Otherwise it succeeds or fails as the oracle says.
- **Each per-file iteration** returns an `Outcome`: the file's new parent,
  the log of calls it made (`Event`s), and whether it was counted.
- **Each variant's loop** folds its iteration over the listed files with
  `Sweep.Loop`, which sees the tree as updated by earlier files.
  `Sweep.Batch` is an independent reference in which every file's step
  starts from the original tree. `Sweep.LoopIsBatch` proves the two agree
  when ids are distinct, which yields the "one file's failure never
  affects its siblings" properties.

## Model

| member | source | states |
|---|---|---|
| Drive.Move | ingestion_function/main2.py:151-163 | an accepted move leaves the file in the requested folder; a refused one leaves it where it was |
| Drive.MoveKeepsOneFolder | ingestion_function/main2.py:151-163 | a move never loses a file: afterwards it has exactly one parent, the old one or the requested one |
| Drive.MoveOkIff | ingestion_function/main2.py:151-163 | a move from the file's own folder succeeds exactly when Drive accepts it; a move of a file that is elsewhere is refused |
| Drive.MoveBack | ingestion_function/main2.py:236-239 | two accepted moves a→b and b→a put the file back in a |
| Drive.RollbackAfterRefusal | ingestion_function/main2.py:236-239 | after a refused lease, the rollback still succeeds when Drive accepts it, and the file stays in pending |
| Drive.SubfolderIds | ingestion_function/main2.py:165-183 | a successful call always has an `in_progress` entry; it succeeds exactly when the listing succeeds and `in_progress` is listed or can be created; every other name has exactly its listed id |
| Drive.NameMapLastWins | ingestion_function/main2.py:171-172 | the name map gives each listed name the id of the last entry with that name |
| Drive.NameMapKeys | ingestion_function/main2.py:171-172 | a name is in the map exactly when some listed entry carries it |
| Drive.SubfolderIdsCreateOnlyWhenAbsent | ingestion_function/main2.py:165-183 | `in_progress` is created exactly when no listed sub-folder has that name; every other name keeps its listed id; without creation the result is the listing's name map |
| Drive.Present | ingestion_function/main2.py:198-204 | a folder counts as present exactly when its name is a key with a non-empty id |
| Drive.FirstNamed | ingestion_fuction/main.py:126-127 | the first listed folder with the name, if any; none exactly when no entry has it |
| Drive.FetchFile | ingestion_function/main2.py:82-100 | a download succeeds exactly when the metadata is read and the export (for a Sheet) or the raw fetch (otherwise) succeeds |
| Drive.EffectiveTypeShape | ingestion_function/main.py:96-109 | a Google Sheet is typed "excel"; any other file gets its lower-cased suffix, which is empty or starts with '.' |
| Config.Lookup | ingestion_fuction/main.py:117-121 | `configs[bank][account]` succeeds exactly when both keys exist, and raises KeyError otherwise |
| Base.Key | ingestion_function/main.py:374-375 | indexing JSON by key succeeds exactly on an object holding the key; a missing key raises KeyError |
| Base.First | cloud_functions/drive_to_gcs_card_payments/main.py:67 | `[0]` succeeds exactly on a non-empty list or string; an empty one raises IndexError |
| Text.StripEmptyIff | ingestion/main.py:62 | `strip` gives the empty string exactly for all-whitespace input |
| Text.StripIgnoresPadding | ingestion/main.py:62 | surrounding whitespace does not change what `strip` returns |
| Text.StripIdempotent | ingestion/main.py:62 | stripping twice is stripping once |
| Text.StripLowerCommute | ingestion/main.py:62 | `strip` and `lower` commute |
| Text.LowerIdempotent | ingestion/main.py:62 | lower-casing twice is lower-casing once |
| Text.CapitalizeIdempotent | ingestion/main.py:168-169 | `capitalize` is idempotent and equals the input up to case |
| Text.ContainsAt | ingestion/main.py:117 | the substring test holds exactly when some slice of the text equals the pattern |
| Paths.LastIndexOf | ingestion_fuction/main.py:143 | `rfind` gives -1 or an index holding the character, with no later occurrence |
| Paths.BaseName | ingestion/main.py:253 | the final path component holds no separator |
| Paths.StemSuffixRoundTrip | ingestion/main.py:253 | stem followed by suffix gives back the final component |
| Paths.SuffixShape | ingestion/main.py:91 | a suffix is empty or '.' plus at least one character with no further dot; a stem holds no separator |
| Paths.SplitExtRoundTrip | ingestion_fuction/main.py:143 | `splitext` loses no character: root plus extension is the name |
| Paths.SplitExtExtShape | ingestion_fuction/main.py:143 | the extension `splitext` cuts off is empty or a dot followed by characters that are neither dots nor separators |
| Paths.SplitExtDiffersFromStem | ingestion_fuction/main.py:143 | `splitext` and `Path.stem` disagree on a name ending in '.' |
| Paths.TrimSlashes | cloud_functions/create_external_table/main.py:23 | `rstrip('/')` gives a prefix that does not end in '/' |
| Paths.DirNameOfChild | cloud_functions/create_external_table/main.py:23 | the directory of `dir/leaf` is `dir` |
| Paths.DirNameOfRootFile | cloud_functions/create_external_table/main.py:23 | a root-level name has an empty directory |
| Hashing.HashIgnoresPadding | ingestion_function/main2.py:73-80 | whitespace around the description does not change the id preimage |
| Hashing.HashIgnoresCase | ingestion_function/main2.py:73-80 | descriptions equal up to letter case give the same preimage |
| Hashing.HashOfNormalized | ingestion/main.py:59-69 | normalising the description before hashing changes nothing |
| Hashing.HashPreimageSeparates | ingestion_function/main.py:77-83 | given equal widths of date and amount text, equal preimages mean equal dates, equal normalised descriptions and equal amounts |
| Hashing.RawPreimageSeparates | ingestion_fuction/main.py:38-42 | without normalisation, any change to a description's text (even whitespace) changes the preimage |
| Hashing.EntityPreimageSeparates | cloud_functions/etl_drive_to_gcs/main.py:39-42 | rows of two different entities without '-' in their names never share a preimage |
| Amounts.UnifyCell | ingestion_function/main.py:112-124 | a missing amount stays missing; otherwise the result is missing exactly when `float` rejects the rewritten text, and is its value when it accepts |
| Amounts.UnifyCellLocal | ingestion/main.py:96-110 | the same for the local runner's copy of the rewrite |
| Amounts.UnifiedNoComma | ingestion_function/main.py:117-120 | the rewritten text never contains ',' |
| Amounts.UnifiedVersionsAgree | ingestion/main.py:96-110 | the two copies of the rewrite agree on every input |
| Amounts.UnifiedKeepsDigits | ingestion_function/main.py:116-120 | the rewrite changes only separators; every other character of the stripped text survives in order |
| Amounts.UnifiedDecimalPoints | ingestion_function/main.py:117-120 | when the text holds a ',', the result has as many '.' as the text had ',' |
| Amounts.UnifiedWithoutComma | ingestion_function/main.py:116-120 | without ',' the stripped text is passed on unchanged |
| Amounts.UnifiedBoth | ingestion_function/main.py:117-118 | with both separators, every '.' is deleted and every ',' becomes '.' |
| Amounts.UnifiedCommaThenDot | ingestion_function/main.py:117-118 | "a,b.c" becomes "a.bc": the comma is taken as the decimal point |
| Amounts.UnifiedDotThenComma | ingestion_function/main.py:117-118 | "a.b,c" becomes "ab.c": the dot is taken as a thousands separator |
| Amounts.UnifiedThousandsExample | ingestion_function/main.py:117-118 | "1,000.00" becomes "1.00000", so it reads as one, not a thousand |
| Amounts.UnifiedEuropeanExample | ingestion_function/main.py:117-118 | "1.234,56" becomes "1234.56" |
| Amounts.KeepNumeric | ingestion_function/main2.py:135 | the result holds only numeric characters (any Unicode decimal digit, ',', '.', '-'), and a character occurs in it exactly when it occurs numeric in the input |
| Amounts.KeepNumericOne | ingestion_function/main2.py:135 | one character is kept exactly when it is numeric |
| Amounts.KeepNumericAppend | ingestion_function/main2.py:135 | the removal distributes over concatenation, so with the one-character case it keeps the numeric characters in order and with their repetitions |
| Amounts.KeepNumericUnicodeDigits | ingestion_function/main2.py:135 | digits of other scripts (Arabic-Indic, full-width) are kept, letters are not |
| Amounts.KeepNumericIdempotent | ingestion_function/main2.py:135 | removing non-numeric characters twice removes nothing more |
| Amounts.MissingAmountIsEmptyText | ingestion_function/main2.py:135 | a missing amount reaches `locale.atof` as the empty text |
| Amounts.AtofCell | ingestion_function/main2.py:135 | the cell fails exactly when `atof` rejects the filtered text, and otherwise holds its number |
| Amounts.CommaToDotCell | ingestion_fuction/main.py:65 | the text given to `to_numeric` is the cell's text with every ',' turned into '.', character by character |
| Frames.Rename | ingestion/main.py:139-142 | renaming keeps every cell and relabels each column through the mapping |
| Frames.Restrict | ingestion/main.py:139-141 | the restricted mapping holds exactly the pairs whose key is a column |
| Frames.RestrictedRenameSame | ingestion/main.py:139-142 | restricting the mapping to present columns before renaming changes nothing |
| Frames.RenameLabelHit | ingestion/main.py:142 | a column named by a key is renamed to that key's value |
| Frames.Select | ingestion/main.py:153 | `df[cols]` raises `KeyError` exactly when a requested label is missing; otherwise one column per requested label, each row's cell taken from the first column with that label |
| Frames.SelectFirstOfRepeated | ingestion/main.py:153 | a label carried by several columns is read from the first of them (the behaviour that departs from pandas, see "## Left out") |
| Frames.SetColumns | cloud_functions/etl_drive_to_gcs/main.py:71 | assigning names succeeds exactly with one name per column, and keeps the rows |
| Frames.DropLast | cloud_functions/etl_drive_to_gcs/main.py:73-74 | the result followed by the last row is the original frame |
| Frames.MapColumn | ingestion/main.py:159 | mapping a column succeeds exactly when it exists, and puts `g` of each old cell in that column |
| Frames.MapColumnKeeps | ingestion/main.py:159 | mapping one column leaves every other column's cells as they were |
| Frames.TryMapColumn | ingestion_function/main2.py:135 | `apply` with a function that may raise: KeyError without the column, ValueError exactly when some cell fails |
| Frames.DropNa | ingestion/main.py:162 | `KeyError` exactly when a listed label is missing; otherwise a row is kept exactly when it has a value under every listed label |
| Frames.KeepCompleteOne | ingestion/main.py:162 | a single row survives `dropna` exactly when it is complete |
| Frames.KeepCompleteAppend | ingestion/main.py:162 | `dropna` filters a concatenation block by block, so the kept rows keep their order and a repeated row is kept as often as it occurs |
| Frames.DropNaKeepsOrder | ingestion/main.py:162 | on a frame, two row blocks give the kept rows of the first followed by those of the second, and a single row is kept exactly when complete |
| Frames.DropNaLeavesNoGap | ingestion/main.py:162 | after `dropna` every kept row has a value in each listed column |
| Frames.FilterEqual | ingestion_function/main.py:163-165 | a row is kept exactly when its cell under the column is the given text |
| Frames.KeepEqualOne | ingestion_function/main.py:163-165 | a single row survives the mask exactly when its cell matches |
| Frames.KeepEqualAppend | ingestion_function/main.py:163-165 | the mask filters a concatenation block by block, so order and repeated rows are kept |
| Frames.FilterEqualKeepsOrder | ingestion_function/main.py:163-165 | on a frame, two row blocks are filtered block by block, and a single row is kept exactly when its cell matches |
| Frames.Normalized | ingestion/main.py:167-172 | the final frame has the id column, fecha, concepto, importe and two constant columns, one row per input row |
| Frames.NormalizedRow | ingestion/main.py:167-172 | each final row holds the id computed from its own fecha, concepto and importe, those cells, and the two constants |
| Frames.NormalizedAfterDropNa | ingestion/main.py:162-172 | after `dropna`, a final row's fecha, concepto and importe are present, and its id is computed from exactly them |
| Sweep.Apply | ingestion_function/main2.py:206-243 | a step changes only its own file's parent and keeps the set of files |
| Sweep.LoopIsBatch | ingestion_function/main2.py:206-243 | with distinct ids, the real loop ends exactly as the reference in which each step sees the original tree |
| Sweep.BatchFrame | ingestion_function/main2.py:206-243 | the loop neither adds nor removes files, and leaves unlisted files where they were |
| Sweep.BatchAt | ingestion_function/main2.py:206-243 | each listed file ends where its own step put it: no sibling affects it |
| Sweep.BatchTrace | ingestion_function/main2.py:206-243 | the loop's log holds exactly the events of the files' own steps |
| Sweep.BatchCount | ingestion_function/main2.py:230-243 | when a step counts exactly the files it lands in the target, the counter is the number of listed files in the target |
| Sweep.BatchCountAtLeast | ingestion/main.py:237-275 | when a step counts every file it leaves in the target, the counter is at least that number |
| Sweep.LoopCountBound | ingestion_function/main2.py:230-243 | the counter never exceeds the number of listed files |
| Sweep.LoopKeeps | ingestion_function/main.py:285-333 | a property of every step's events holds of the whole log; steps that never count give a zero counter |
| Sweep.LoopCountsUploads | ingestion/main.py:237-275 | when each step counts exactly its accepted upload, the counter is the number of accepted uploads |
| Sweep.CountInZero | ingestion_function/main.py:285-333 | a zero count means no listed file is in the target |
| IntakeV2.RollbackFacts | ingestion_function/main2.py:236-241 | a rollback is one move in_progress→pending; the file lands in pending if it is accepted, else stays put with the critical log line |
| IntakeV2.RollbackAddsNothing | ingestion_function/main2.py:236-241 | a rollback adds no upload and no download |
| IntakeV2.StepEndsInOneFolder | ingestion_function/main2.py:212-241 | a file from pending ends in exactly one of pending, in_progress or processed; it is counted exactly when it ends in processed; in_progress only after a critical log line |
| IntakeV2.StepUploadIsTransform | ingestion_function/main2.py:216-229 | every upload follows an accepted lease and a download, goes to the file's path as JSON lines, and carries the non-empty transform of the downloaded bytes |
| IntakeV2.StepCountedTrace | ingestion_function/main2.py:216-234 | a counted file's log is exactly: lease, download, accepted upload of its frame, accepted move to processed; so the upload precedes the move |
| IntakeV2.StepSucceeds | ingestion_function/main2.py:216-234 | conversely, the file is counted and ends in processed whenever both moves, the download and the upload succeed on a non-empty frame |
| IntakeV2.StepRefusedLease | ingestion_function/main2.py:216-241 | a refused lease stops before any download: the log is the refused move and the rollback |
| IntakeV2.SweepSettles | ingestion_function/main2.py:206-243 | every listed file ends in one of the three folders, the count is the number ending in processed, and no other file moves |
| IntakeV2.SweepAccountSkips | ingestion_function/main2.py:187-209 | an account lacking one of the three folder ids, or with an empty pending folder, moves nothing and counts 0; a failed sub-folder call raises |
| IntakeV2.EngineForXls | ingestion_function/main2.py:106-111 | the xlrd engine is chosen exactly for a lower-cased ".xls" suffix |
| IntakeV2.TransformFailures | ingestion_function/main2.py:113-130 | an unreadable file gives an empty frame, a config without `column_mapping` raises KeyError, a missing mapped column gives an empty frame |
| IntakeV2.TransformShape | ingestion_function/main2.py:102-147 | a non-empty result has the six output columns; each row's id hashes its own fecha, concepto and importe, none missing; entidad and origen are the capitalized names |
| IntakeV2.AccountsSkip | ingestion_function/main2.py:279-287 | an account without config, or whose processing raises, is skipped as if it were not listed |
| IntakeV2.AccountsAdd | ingestion_function/main2.py:279-283 | a processed account adds its parents, its log and its count |
| IntakeV2.AccountsGrow | ingestion_function/main2.py:279-287 | the walk only adds: the total never drops and the log so far stays a prefix |
| IntakeV2.AccountsIdle | ingestion_function/main2.py:279-287 | with no processable account the walk changes nothing |
| IntakeV2.BanksIdle | ingestion_function/main2.py:274-287 | with no processable account the walk over banks changes nothing but the fatal flag |
| IntakeV2.BanksFatal | ingestion_function/main2.py:274-290 | a failed account listing ends the walk, keeping what the earlier banks did |
| IntakeV2.EntryAnswer | ingestion_function/main2.py:257-301 | the answer is always ("Proceso completado.", 200); dbt starts exactly when the total is positive; a failed initialisation processes nothing |
| IntakeV1.ReadAsDispatch | ingestion_function/main.py:136-160 | CSV reader exactly for ".csv"; Excel for ".xls", ".xlsx" and "excel", with xlrd only for ".xls"; nothing read otherwise |
| IntakeV1.DownloadTypeDispatch | ingestion_function/main.py:96-109 | a Sheet export is read with openpyxl, a ".xls" file with xlrd, and any other type is supported or gives an empty frame |
| IntakeV1.KeepCompletedRows | ingestion_function/main.py:163-168 | with `filter_completed` and a State column, a row is kept exactly when its state is "COMPLETADO"; otherwise the frame is unchanged |
| IntakeV1.KeepCompletedKeepsOrder | ingestion_function/main.py:163-168 | the completed-rows filter works block by block and keeps a single row exactly when the filter is off or the row is "COMPLETADO", so two identical completed charges both reach the upload |
| IntakeV1.TransformFailures | ingestion_function/main.py:136-176 | an unreadable or unsupported file gives an empty frame, no `column_mapping` raises KeyError, a missing mapped column gives an empty frame |
| IntakeV1.TransformShape | ingestion_function/main.py:127-194 | a non-empty result has the six output columns, with hashed ids, no missing fecha, concepto or importe, and capitalized names |
| IntakeV1.DbtArgs | ingestion_function/main.py:371-385 | full refresh exactly when the message decodes to an object whose `full_refresh` is `true`; the default otherwise |
| IntakeV1.DbtArgsFullRefresh | ingestion_function/main.py:374-381 | the full-refresh arguments come exactly from a well-formed message with `full_refresh` set to `true` |
| IntakeV1.DbtArgsOnlyTrue | ingestion_function/main.py:379-381 | a truthy number or text, or a message that is not an object, keeps the default |
| IntakeV1.DbtDecisionIff | ingestion_function/main.py:439-446 | dbt runs exactly when some file was processed or a full refresh was asked for, with the decided arguments |
| IntakeV1.StepAsWrittenNeverDelivers | ingestion_function/main.py:296-332 | as written, every leased file takes the rollback path: no upload, not counted, ending in pending or stranded in in_progress |
| IntakeV1.SweepAsWrittenDeliversNothing | ingestion_function/main.py:285-333 | as written, an account's sweep uploads nothing, counts 0, and no listed file reaches processed |
| IntakeV1.StepAsWrittenMissesDelivery | ingestion_function/main.py:296-303 | under answers with which the corrected iteration counts a file and moves it to processed, the iteration as written neither counts nor delivers it |
| IntakeV1.StepOfDelivers | ingestion_function/main.py:288-322 | with the transform called, the file is counted and ends in processed whenever the moves, download and upload succeed on a non-empty frame, and the upload carries that frame |
| IntakeV1.FileStepNoUpload | ingestion_function/main.py:288-332 | a transform that always raises yields no upload and no count from any parent |
| IntakeV1.EntryAsWrittenIdle | ingestion_function/main.py:412-449 | as written, no account is processed: tree and log untouched, total 0, and dbt runs exactly on a full refresh |
| IntakeV1.EntryAsWrittenSkipsAccounts | ingestion_function/main.py:416-421 | a configured account whose processing the corrected walk adds to the total is, as written, passed over |
| IntakeV1.EntryCountsAccounts | ingestion_function/main.py:414-421 | with the account processing called, a processed account adds its count to the total |
| IntakeLocal.ReadAsDispatch | ingestion/main.py:116-130 | the CSV reader exactly when the type contains "csv"; every other type goes to the Excel reader |
| IntakeLocal.TransformFailures | ingestion/main.py:116-162 | an unreadable file, no `column_mapping` or a missing mapped column gives an empty frame; mapped names lacking fecha or importe raise KeyError |
| IntakeLocal.TransformShape | ingestion/main.py:113-172 | a non-empty result has hash_id, fecha, concepto, importe, entidad, origen; each id hashes its own row; the names are capitalized |
| IntakeLocal.GiveBackFacts | ingestion/main.py:262-273 | a give-back is one move to pending, never counted, and adds no upload |
| IntakeLocal.DeliverCounts | ingestion/main.py:250-261 | the file is counted exactly when its upload is accepted, whatever the move to processed does |
| IntakeLocal.StepCounts | ingestion/main.py:238-273 | a file is counted exactly when it downloads, transforms to a non-empty frame and its upload is accepted; its log then holds exactly one accepted upload |
| IntakeLocal.StepPlaced | ingestion/main.py:242-273 | a file from pending ends in pending, in_progress or processed; never raises out of the loop |
| IntakeLocal.StepWithoutLease | ingestion/main.py:175-184 | a refused lease is swallowed: the file is still downloaded, uploaded and counted, and stays in pending |
| IntakeLocal.StepCountedInProgress | ingestion/main.py:250-261 | a counted file stays in in_progress when the move to processed is refused |
| IntakeLocal.StepEmptyGoesBack | ingestion/main.py:262-265 | an empty result goes back to pending with no upload and is not counted |
| IntakeLocal.SweepPlaced | ingestion/main.py:211-275 | every listed file ends in one of the three folders; the count is the number of accepted uploads, at least the number in processed; no other file moves |
| IntakeLocal.SweepAccountCounts | ingestion/main.py:216-227 | an account lacking PENDING or PROCESSED moves nothing and counts 0; a failed sub-folder call raises; the count is the accepted uploads |
| IntakeLocal.MainGate | ingestion/main.py:288-297 | a missing or unreadable config loads as `{}`; with no environment or no config the script exits 1 before any Drive call |
| IntakeLocal.AccountsSkip | ingestion/main.py:344-352 | an account is skipped unless both the bank and the account are config keys |
| IntakeLocal.AccountsCrash | ingestion/main.py:344-357 | an account whose processing raises ends the walk, keeping the earlier accounts' work |
| IntakeLocal.AccountsTally | ingestion/main.py:332-350 | the walk over accounts keeps the total equal to the accepted uploads in the log |
| IntakeLocal.BanksTally | ingestion/main.py:332-354 | the walk over banks does the same |
| IntakeLocal.MainTotal | ingestion/main.py:299-357 | the printed total is the number of accepted uploads, not of files moved to PROCESSED |
| IntakeHttp.TransformFailures | ingestion_fuction/main.py:44-59 | every failure raises: unreadable file, no `column_mapping`, or a mapping key that is not a column |
| IntakeHttp.TransformShape | ingestion_fuction/main.py:44-79 | a non-empty result has transaction_id, fecha, concepto, importe, banco, tipo_cuenta; each id hashes the raw text of its own three cells; names as given |
| IntakeHttp.UploadPathShape | ingestion_fuction/main.py:143-144 | for every bank, account and name, the object name is bank/account/ followed by the name without its extension and ".csv"; the extension removed is empty or one dot-led extension of the final component |
| IntakeHttp.StepEndsInOneFolder | ingestion_fuction/main.py:136-155 | a file from pending ends in pending or processed; in processed exactly when its iteration succeeds; counted exactly then |
| IntakeHttp.StepFailureStays | ingestion_fuction/main.py:136-155 | a failed download, transform or upload requests no move: the file stays where it was |
| IntakeHttp.StepEmptyAdvances | ingestion_fuction/main.py:139-151 | an empty result is not uploaded, and the file still moves to processed |
| IntakeHttp.StepUploadIsTransform | ingestion_fuction/main.py:137-147 | the only upload is the non-empty transform of the download, as CSV to the file's path, before the move |
| IntakeHttp.SweepSettles | ingestion_fuction/main.py:124-155 | each listed file ends in processed exactly when its own iteration succeeds; the count is the number in processed; no other file moves |
| IntakeHttp.SweepAccountSkips | ingestion_fuction/main.py:124-129 | an account without a `pending` or a `processed` sub-folder moves nothing |
| IntakeHttp.AccountsSkip | ingestion_fuction/main.py:117-121 | an account without config is skipped |
| IntakeHttp.AccountsRaise | ingestion_fuction/main.py:123-132 | a failed listing for a configured account escapes the handler, keeping the earlier work |
| IntakeHttp.EntryAnswer | ingestion_fuction/main.py:92-158 | a failed initialisation answers ("Error de configuración", 500) before any listing; otherwise the answer is ("Proceso completado.", 200) unless an exception escaped |
| EtlDrive.Coerced | cloud_functions/etl_drive_to_gcs/main.py:83-90 | the coercion succeeds exactly when the final columns exist and include importe and fecha, keeping the row count |
| EtlDrive.DropLastExactlyOne | cloud_functions/etl_drive_to_gcs/main.py:73-74 | `drop_last_row` removes exactly the last row and keeps the rest in order |
| EtlDrive.TransformFailures | cloud_functions/etl_drive_to_gcs/main.py:62-98 | reader failure, an Excel source without `columns`, or neither `columns_map` nor `final_columns` raises; a non-empty result needs `source_type` |
| EtlDrive.CleanShape | cloud_functions/etl_drive_to_gcs/main.py:83-101 | a non-empty result has transaccion_id, fecha, concepto, importe, origen, entidad; each id hashes the entity (default "unknown") and the row's own cells, none missing |
| EtlDrive.UploadPathKeepsId | cloud_functions/etl_drive_to_gcs/main.py:104 | files sharing a name go to different objects, since the object name carries the file id |
| EtlDrive.AttemptUploads | cloud_functions/etl_drive_to_gcs/main.py:62-109 | the `try` block moves nothing, and uploads only the non-empty transform of the download to the file's path |
| EtlDrive.StepAlwaysMoves | cloud_functions/etl_drive_to_gcs/main.py:56-111 | every iteration ends with exactly one move to processed, whatever happened before; the file is in processed exactly when Drive accepts it |
| EtlDrive.StepEmptyMoves | cloud_functions/etl_drive_to_gcs/main.py:94-111 | an empty result is not uploaded and the file is moved all the same |
| EtlDrive.SweepMovesAll | cloud_functions/etl_drive_to_gcs/main.py:114-127 | each listed file ends in processed exactly when Drive accepts its move; the count is the number in processed; no other file moves |
| EtlDrive.ProcessSourceEdges | cloud_functions/etl_drive_to_gcs/main.py:114-127 | a failed listing skips the source; missing folder keys make it escape without moving anything |
| EtlDrive.MainAnswer | cloud_functions/etl_drive_to_gcs/main.py:130-144 | answers 200 exactly when no source escaped, else 500; a failed config or credential answers 500 without touching Drive |
| EtlDrive.SourcesStop | cloud_functions/etl_drive_to_gcs/main.py:138-144 | a source that escapes ends the loop over sources |
| EtlDrive.SourcesGrow | cloud_functions/etl_drive_to_gcs/main.py:138-139 | the loop over sources only appends to the log and never lowers the count |
| CardPayments.ExtractAccepts | cloud_functions/drive_to_gcs_card_payments/main.py:64-71 | an event is accepted exactly when it has an id, a name and a first parent with an id, and those are used |
| CardPayments.BadEventRejected | cloud_functions/drive_to_gcs_card_payments/main.py:64-71 | a malformed event answers 400 before any download |
| CardPayments.Coerced | cloud_functions/drive_to_gcs_card_payments/main.py:84-88 | naming the columns succeeds exactly for three columns, keeping the row count |
| CardPayments.CoercedRow | cloud_functions/drive_to_gcs_card_payments/main.py:84-88 | each coerced row is the sheet row with its first cell read as a date and its third as a number |
| CardPayments.SelectAfterDropLast | cloud_functions/drive_to_gcs_card_payments/main.py:91-93 | dropping the last row and selecting the three columns keeps every other row |
| CardPayments.TrimmedRow | cloud_functions/drive_to_gcs_card_payments/main.py:87-94 | every row that survives trimming is a coerced row other than the last |
| CardPayments.CleanShape | cloud_functions/drive_to_gcs_card_payments/main.py:84-100 | each output row has fecha, concepto and importe present, the id hashes them, origen "tarjeta" and entidad "bankinter" |
| CardPayments.CleanEmpty | cloud_functions/drive_to_gcs_card_payments/main.py:94-108 | an empty result arises only when no row survived, and only when `apply` on an empty frame does not raise |
| CardPayments.CleanRowsFromSheet | cloud_functions/drive_to_gcs_card_payments/main.py:84-100 | every output row comes from a sheet row other than the last |
| CardPayments.CleanKeepsCompleteRows | cloud_functions/drive_to_gcs_card_payments/main.py:84-100 | conversely, every sheet row other than the last whose date, text and amount come out present reaches the output |
| CardPayments.UploadPathKeepsEvent | cloud_functions/drive_to_gcs_card_payments/main.py:115 | uploads under different event ids never collide |
| CardPayments.DeliverFacts | cloud_functions/drive_to_gcs_card_payments/main.py:106-124 | the file moves only to processed, only after its upload; "completed" exactly when the upload was accepted; an empty result answers 200 with no upload or move |
| CardPayments.HandleFacts | cloud_functions/drive_to_gcs_card_payments/main.py:60-124 | at most the event's file moves, only to processed; an escaped exception leaves Drive untouched; every upload is the cleaning of the download |
| CardPayments.AsWrittenIgnoresDownload | cloud_functions/drive_to_gcs_card_payments/main.py:76-81 | as written, the uploaded rows are those of the workbook on disk, whatever the event |
| CardPayments.AsWrittenSameRowsForAnyFile | cloud_functions/drive_to_gcs_card_payments/main.py:81 | as written, two events about different files upload the same rows |
| CardPayments.UploadFromDownload | cloud_functions/drive_to_gcs_card_payments/main.py:76-100 | as intended, the uploaded rows are the cleaning of the event's own download, each from a row of that sheet |
| ExternalTable.TableNameHasNoSlash | cloud_functions/create_external_table/main.py:23-24 | a table name never contains '/' |
| ExternalTable.TableOfAccountFile | cloud_functions/create_external_table/main.py:22-26 | `bank/account/file` gives table `bank_account`, id project.dataset.bank_account, URI gs://bucket/bank/account/* |
| ExternalTable.RootFileNames | cloud_functions/create_external_table/main.py:22-26 | a root-level file gives an empty table name |
| ExternalTable.SameDirectorySameTable | cloud_functions/create_external_table/main.py:22-26 | files in the same directory ask for the same table, covering that whole directory |
| ExternalTable.MainReplaces | cloud_functions/create_external_table/main.py:40-53 | success leaves exactly the new definition under the id and every other table untouched; a failed creation leaves no table under the id |
| ExternalTable.MissingKeysRaise | cloud_functions/create_external_table/main.py:15-16 | a missing bucket or name raises before BigQuery is called |
| ExternalTable.MainIdempotent | cloud_functions/create_external_table/main.py:40-49 | a second file in the same directory leaves the catalogue as the first did |
| GcsToBq.RejectsWithoutLoad | cloud_functions/gcs_to_bq/main.py:20-31 | a malformed event answers 400 and a name outside the two folders answers "ignored", with no load |
| GcsToBq.LoadsTheObject | cloud_functions/gcs_to_bq/main.py:39-53 | at most one load job, only for a name in the two folders, reading exactly gs://bucket/name |
| GcsToBq.AppendOnly | cloud_functions/gcs_to_bq/main.py:43-53 | the table afterwards is the table before, possibly followed by the loaded records |
| GcsToBq.CompletedIff | cloud_functions/gcs_to_bq/main.py:43-71 | "completed" exactly when the event is valid, the folder matches and schema, load and read-back all succeed; every later failure escapes |
| GcsToBq.FolderTestIsCaseSensitive | cloud_functions/gcs_to_bq/main.py:29-31 | a `cuenta/` object is ignored |
| AiSuggest.GenerateFirstSuccess | scripts/ai_suggest.py:104-118 | the first answering model's text is returned, having called exactly the models up to it; when none answers all are called and nothing returned |
| AiSuggest.GenerateSomeIff | scripts/ai_suggest.py:111-118 | some text comes back exactly when some model answers |
| AiSuggest.UnfencedHasNoFence | scripts/ai_suggest.py:141 | removing every fence left to right leaves no fence |
| AiSuggest.CleanHasNoFence | scripts/ai_suggest.py:141 | the cleaned text has no fence and no surrounding whitespace |
| AiSuggest.CleanIdempotent | scripts/ai_suggest.py:141 | cleaning twice is cleaning once |
| AiSuggest.CleanUnwrapsBlock | scripts/ai_suggest.py:140-141 | a fenced CSV block comes back as its stripped body |
| AiSuggest.ReplaceAbsent | scripts/ai_suggest.py:141 | replacing a pattern that does not occur changes nothing |
| AiSuggest.RunCrashes | scripts/ai_suggest.py:13-36 | an unset credentials variable, a missing or empty key, or a BigQuery client that cannot be built each exit with status 1 having written nothing and called no model; status 1 has no other cause |
| AiSuggest.RunGates | scripts/ai_suggest.py:124-132 | past those failures, no concepts (a failed query counts as none) exits 0 before any model call |
| AiSuggest.ContextFallbacks | scripts/ai_suggest.py:58-72 | a missing mapping file and an unreadable one give the two fixed texts |
| AiSuggest.RunWrites | scripts/ai_suggest.py:137-147 | once the credentials, key and client are in place and there are concepts, a file is written exactly when the first answering model gives non-empty text: the header, then that text cleaned; with no answer nothing is written |

## Left out

- Reading CSV and Excel files, `to_datetime`, `to_numeric`, `float()`, `locale.atof`, `"%.2f"` formatting, `str()` of a cell and SHA-256 are oracle fields of `Pandas`. The model proves facts about the text handed to them, not about their results.
- Floating point: amounts stay text until an oracle parses them; `NaN` is `Null`.
- Drive, Cloud Storage, BigQuery, Secret Manager, Gemini and Cloud Run clients are oracles. So are credentials, which are a boolean saying whether they load. Environment variables are parameters; in `scripts/ai_suggest.py` the credentials variable is a boolean saying whether it is set, because an unset one fails at import.
- Logging is left out, except for the critical line after a failed rollback. Console output is left out too.
- Concurrency is left out. Overlapping runs racing on the `in_progress` lease are not modelled; each run is sequential.
- `sheet_name` in the HTTP function's reader options is left out. The reader oracle is given only skip rows and skip footer. Sheet selection is library behaviour.
- Path handling follows `posixpath` and `pathlib` on plain names. Normalisation of '.' and '..' components and repeated separators is left out.
- Case mapping is the one-to-one pairs of ASCII and Latin-1 letters only. Python maps more than that, and the model leaves these characters unchanged:
  - `'ß'.upper()` is "SS", so `'ß…'.capitalize()` starts with "Ss";
  - `'µ'.upper()` is U+039C, outside Latin-1;
  - `'ÿ'.upper()` is U+0178, outside Latin-1;
  - every case pair outside Latin-1 (Greek, Cyrillic, U+1E9E and so on).
- Text.CapitalizeIdempotent: holds for the modelled case map only. In Python `'ß'.capitalize()` is "Ss", whose lower-case form differs from "ß".
- Hashing.HashIgnoresCase: holds for the modelled case map only. In Python "ß" and "ẞ" (U+1E9E) have the same lower-case form but upper-case to "SS" and "ẞ", so their preimages differ.
- The BigQuery schema file of `gcs_to_bq` is a boolean saying whether it is found. Its contents and the load job's options are left out.
- The dbt job is modelled by the decision and its arguments only. `trigger_dbt_job`'s request body and its error handling are left out.
- The prompt text of `scripts/ai_suggest.py` is left out. Only the context and the joined concepts enter the prompt.
- The missing `functions_framework` import of the HTTP function fails at import time, so it is outside the modelled logic.
- Clients built at import time are assumed to be built: `storage.Client()` at ingestion/main.py:39, the clients at ingestion_function/main.py:36-38, ingestion_function/main2.py:40-42, ingestion_fuction/main.py:23-24 and cloud_functions/etl_drive_to_gcs/main.py:22-23. A failure there would crash before any modelled gate.
- The `bigquery.Client()` calls inside the handlers, at cloud_functions/create_external_table/main.py:19 and cloud_functions/gcs_to_bq/main.py:34, run outside any `try`. A client that cannot be built is covered by the `deleteOk` and `schemaOk` oracles answering false, which escape in the same way with the catalogue or table untouched.
- Frames.Select: a label carried by several columns is read from its first column, and the selection has one column per requested label. pandas keeps every such column. Such labels arise when the column mapping renames a column onto a label the sheet already has, or maps two keys to one value. Then `pd.to_datetime(df["fecha"])` receives a frame and raises, at ingestion/main.py:156-158, ingestion_function/main2.py:134, ingestion_function/main.py:178-180 and ingestion_fuction/main.py:63. The file then takes its failure path, where the model delivers it. A repeated "concepto" instead uploads an extra column. The model does not promise either behaviour.
- Frames.DropNa: its own contract states which rows are kept. Their order and repetitions are stated about it by Frames.DropNaKeepsOrder, and about its row filter by Frames.KeepCompleteOne and Frames.KeepCompleteAppend.
- Frames.FilterEqual: its own contract states which rows are kept. Their order and repetitions are stated by Frames.FilterEqualKeepsOrder, Frames.KeepEqualOne and Frames.KeepEqualAppend.
- IntakeV1.KeepCompletedRows: states which rows are kept. Their order and repetitions are stated by IntakeV1.KeepCompletedKeepsOrder.
- The HTTP function and the Drive-to-GCS ETL keep no counter. The `counted` flag of their iterations marks a file that reached `processed`, so the loop lemmas can be stated uniformly.
- Hashing.HashPreimageSeparates: separation needs equal widths of the date and amount texts. Their inner '-' characters make the split ambiguous otherwise.

## Findings

| source | as written | input that shows it | evidently intended | confidence | as-written member | corrected member |
|---|---|---|---|---|---|---|
| ingestion_function/main.py:296-303 | `clean_df` is bound to the tuple of the transform's arguments, so `clean_df.empty` raises on every file | any file in `pending` whose lease, download, transform and upload would all succeed | `clean_df = transform_dataframe(...)` | high, not executed | IntakeV1.StepAsWrittenMissesDelivery | IntakeV1.StepOfDelivers |
| ingestion_function/main.py:416-421 | `total_files_processed += (drive_service, ...)` adds a tuple to an int, a TypeError caught per account, so no account is processed | any configured account folder | `total_files_processed += process_account_folder(...)` | high, not executed | IntakeV1.EntryAsWrittenSkipsAccounts | IntakeV1.EntryCountsAccounts |
| cloud_functions/drive_to_gcs_card_payments/main.py:81 | the sheet is read from the local file `tarjeta_julio.xlsx`, not from the downloaded bytes | two events naming different statements with different contents | `pd.read_excel(file_bytes, ...)` | high, not executed | CardPayments.AsWrittenSameRowsForAnyFile | CardPayments.UploadFromDownload |

=== FILE: ai_suggest.dfy ===
/**
 * The command-line assistant in `scripts/ai_suggest.py`: it asks BigQuery
 * for unclassified concepts, asks a list of generative models in turn for a
 * CSV of suggested mappings, strips Markdown code fences from the first
 * answer and writes it under a fixed header.
 */
module AiSuggest {
  import opened Base
  import opened Text

  /** The models tried, in order. */
  const Models: seq<string> := ["gemini-2.0-flash", "gemini-flash-latest", "gemini-pro-latest"]

  /** The first line of the output file. */
  const Header: string := "keyword,priority,grupo_categoria,categoria,subcategoria,entity_name\n"

  /** A Markdown code fence. */
  const Fence: string := "```"

  /** The fence that opens a CSV block. */
  const CsvFence: string := "```csv"

  /** What varies in the prompt: the category context and the concepts
      joined by ", ". */
  datatype Prompt = Prompt(context: string, concepts: string)

  /** The environment of a run. `credsEnvSet` says whether
      `GOOGLE_APPLICATION_CREDENTIALS` is set (assigning `None` back into
      `os.environ` raises at import); `clientOk` whether `bigquery.Client()`
      can be built (it runs outside the `try`); `query` is `None` when the
      query itself raised; `mapping` is the rendered category table,
      `None` when reading it raised; `generate` is `None` when the model
      call raised. */
  datatype Services = Services(
    credsEnvSet: bool,
    apiKey: Option<string>,
    clientOk: bool,
    query: Option<seq<string>>,
    mappingExists: bool,
    mapping: Option<string>,
    generate: (string, Prompt) -> Option<string>)

  // ---------------------------------------------------------------------
  // The steps

  /** `get_uncategorized_concepts`: a failed query is an empty list. */
  function Concepts(svc: Services): seq<string> {
    if svc.query.None? then [] else svc.query.value
  }

  /** `get_categories_context`: the mapping's category table, or one of
      two fixed fallbacks. */
  function Context(svc: Services): string {
    if !svc.mappingExists then "Estructura estándar de finanzas personales."
    else if svc.mapping.None? then "Estructura estándar."
    else svc.mapping.value
  }

  /** `", ".join(xs)`. */
  function Join(xs: seq<string>): string {
    if xs == [] then "" else if |xs| == 1 then xs[0] else xs[0] + ", " + Join(xs[1..])
  }

  /** The models called and the first answer obtained. */
  datatype Attempts = Attempts(calls: seq<string>, text: Option<string>)

  /** `generate_suggestions`' loop: each model in turn until one answers. */
  function Generate(models: seq<string>, prompt: Prompt, gen: (string, Prompt) -> Option<string>): Attempts
    decreases |models|
  {
    if models == [] then Attempts([], None)
    else
      match gen(models[0], prompt)
      case Some(t) => Attempts([models[0]], Some(t))
      case None =>
        var rest := Generate(models[1..], prompt, gen);
        Attempts([models[0]] + rest.calls, rest.text)
  }

  /** The cleaning: "```csv" removed, then every "```", then `strip`. */
  function Clean(raw: string): string {
    Strip(ReplaceAll(ReplaceAll(raw, CsvFence, ""), Fence, ""))
  }

  /** What a run ends with: the exit status, the file written if any, and
      the models called. */
  datatype Exit = Exit(code: int, written: Option<string>, calls: seq<string>)

  /** The script as a whole. An unset credentials variable fails at
      import, a missing or empty key exits with 1, and a client that cannot
      be built escapes, also with status 1; no concepts exit with 0; an
      empty or missing answer writes nothing. */
  function Run(svc: Services): Exit {
    if !svc.credsEnvSet then Exit(1, None, [])
    else if svc.apiKey.None? || svc.apiKey.value == "" then Exit(1, None, [])
    else if !svc.clientOk then Exit(1, None, [])
    else if Concepts(svc) == [] then Exit(0, None, [])
    else
      var a := Generate(Models, Prompt(Context(svc), Join(Concepts(svc))), svc.generate);
      if a.text.None? || a.text.value == "" then Exit(0, None, a.calls)
      else Exit(0, Some(Header + Clean(a.text.value)), a.calls)
  }

  // ---------------------------------------------------------------------
  // The model fallback

  /** Model `k` is the first that answers. */
  predicate FirstSuccessAt(models: seq<string>, prompt: Prompt, gen: (string, Prompt) -> Option<string>, k: nat) {
    && k < |models| && gen(models[k], prompt).Some?
    && forall j :: 0 <= j < k ==> gen(models[j], prompt).None?
  }

  /** The loop returns the answer of the first model that gives one, having
      called exactly the models up to it; when none answers it returns
      nothing, having called them all. */
  lemma {:induction false} GenerateFirstSuccess(models: seq<string>, prompt: Prompt, gen: (string, Prompt) -> Option<string>, k: nat)
    ensures FirstSuccessAt(models, prompt, gen, k) ==>
      Generate(models, prompt, gen) == Attempts(models[..k + 1], gen(models[k], prompt))
    ensures (forall j :: 0 <= j < |models| ==> gen(models[j], prompt).None?) ==>
      Generate(models, prompt, gen) == Attempts(models, None)
    decreases |models|
  {
    if models != [] {
      var tail := models[1..];
      if gen(models[0], prompt).None? {
        if k > 0 && FirstSuccessAt(models, prompt, gen, k) {
          assert FirstSuccessAt(tail, prompt, gen, k - 1) by {
            forall j | 0 <= j < k - 1 ensures gen(tail[j], prompt).None? {
              assert tail[j] == models[j + 1];
            }
          }
          GenerateFirstSuccess(tail, prompt, gen, k - 1);
          assert [models[0]] + tail[..k] == models[..k + 1];
        }
        if forall j :: 0 <= j < |models| ==> gen(models[j], prompt).None? {
          assert forall j :: 0 <= j < |tail| ==> gen(tail[j], prompt).None? by {
            forall j | 0 <= j < |tail| ensures gen(tail[j], prompt).None? {
              assert tail[j] == models[j + 1];
            }
          }
          GenerateFirstSuccess(tail, prompt, gen, 0);
          assert [models[0]] + tail == models;
        }
      } else if FirstSuccessAt(models, prompt, gen, k) {
        assert k == 0;
        assert models[..1] == [models[0]];
      }
    }
  }

  /** Some answer comes back exactly when some model gives one. */
  lemma {:induction false} GenerateSomeIff(models: seq<string>, prompt: Prompt, gen: (string, Prompt) -> Option<string>)
    ensures Generate(models, prompt, gen).text.Some? <==> exists k :: 0 <= k < |models| && gen(models[k], prompt).Some?
  {
    if exists k :: 0 <= k < |models| && gen(models[k], prompt).Some? {
      var k := FirstIndex(models, prompt, gen);
      GenerateFirstSuccess(models, prompt, gen, k);
    } else {
      GenerateFirstSuccess(models, prompt, gen, 0);
    }
  }

  /** The first model that answers, when one does. */
  function FirstIndex(models: seq<string>, prompt: Prompt, gen: (string, Prompt) -> Option<string>): (k: nat)
    requires exists k :: 0 <= k < |models| && gen(models[k], prompt).Some?
    ensures FirstSuccessAt(models, prompt, gen, k)
    decreases |models|
  {
    if gen(models[0], prompt).Some? then 0
    else
      var tail := models[1..];
      assert exists k :: 0 <= k < |tail| && gen(tail[k], prompt).Some? by {
        var k :| 0 <= k < |models| && gen(models[k], prompt).Some?;
        assert k > 0 && tail[k - 1] == models[k];
      }
      var k := FirstIndex(tail, prompt, gen);
      assert forall j :: 0 < j <= k ==> models[j] == tail[j - 1];
      k + 1
  }

  // ---------------------------------------------------------------------
  // The cleaning

  /** No slice of `s` of length three is a fence. */
  predicate NoFenceAt(s: string) {
    forall i :: 0 <= i && i + 3 <= |s| ==> At(s, i, 3) != Fence
  }

  function Unfenced(t: string): string {
    ReplaceAll(t, Fence, "")
  }

  /** Removing fences from a string that does not start with a backtick
      keeps its first character. */
  lemma {:induction false} UnfencedKeepsFirst(t: string)
    requires t != [] && t[0] != '`'
    ensures Unfenced(t) != [] && Unfenced(t)[0] == t[0]
  {
    if |t| >= 3 {
      assert t[..3][0] == t[0];
    }
  }

  /** Removing every fence left to right leaves no fence: a backtick is
      kept only when one of the next two characters is not a backtick, and
      the character before a removed fence is not a backtick. */
  lemma {:induction false} UnfencedHasNoFence(t: string)
    ensures NoFenceAt(Unfenced(t))
    decreases |t|
  {
    if |t| < 3 {
      assert Unfenced(t) == t;
    } else {
      if t[..3] == Fence {
        assert Unfenced(t) == "" + Unfenced(t[3..]) == Unfenced(t[3..]);
        UnfencedHasNoFence(t[3..]);
      } else {
        var r' := Unfenced(t[1..]);
        UnfencedHasNoFence(t[1..]);
        var r := [t[0]] + r';
        assert Unfenced(t) == r;
        forall i | 0 <= i && i + 3 <= |r| ensures At(r, i, 3) != Fence {
          if i > 0 {
            assert At(r, i, 3) == At(r', i - 1, 3);
          } else if t[0] != '`' {
            assert At(r, 0, 3)[0] == t[0];
          } else {
            if t[1] != '`' {
              UnfencedKeepsFirst(t[1..]);
              assert At(r, 0, 3)[1] == r'[0];
            } else {
              assert t[2] != '`' by {
                assert t[..3] == [t[0], t[1], t[2]];
              }
              var u := t[1..];
              if |u| >= 3 {
                assert u[..3][1] == t[2];
                assert r' == [u[0]] + Unfenced(u[1..]);
                UnfencedKeepsFirst(u[1..]);
                assert At(r, 0, 3)[2] == r'[1] == t[2];
              } else {
                assert r' == u;
                assert At(r, 0, 3)[2] == u[1] == t[2];
              }
            }
          }
        }
      }
    }
  }

  /** A slice of a string without fences has none. */
  lemma {:induction false} NoFenceSlice(s: string, a: nat, b: nat)
    requires NoFenceAt(s) && a <= b <= |s|
    ensures NoFenceAt(s[a..b])
  {
    forall i | 0 <= i && i + 3 <= b - a ensures At(s[a..b], i, 3) != Fence {
      var x, y := At(s[a..b], i, 3), At(s, a + i, 3);
      assert x == s[a..b][i..i + 3] && y == s[a + i..a + i + 3];
      assert x[0] == y[0] && x[1] == y[1] && x[2] == y[2];
      assert x == y;
    }
  }

  /** `strip` returns a slice of its argument. */
  lemma {:induction false} StripIsSlice(s: string)
    ensures exists a, b :: 0 <= a <= b <= |s| && Strip(s) == s[a..b]
  {
    var l := TrimLeft(s);
    var a := |s| - |l|;
    var r := TrimRight(l);
    assert Strip(s) == r;
    assert l == s[a..] && r == l[..|r|];
    assert r == s[a..a + |r|];
  }

  /** The cleaned answer contains no fence and neither starts nor ends with
      whitespace. */
  lemma {:induction false} CleanHasNoFence(raw: string)
    ensures !Contains(Clean(raw), Fence)
    ensures Clean(raw) == [] || (!IsSpace(Clean(raw)[0]) && !IsSpace(Clean(raw)[|Clean(raw)| - 1]))
  {
    var u := Unfenced(ReplaceAll(raw, CsvFence, ""));
    UnfencedHasNoFence(ReplaceAll(raw, CsvFence, ""));
    StripIsSlice(u);
    var a, b :| 0 <= a <= b <= |u| && Strip(u) == u[a..b];
    NoFenceSlice(u, a, b);
    ContainsAt(Clean(raw), Fence);
  }

  /** Replacing a pattern that does not occur changes nothing. */
  lemma {:induction false} ReplaceAbsent(s: string, p: string, rep: string)
    requires |p| > 0 && !Contains(s, p)
    ensures ReplaceAll(s, p, rep) == s
    decreases |s|
  {
    if |s| >= |p| {
      assert !StartsWith(s, p);
      ReplaceAbsent(s[1..], p, rep);
      assert [s[0]] + s[1..] == s;
    }
  }

  /** A string without fences has no CSV fence either. */
  lemma {:induction false} NoCsvFence(s: string)
    requires !Contains(s, Fence)
    ensures !Contains(s, CsvFence)
    decreases |s|
  {
    if s != [] {
      NoCsvFence(s[1..]);
    }
  }

  /** Cleaning is idempotent. */
  lemma {:induction false} CleanIdempotent(raw: string)
    ensures Clean(Clean(raw)) == Clean(raw)
  {
    var c := Clean(raw);
    CleanHasNoFence(raw);
    NoCsvFence(c);
    ReplaceAbsent(c, CsvFence, "");
    ReplaceAbsent(c, Fence, "");
    StripIdempotent(ReplaceAll(ReplaceAll(raw, CsvFence, ""), Fence, ""));
  }

  /** Text before the first backtick passes through fence removal. */
  lemma {:induction false} ReplaceSkipsPlainPrefix(x: string, y: string, p: string, rep: string)
    requires |p| > 0 && p[0] == '`' && '`' !in x
    ensures ReplaceAll(x + y, p, rep) == x + ReplaceAll(y, p, rep)
    decreases |x|
  {
    if x == [] {
      assert x + y == y;
    } else {
      var s := x + y;
      if |s| >= |p| {
        assert s[..|p|][0] == x[0] != p[0];
      } else {
        ReplaceShort(y, p, rep);
      }
      assert s[1..] == x[1..] + y;
      ReplaceSkipsPlainPrefix(x[1..], y, p, rep);
    }
  }

  lemma ReplaceShort(y: string, p: string, rep: string)
    requires 0 < |p| && |y| < |p|
    ensures ReplaceAll(y, p, rep) == y
  {
  }

  /** A CSV block wrapped in fences comes back as its stripped body. */
  lemma {:induction false} CleanUnwrapsBlock(body: string)
    requires '`' !in body
    ensures Clean(CsvFence + body + Fence) == Strip(body)
  {
    var s := CsvFence + body + Fence;
    assert s[..6] == CsvFence;
    assert s[6..] == body + Fence;
    ReplaceSkipsPlainPrefix(body, Fence, CsvFence, "");
    assert ReplaceAll(s, CsvFence, "") == body + Fence;
    ReplaceSkipsPlainPrefix(body, Fence, Fence, "");
    assert ReplaceAll(Fence, Fence, "") == "" by {
      assert Fence[..3] == Fence;
      assert Fence[3..] == "";
    }
    assert body + "" == body;
  }

  // ---------------------------------------------------------------------
  // The run

  /** The failures before any model is called all end with status 1 and
      nothing written: an unset credentials variable (at import), a
      missing or empty key, and a BigQuery client that cannot be built.
      Status 1 arises from those three causes only. */
  lemma RunCrashes(svc: Services)
    ensures !svc.credsEnvSet ==> Run(svc) == Exit(1, None, [])
    ensures svc.apiKey.None? || svc.apiKey == Some("") ==> Run(svc) == Exit(1, None, [])
    ensures !svc.clientOk ==> Run(svc) == Exit(1, None, [])
    ensures Run(svc).code == 1 <==>
      !svc.credsEnvSet || svc.apiKey.None? || svc.apiKey == Some("") || !svc.clientOk
  {
  }

  /** Past those, nothing to classify exits with 0 before any model is
      called, a failed query counting as nothing. */
  lemma RunGates(svc: Services)
    ensures && svc.credsEnvSet && svc.apiKey.Some? && svc.apiKey != Some("") && svc.clientOk
            && (svc.query.None? || svc.query == Some([])) ==>
      Run(svc) == Exit(0, None, [])
  {
  }

  /** The category context falls back to the two fixed texts. */
  lemma ContextFallbacks(svc: Services)
    ensures !svc.mappingExists ==> Context(svc) == "Estructura estándar de finanzas personales."
    ensures svc.mappingExists && svc.mapping.None? ==> Context(svc) == "Estructura estándar."
    ensures svc.mappingExists && svc.mapping.Some? ==> Context(svc) == svc.mapping.value
  {
  }

  /** A file is written exactly when the first model that answers gives a
      non-empty text; it is the header followed by that text cleaned. When
      no model answers, all three were called and nothing is written. */
  lemma {:induction false} RunWrites(svc: Services, k: nat)
    requires svc.credsEnvSet && svc.apiKey.Some? && svc.apiKey != Some("") && svc.clientOk && Concepts(svc) != []
    ensures var prompt := Prompt(Context(svc), Join(Concepts(svc)));
      FirstSuccessAt(Models, prompt, svc.generate, k) ==>
        && Run(svc).calls == Models[..k + 1]
        && var text := svc.generate(Models[k], prompt).value;
        && (Run(svc).written.Some? <==> text != "")
        && (text != "" ==> Run(svc).written == Some(Header + Clean(text)))
    ensures var prompt := Prompt(Context(svc), Join(Concepts(svc)));
      (forall j :: 0 <= j < |Models| ==> svc.generate(Models[j], prompt).None?) ==>
        Run(svc) == Exit(0, None, Models)
  {
    var prompt := Prompt(Context(svc), Join(Concepts(svc)));
    GenerateFirstSuccess(Models, prompt, svc.generate, k);
  }
}

=== FILE: amounts.dfy ===
/**
 * How each intake variant turns the text of an amount cell into a number.
 * Parsing (`float`, `locale.atof`, `pd.to_numeric`) is library behaviour and
 * stays abstract; what is modelled is the rewrite of the text handed to it.
 */
module Amounts {
  import opened Base
  import opened Text
  import opened Frames

  // ---------------------------------------------------------------------
  // `unify_importe_format`

  /** The text `unify_importe_format` hands to `float()`: the stripped input
      with every '.' deleted and every ',' turned into '.' when both occur,
      with every ',' turned into '.' when only ',' occurs, unchanged
      otherwise. */
  function Unified(x: string): string {
    var s := Strip(x);
    if ',' in s && '.' in s then ReplaceAll(ReplaceAll(s, ".", ""), ",", ".")
    else if ',' in s && '.' !in s then ReplaceAll(s, ",", ".")
    else s
  }

  /** The same rewrite as written in the local runner, whose second test is
      only `"," in s`. */
  function UnifiedLocal(x: string): string {
    var s := Strip(x);
    if ',' in s && '.' in s then ReplaceAll(ReplaceAll(s, ".", ""), ",", ".")
    else if ',' in s then ReplaceAll(s, ",", ".")
    else s
  }

  /** `unify_importe_format(x)` on one cell: a missing value passes through;
      otherwise the rewritten text is parsed, and a text `float()` rejects
      becomes a missing value. */
  function UnifyCell(lib: Pandas, x: Cell): (r: Cell)
    ensures x.Null? ==> r.Null?
    ensures !x.Null? ==> (r.Null? <==> lib.parseFloat(Unified(Show(lib, x))).None?)
    ensures !x.Null? && r.Num? ==> Some(r.x) == lib.parseFloat(Unified(Show(lib, x)))
  {
    if x.Null? then x
    else
      match lib.parseFloat(Unified(Show(lib, x)))
      case Some(v) => Num(v)
      case None => Null
  }

  /** The local runner's version on one cell. */
  function UnifyCellLocal(lib: Pandas, x: Cell): (r: Cell)
    ensures x.Null? ==> r.Null?
    ensures !x.Null? ==> (r.Null? <==> lib.parseFloat(UnifiedLocal(Show(lib, x))).None?)
  {
    if x.Null? then x
    else
      match lib.parseFloat(UnifiedLocal(Show(lib, x)))
      case Some(v) => Num(v)
      case None => Null
  }

  // ---------------------------------------------------------------------
  // The other variants

  /** `\d` in a `str` pattern: a Unicode decimal digit (general category
      Nd, Unicode 15.0), not only '0' to '9'. The disjuncts are the
      code-point ranges of those digits. */
  predicate DecimalDigit(c: char) {
    var n := c as int;
    || (0x30 <= n <= 0x39) || (0x660 <= n <= 0x669) || (0x6F0 <= n <= 0x6F9)
    || (0x7C0 <= n <= 0x7C9) || (0x966 <= n <= 0x96F) || (0x9E6 <= n <= 0x9EF)
    || (0xA66 <= n <= 0xA6F) || (0xAE6 <= n <= 0xAEF) || (0xB66 <= n <= 0xB6F)
    || (0xBE6 <= n <= 0xBEF) || (0xC66 <= n <= 0xC6F) || (0xCE6 <= n <= 0xCEF)
    || (0xD66 <= n <= 0xD6F) || (0xDE6 <= n <= 0xDEF) || (0xE50 <= n <= 0xE59)
    || (0xED0 <= n <= 0xED9) || (0xF20 <= n <= 0xF29) || (0x1040 <= n <= 0x1049)
    || (0x1090 <= n <= 0x1099) || (0x17E0 <= n <= 0x17E9) || (0x1810 <= n <= 0x1819)
    || (0x1946 <= n <= 0x194F) || (0x19D0 <= n <= 0x19D9) || (0x1A80 <= n <= 0x1A89)
    || (0x1A90 <= n <= 0x1A99) || (0x1B50 <= n <= 0x1B59) || (0x1BB0 <= n <= 0x1BB9)
    || (0x1C40 <= n <= 0x1C49) || (0x1C50 <= n <= 0x1C59) || (0xA620 <= n <= 0xA629)
    || (0xA8D0 <= n <= 0xA8D9) || (0xA900 <= n <= 0xA909) || (0xA9D0 <= n <= 0xA9D9)
    || (0xA9F0 <= n <= 0xA9F9) || (0xAA50 <= n <= 0xAA59) || (0xABF0 <= n <= 0xABF9)
    || (0xFF10 <= n <= 0xFF19) || (0x104A0 <= n <= 0x104A9) || (0x10D30 <= n <= 0x10D39)
    || (0x11066 <= n <= 0x1106F) || (0x110F0 <= n <= 0x110F9) || (0x11136 <= n <= 0x1113F)
    || (0x111D0 <= n <= 0x111D9) || (0x112F0 <= n <= 0x112F9) || (0x11450 <= n <= 0x11459)
    || (0x114D0 <= n <= 0x114D9) || (0x11650 <= n <= 0x11659) || (0x116C0 <= n <= 0x116C9)
    || (0x11730 <= n <= 0x11739) || (0x118E0 <= n <= 0x118E9) || (0x11950 <= n <= 0x11959)
    || (0x11C50 <= n <= 0x11C59) || (0x11D50 <= n <= 0x11D59) || (0x11DA0 <= n <= 0x11DA9)
    || (0x11F50 <= n <= 0x11F59) || (0x16A60 <= n <= 0x16A69) || (0x16AC0 <= n <= 0x16AC9)
    || (0x16B50 <= n <= 0x16B59) || (0x1D7CE <= n <= 0x1D7FF) || (0x1E140 <= n <= 0x1E149)
    || (0x1E2F0 <= n <= 0x1E2F9) || (0x1E4F0 <= n <= 0x1E4F9) || (0x1E950 <= n <= 0x1E959)
    || (0x1FBF0 <= n <= 0x1FBF9)
  }

  /** Characters kept by the regular expression `[^\d,.-]` removal. */
  predicate NumericChar(c: char) {
    DecimalDigit(c) || c == ',' || c == '.' || c == '-'
  }

  /** `re.sub(r'[^\d,.-]', '', s)`: keeps exactly the digits, commas, dots
      and minus signs, in order. */
  function KeepNumeric(s: string): (r: string)
    ensures |r| <= |s|
    ensures forall i :: 0 <= i < |r| ==> NumericChar(r[i])
    ensures forall c :: c in r <==> c in s && NumericChar(c)
  {
    if s == [] then []
    else if NumericChar(s[0]) then [s[0]] + KeepNumeric(s[1..])
    else KeepNumeric(s[1..])
  }

  /** One amount cell in the second Cloud Function variant: the text with
      every other character removed, parsed by `locale.atof` (which raises
      on a text it rejects), then `pd.to_numeric`. */
  function AtofCell(lib: Pandas, x: Cell): (r: Option<Cell>)
    ensures r.None? <==> lib.atof(KeepNumeric(Show(lib, x))).None?
    ensures r.Some? ==> r.value == lib.toNumeric(Num(lib.atof(KeepNumeric(Show(lib, x))).value))
  {
    match lib.atof(KeepNumeric(Show(lib, x)))
    case Some(v) => Some(lib.toNumeric(Num(v)))
    case None => None
  }

  /** One amount cell in the HTTP variant: its text with every ',' turned
      into '.', then `pd.to_numeric(errors='coerce')`. */
  function CommaToDotCell(lib: Pandas, x: Cell): (r: Cell)
    ensures exists t :: && r == lib.toNumeric(Str(t)) && ',' !in t && |t| == |Show(lib, x)|
                        && forall i :: 0 <= i < |t| ==> t[i] == (if Show(lib, x)[i] == ',' then '.' else Show(lib, x)[i])
  {
    ReplaceOneChar(Show(lib, x), ',', ".");
    MapCharRemoves(Show(lib, x), ',', ".");
    MapCharSameLength(Show(lib, x), ',', '.');
    lib.toNumeric(Str(ReplaceAll(Show(lib, x), ",", ".")))
  }

  // ---------------------------------------------------------------------
  // Properties

  /** Number of occurrences of `c`. */
  function Count(s: string, c: char): nat {
    if s == [] then 0 else (if s[0] == c then 1 else 0) + Count(s[1..], c)
  }

  /** The characters of `s` other than separators, in order. */
  function Digits(s: string): string {
    if s == [] then []
    else if s[0] == ',' || s[0] == '.' then Digits(s[1..])
    else [s[0]] + Digits(s[1..])
  }

  /** The rewritten text never contains a ','. */
  lemma {:induction false} UnifiedNoComma(x: string)
    ensures ',' !in Unified(x)
  {
    var s := Strip(x);
    if ',' in s && '.' in s {
      ReplaceOneChar(s, '.', "");
      ReplaceOneChar(MapChar(s, '.', ""), ',', ".");
      MapCharRemoves(MapChar(s, '.', ""), ',', ".");
    } else if ',' in s {
      ReplaceOneChar(s, ',', ".");
      MapCharRemoves(s, ',', ".");
    }
  }

  /** Both versions of the rewrite agree on every input. */
  lemma UnifiedVersionsAgree(x: string)
    ensures Unified(x) == UnifiedLocal(x)
  {
  }

  /** The rewrite neither adds nor loses anything but separators: the
      characters other than ',' and '.' are those of the stripped input, in
      the same order. */
  lemma {:induction false} UnifiedKeepsDigits(x: string)
    ensures Digits(Unified(x)) == Digits(Strip(x))
  {
    var s := Strip(x);
    if ',' in s && '.' in s {
      ReplaceOneChar(s, '.', "");
      ReplaceOneChar(MapChar(s, '.', ""), ',', ".");
      DigitsMapChar(s, '.', "");
      DigitsMapChar(MapChar(s, '.', ""), ',', ".");
    } else if ',' in s {
      ReplaceOneChar(s, ',', ".");
      DigitsMapChar(s, ',', ".");
    }
  }

  /** When the stripped input holds a ',', every ',' becomes a decimal
      point and no other '.' survives. */
  lemma {:induction false} UnifiedDecimalPoints(x: string)
    requires ',' in Strip(x)
    ensures Count(Unified(x), '.') == Count(Strip(x), ',')
  {
    var s := Strip(x);
    if '.' in s {
      ReplaceOneChar(s, '.', "");
      ReplaceOneChar(MapChar(s, '.', ""), ',', ".");
      CountMapCharDrop(s);
      MapCharRemoves(s, '.', "");
      CountMapCharComma(MapChar(s, '.', ""));
    } else {
      ReplaceOneChar(s, ',', ".");
      CountMapCharComma(s);
      CountAbsent(s, '.');
    }
  }

  /** Without a ',' the stripped input is handed over unchanged. */
  lemma UnifiedWithoutComma(x: string)
    requires ',' !in Strip(x)
    ensures Unified(x) == Strip(x)
  {
  }

  /** With both separators, the rewrite deletes every '.' and then turns
      every ',' into '.'. */
  lemma {:induction false} UnifiedBoth(x: string)
    requires ',' in Strip(x) && '.' in Strip(x)
    ensures Unified(x) == MapChar(MapChar(Strip(x), '.', ""), ',', ".")
  {
    ReplaceOneChar(Strip(x), '.', "");
    ReplaceOneChar(MapChar(Strip(x), '.', ""), ',', ".");
  }

  /** An amount written "a,b.c" becomes "a.bc": the ',' is taken for the
      decimal point and the '.' is dropped. */
  lemma {:induction false} UnifiedCommaThenDot(a: string, b: string, c: string)
    requires Plain(a) && Plain(b) && Plain(c)
    requires a != [] && !IsSpace(a[0]) && c != [] && !IsSpace(c[|c| - 1])
    ensures Unified(a + "," + b + "." + c) == a + "." + b + c
  {
    UnifiedAsMapChar(a, ',', b, '.', c);
    CommaThenDotMapChar(a, b, c);
  }

  /** An amount written "a.b,c" becomes "ab.c": the '.' is taken for a
      thousands separator. */
  lemma {:induction false} UnifiedDotThenComma(a: string, b: string, c: string)
    requires Plain(a) && Plain(b) && Plain(c)
    requires a != [] && !IsSpace(a[0]) && c != [] && !IsSpace(c[|c| - 1])
    ensures Unified(a + "." + b + "," + c) == a + b + "." + c
  {
    UnifiedAsMapChar(a, '.', b, ',', c);
    DotThenCommaMapChar(a, b, c);
  }

  /** Both separators present, the ends not blank: the rewrite is the two
      character replacements applied to the text itself. */
  lemma {:induction false} UnifiedAsMapChar(a: string, x: char, b: string, y: char, c: string)
    requires (x == ',' && y == '.') || (x == '.' && y == ',')
    requires a != [] && !IsSpace(a[0]) && c != [] && !IsSpace(c[|c| - 1])
    ensures Unified(a + [x] + b + [y] + c) == MapChar(MapChar(a + [x] + b + [y] + c, '.', ""), ',', ".")
  {
    var x' := a + [x] + b + [y] + c;
    assert x'[0] == a[0];
    assert x'[|x'| - 1] == c[|c| - 1];
    StripPlain(x');
    assert x'[|a|] == x;
    assert x'[|a| + 1 + |b|] == y;
    assert x in x' && y in x';
    UnifiedBoth(x');
  }

  lemma {:induction false} CommaThenDotMapChar(a: string, b: string, c: string)
    requires Plain(a) && Plain(b) && Plain(c)
    ensures MapChar(MapChar(a + "," + b + "." + c, '.', ""), ',', ".") == a + "." + b + c
  {
    NotIn3(a, ",", b, '.');
    DropDot(a + "," + b, c);
    assert MapChar(a + "," + b + "." + c, '.', "") == a + "," + (b + c);
    NotIn3(b, c, "", ',');
    CommaToDot(a, b + c);
    assert a + "." + (b + c) == a + "." + b + c;
  }

  lemma {:induction false} DotThenCommaMapChar(a: string, b: string, c: string)
    requires Plain(a) && Plain(b) && Plain(c)
    ensures MapChar(MapChar(a + "." + b + "," + c, '.', ""), ',', ".") == a + b + "." + c
  {
    assert a + "." + b + "," + c == a + "." + (b + "," + c);
    NotIn3(b, ",", c, '.');
    DropDot(a, b + "," + c);
    assert a + (b + "," + c) == (a + b) + "," + c;
    NotIn3(a, b, "", ',');
    CommaToDot(a + b, c);
  }

  /** "1,000.00" is read as one, not as a thousand. */
  lemma {:induction false} UnifiedThousandsExample()
    ensures Unified("1" + "," + "000" + "." + "00") == "1" + "." + "000" + "00"
  {
    ThousandsParts("1", "000", "00");
  }

  /** "1.234,56" is read as 1234.56. */
  lemma {:induction false} UnifiedEuropeanExample()
    ensures Unified("1" + "." + "234" + "," + "56") == "1" + "234" + "." + "56"
  {
    EuropeanParts("1", "234", "56");
  }

  lemma {:induction false} ThousandsParts(a: string, b: string, c: string)
    requires a == "1" && b == "000" && c == "00"
    ensures Unified(a + "," + b + "." + c) == a + "." + b + c
  {
    assert Plain(a) && Plain(b) && Plain(c) && !IsSpace(a[0]) && !IsSpace(c[|c| - 1]);
    UnifiedCommaThenDot(a, b, c);
  }

  lemma {:induction false} EuropeanParts(a: string, b: string, c: string)
    requires a == "1" && b == "234" && c == "56"
    ensures Unified(a + "." + b + "," + c) == a + b + "." + c
  {
    assert Plain(a) && Plain(b) && Plain(c) && !IsSpace(a[0]) && !IsSpace(c[|c| - 1]);
    UnifiedDotThenComma(a, b, c);
  }

  /** Removing the other characters twice removes nothing more, and a text
      made only of kept characters is left alone. */
  lemma {:induction false} KeepNumericIdempotent(s: string)
    ensures KeepNumeric(KeepNumeric(s)) == KeepNumeric(s)
    decreases |s|
  {
    if s != [] {
      KeepNumericIdempotent(s[1..]);
      if NumericChar(s[0]) {
        assert ([s[0]] + KeepNumeric(s[1..]))[1..] == KeepNumeric(s[1..]);
      }
    }
  }

  /** One character is kept exactly when it is numeric. */
  lemma KeepNumericOne(c: char)
    ensures KeepNumeric([c]) == (if NumericChar(c) then [c] else [])
  {
    assert [c][1..] == [];
  }

  /** The removal is an order-preserving filter: the text of a
      concatenation is the concatenation of the texts. With
      `KeepNumericOne` this fixes the result of every input, order and
      repetitions included. */
  lemma {:induction false} KeepNumericAppend(a: string, b: string)
    ensures KeepNumeric(a + b) == KeepNumeric(a) + KeepNumeric(b)
    decreases |a|
  {
    if a == [] {
      assert a + b == b;
    } else {
      var ab := a + b;
      assert ab[0] == a[0] && ab[1..] == a[1..] + b;
      KeepNumericAppend(a[1..], b);
      if NumericChar(a[0]) {
        calc {
          KeepNumeric(ab);
          [a[0]] + KeepNumeric(a[1..] + b);
          [a[0]] + (KeepNumeric(a[1..]) + KeepNumeric(b));
          ([a[0]] + KeepNumeric(a[1..])) + KeepNumeric(b);
        }
      }
    }
  }

  /** The digits of any script are kept: U+0661 (ARABIC-INDIC DIGIT ONE)
      and U+FF15 (FULLWIDTH DIGIT FIVE) pass, a letter does not. */
  lemma {:induction false} KeepNumericUnicodeDigits()
    ensures KeepNumeric("\U{661}\U{662},5") == "\U{661}\U{662},5"
    ensures KeepNumeric("\U{FF15}x") == "\U{FF15}"
  {
    assert DecimalDigit('\U{661}') && DecimalDigit('\U{662}');
    assert DecimalDigit('\U{FF15}');
    assert !NumericChar('x');
    assert KeepNumeric("x") == "";
    assert KeepNumeric(",5") == ",5";
  }

  /** A missing amount renders as "nan", which keeps no character at all,
      so `locale.atof` is handed the empty text. */
  lemma {:induction false} MissingAmountIsEmptyText(lib: Pandas)
    ensures KeepNumeric(Show(lib, Null)) == ""
  {
    assert KeepNumeric("n") == KeepNumeric("");
    assert KeepNumeric("an") == KeepNumeric("n");
    assert KeepNumeric("nan") == KeepNumeric("an");
  }

  // ---------------------------------------------------------------------
  // Helpers for the properties above

  /** No separator at all. */
  predicate Plain(s: string) {
    ',' !in s && '.' !in s
  }

  /** Deleting the '.' of `p + "." + c`, where only that '.' is one. */
  lemma {:induction false} DropDot(p: string, c: string)
    requires '.' !in p && '.' !in c
    ensures MapChar(p + "." + c, '.', "") == p + c
  {
    MapCharAround(p, '.', c, '.', "");
    MapCharRemoves(p, '.', "");
    MapCharRemoves(c, '.', "");
  }

  /** Turning the ',' of `p + "," + c`, where only that ',' is one. */
  lemma {:induction false} CommaToDot(p: string, c: string)
    requires ',' !in p && ',' !in c
    ensures MapChar(p + "," + c, ',', ".") == p + "." + c
  {
    MapCharAround(p, ',', c, ',', ".");
    MapCharRemoves(p, ',', ".");
    MapCharRemoves(c, ',', ".");
  }

  lemma {:induction false} MapCharAround(p: string, x: char, c: string, a: char, b: string)
    ensures MapChar(p + [x] + c, a, b) == MapChar(p, a, b) + (if x == a then b else [x]) + MapChar(c, a, b)
  {
    MapCharAppend(p, [x], a, b);
    MapCharAppend(p + [x], c, a, b);
    assert MapChar([x], a, b) == (if x == a then b else [x]) + MapChar([], a, b);
  }

  lemma NotIn3(a: string, b: string, c: string, x: char)
    requires x !in a && x !in b && x !in c
    ensures x !in a + b + c
  {
  }

  lemma {:induction false} MapCharSameLength(s: string, a: char, b: char)
    ensures |MapChar(s, a, [b])| == |s|
    ensures forall i :: 0 <= i < |s| ==> MapChar(s, a, [b])[i] == (if s[i] == a then b else s[i])
    decreases |s|
  {
    if s != [] {
      MapCharSameLength(s[1..], a, b);
      assert MapChar(s, a, [b]) == [if s[0] == a then b else s[0]] + MapChar(s[1..], a, [b]);
    }
  }

  lemma {:induction false} DigitsAppend(a: string, b: string)
    ensures Digits(a + b) == Digits(a) + Digits(b)
    decreases |a|
  {
    if a != [] {
      assert (a + b)[1..] == a[1..] + b;
      DigitsAppend(a[1..], b);
    } else {
      assert a + b == b;
    }
  }

  lemma {:induction false} DigitsMapChar(s: string, a: char, b: string)
    requires a == ',' || a == '.'
    requires forall c :: c in b ==> c == ',' || c == '.'
    ensures Digits(MapChar(s, a, b)) == Digits(s)
    decreases |s|
  {
    if s != [] {
      DigitsMapChar(s[1..], a, b);
      var head := if s[0] == a then b else [s[0]];
      DigitsAppend(head, MapChar(s[1..], a, b));
      if s[0] == a {
        DigitsOfSeparators(b);
      } else {
        assert Digits([s[0]]) == (if s[0] == ',' || s[0] == '.' then [] else [s[0]]);
      }
    }
  }

  lemma {:induction false} DigitsOfSeparators(b: string)
    requires forall c :: c in b ==> c == ',' || c == '.'
    ensures Digits(b) == []
    decreases |b|
  {
    if b != [] {
      assert b[0] in b;
      assert forall c :: c in b[1..] ==> c in b;
      DigitsOfSeparators(b[1..]);
    }
  }

  lemma {:induction false} CountAppend(a: string, b: string, c: char)
    ensures Count(a + b, c) == Count(a, c) + Count(b, c)
    decreases |a|
  {
    if a != [] {
      assert (a + b)[1..] == a[1..] + b;
      CountAppend(a[1..], b, c);
    } else {
      assert a + b == b;
    }
  }

  lemma {:induction false} CountAbsent(s: string, c: char)
    requires c !in s
    ensures Count(s, c) == 0
    decreases |s|
  {
    if s != [] {
      assert forall d :: d in s[1..] ==> d in s;
      CountAbsent(s[1..], c);
    }
  }

  /** Deleting every '.' leaves the number of ',' as it was and no '.'. */
  lemma {:induction false} CountMapCharDrop(s: string)
    ensures Count(MapChar(s, '.', ""), ',') == Count(s, ',')
    decreases |s|
  {
    if s != [] {
      CountMapCharDrop(s[1..]);
      CountAppend(if s[0] == '.' then "" else [s[0]], MapChar(s[1..], '.', ""), ',');
    }
  }

  /** Turning every ',' into '.' in a text without '.' leaves as many '.'
      as there were ','. */
  lemma {:induction false} CountMapCharComma(s: string)
    requires '.' !in s
    ensures Count(MapChar(s, ',', "."), '.') == Count(s, ',')
    decreases |s|
  {
    if s != [] {
      assert forall d :: d in s[1..] ==> d in s;
      CountMapCharComma(s[1..]);
      CountAppend(if s[0] == ',' then "." else [s[0]], MapChar(s[1..], ',', "."), '.');
    }
  }
}

=== FILE: base.dfy ===
/**
 * Shared vocabulary: optional values, the Python exception classes the
 * pipeline raises or catches, results of calls that may raise, and JSON
 * values as `json.load` returns them.
 */
module Base {

  datatype Option<+T> = None | Some(value: T)

  /** The exception classes that matter to the control flow of the jobs. */
  datatype Fault =
    | HttpError       // a Drive, Cloud Storage or BigQuery call failed
    | KeyError        // a missing dictionary key or column label
    | IndexError      // indexing an empty list
    | TypeError       // an operation applied to a value of the wrong type
    | ValueError      // a value of the right type but unusable content
    | AttributeError  // an attribute looked up on an object that lacks it
    | ReadError       // a file that is missing or cannot be parsed

  /** The outcome of a Python call: its value, or the exception it raised. */
  datatype Result<+T> = Ok(value: T) | Err(fault: Fault)

  /** No element occurs twice. */
  predicate Distinct<T(==)>(s: seq<T>) {
    forall i, j :: 0 <= i < j < |s| ==> s[i] != s[j]
  }

  /** A JSON document as decoded by Python's `json` module. */
  datatype Json =
    | JNull
    | JBool(b: bool)
    | JNumber(n: int)
    | JString(s: string)
    | JArray(items: seq<Json>)
    | JObject(fields: map<string, Json>)

  /** Python's `v[k]` for a string key: `KeyError` on a dict without `k`,
      `TypeError` on anything that is not a dict. */
  function Key(v: Json, k: string): (r: Result<Json>)
    ensures r.Ok? <==> v.JObject? && k in v.fields
    ensures r.Ok? ==> r.value == v.fields[k]
    ensures r.Err? && v.JObject? ==> r.fault == KeyError
  {
    match v
    case JObject(m) => if k in m then Ok(m[k]) else Err(KeyError)
    case _ => Err(TypeError)
  }

  /** Python's `v[0]`: the first element of a list or the first character
      of a string, `IndexError` when either is empty, `KeyError` on a dict
      (whose keys are strings, so never `0`), `TypeError` otherwise. */
  function First(v: Json): (r: Result<Json>)
    ensures r.Ok? <==> (v.JArray? && |v.items| > 0) || (v.JString? && |v.s| > 0)
    ensures r.Ok? && v.JArray? ==> r.value == v.items[0]
    ensures r.Err? && (v.JArray? || v.JString?) ==> r.fault == IndexError
  {
    match v
    case JArray(xs) => if |xs| > 0 then Ok(xs[0]) else Err(IndexError)
    case JString(s) => if |s| > 0 then Ok(JString([s[0]])) else Err(IndexError)
    case JObject(_) => Err(KeyError)
    case _ => Err(TypeError)
  }
}

=== FILE: card_payments.dfy ===
/**
 * The event-driven card-statement function in
 * `cloud_functions/drive_to_gcs_card_payments/main.py`. A Drive event names
 * one new file in the card's `pending` folder; the function downloads it,
 * cleans the statement, uploads the rows as JSON lines under `tarjeta/` and
 * moves the file to the card's `processed` folder, logging a refused move.
 *
 * As written, the cleaning reads the local file `tarjeta_julio.xlsx`
 * instead of the downloaded bytes; `MainAsWritten` models that and `Main`
 * the evident intent (see the findings in the README).
 */
module CardPayments {
  import opened Base
  import opened Paths
  import opened Frames
  import opened Hashing
  import opened Drive

  /** The workbook the code reads from disk. */
  const SheetFile: string := "tarjeta_julio.xlsx"

  /** The columns of the uploaded rows, in the order of the BigQuery table. */
  const Schema: seq<string> := ["transaccion_id", "fecha", "concepto", "importe", "origen", "entidad"]

  /** `read_excel(..., engine='openpyxl', skiprows=6, header=None)`. */
  const SheetOpts: ReadOpts := ReadOpts(6, 0, false)

  /** `event["data"]["payload"]`; each key that may be missing is an
      `Option`, and so is the `id` of each parent entry. */
  datatype Payload = Payload(id: Option<FileId>, name: Option<string>, parents: Option<seq<Option<FolderId>>>)

  /** The file an event is about, and the folder it was added to. */
  datatype Target = Target(file: FileId, name: string, parent: FolderId)

  /** The extraction of step 1; `None` stands for the `KeyError` or
      `IndexError` it catches. */
  function Extract(e: Option<Payload>): Option<Target> {
    if e.None? || e.value.id.None? || e.value.name.None? || e.value.parents.None? then None
    else if e.value.parents.value == [] || e.value.parents.value[0].None? then None
    else Some(Target(e.value.id.value, e.value.name.value, e.value.parents.value[0].value))
  }

  // ---------------------------------------------------------------------
  // Step 3: the cleaning

  /** Column names set, fecha and importe coerced. */
  function Coerced(lib: Pandas, raw: Frame): (r: Result<Frame>)
    ensures r.Ok? <==> |raw.columns| == 3
    ensures r.Ok? ==> r.value.columns == Core && |r.value.rows| == |raw.rows|
  {
    match SetColumns(raw, Core)
    case Err(e) => Err(e)
    case Ok(f0) =>
      var f1 := MapColumn(f0, "fecha", c => lib.toDate(None, c)).value;
      MapColumn(f1, "importe", c => lib.toNumeric(c))
  }

  /** Then the last row dropped and the rows with a gap in fecha, concepto
      or importe removed. */
  function Trimmed(lib: Pandas, raw: Frame): (r: Result<Frame>)
    ensures r.Ok? <==> |raw.columns| == 3
    ensures r.Ok? ==> r.value.columns == Core
  {
    match Coerced(lib, raw)
    case Err(e) => Err(e)
    case Ok(f2) => DropNa(Select(DropLast(f2), Core).value, Core)
  }

  /** The constant columns and the id added, in BigQuery's column order.
      The id is computed with `apply`, which on an empty frame may raise. */
  function Finish(lib: Pandas, f: Frame): (r: Result<Frame>)
    requires f.columns == Core
    ensures r.Ok? ==> r.value.columns == Schema && |r.value.rows| == |f.rows|
  {
    if |f.rows| == 0 && lib.applyOnEmptyRaises then Err(ValueError)
    else Ok(Normalized(f, "transaccion_id", (a, b, c) => RawId(lib, a, b, c), "origen", "tarjeta", "entidad", "bankinter"))
  }

  /** The cleaning of a sheet as read. */
  function Clean(lib: Pandas, raw: Frame): (r: Result<Frame>)
    ensures r.Ok? ==> r.value.columns == Schema
  {
    match Trimmed(lib, raw)
    case Err(e) => Err(e)
    case Ok(f) => Finish(lib, f)
  }

  /** The `try` block as written: it reads the workbook on disk, whatever
      was downloaded. */
  function TransformAsWritten(lib: Pandas): Result<Frame> {
    match lib.readExcel(LocalPath(SheetFile), Openpyxl, SheetOpts)
    case None => Err(ValueError)
    case Some(raw) => Clean(lib, raw)
  }

  /** The `try` block as intended: it reads the downloaded bytes. */
  function Transform(lib: Pandas, data: seq<bv8>): Result<Frame> {
    match lib.readExcel(Bytes(data), Openpyxl, SheetOpts)
    case None => Err(ValueError)
    case Some(raw) => Clean(lib, raw)
  }

  // ---------------------------------------------------------------------
  // The handler

  /** The object the rows go to: under `tarjeta/`, the file's stem and the
      event's id. */
  function UploadPath(name: string, eventId: string): string {
    "tarjeta/" + Stem(name) + "_" + eventId + ".jsonl"
  }

  /** What an invocation leaves behind: an answer, or an exception that
      escaped to the runtime. */
  datatype Reply =
    | Answered(tree: Tree, trace: seq<Event>, message: string, code: int)
    | Escaped(tree: Tree, trace: seq<Event>)

  /** After the download: a failed cleaning re-raises; an empty result
      answers without uploading or moving; otherwise the upload, which
      raises when refused, and the move, whose refusal is only logged. */
  function Deliver(c: Cloud, t: Tree, tg: Target, eventId: string, processed: FolderId, r: Result<Frame>): Reply {
    match r
    case Err(_) => Escaped(t, [Fetched(tg.file, true)])
    case Ok(df) =>
      if IsEmpty(df) then Answered(t, [Fetched(tg.file, true)], "Archivo vacío o sin datos válidos", 200)
      else
        var path := UploadPath(tg.name, eventId);
        if !c.uploadOk(path) then Escaped(t, [Fetched(tg.file, true), Upload(path, "application/jsonl+json", df, false)])
        else
          var m := Move(c, tg.file, ParentOf(t, tg.file), tg.parent, processed);
          var t' := if m.ok then t[tg.file := processed] else t;
          Answered(t', [Fetched(tg.file, true), Upload(path, "application/jsonl+json", df, true), MoveCall(tg.file, tg.parent, processed, m.ok)],
                   "Proceso de TARJETA completado", 200)
  }

  /** `main`, with the cleaning given as a function of the downloaded
      bytes. `credentialsOk` is false when Secret Manager raised;
      `processed` is the deployment's `FOLDER_ID_PROCESSED_CARD`. */
  function Handle(c: Cloud, t: Tree, credentialsOk: bool, e: Option<Payload>, eventId: string, processed: FolderId,
                  transform: seq<bv8> -> Result<Frame>): Reply {
    match Extract(e)
    case None => Answered(t, [], "Formato de evento incorrecto", 400)
    case Some(tg) =>
      if !credentialsOk then Escaped(t, [])
      else
        match c.media(tg.file, false)
        case None => Escaped(t, [Fetched(tg.file, false)])
        case Some(bytes) => Deliver(c, t, tg, eventId, processed, transform(bytes))
  }

  function MainAsWritten(c: Cloud, lib: Pandas, t: Tree, credentialsOk: bool, e: Option<Payload>, eventId: string, processed: FolderId): Reply {
    Handle(c, t, credentialsOk, e, eventId, processed, _ => TransformAsWritten(lib))
  }

  function Main(c: Cloud, lib: Pandas, t: Tree, credentialsOk: bool, e: Option<Payload>, eventId: string, processed: FolderId): Reply {
    Handle(c, t, credentialsOk, e, eventId, processed, data => Transform(lib, data))
  }

  // ---------------------------------------------------------------------
  // Properties of the event and the cleaning

  /** An event is accepted exactly when it has an id, a name and a first
      parent with an id, and those are what the function works on. */
  lemma ExtractAccepts(e: Option<Payload>)
    ensures Extract(e).Some? <==>
      && e.Some? && e.value.id.Some? && e.value.name.Some? && e.value.parents.Some?
      && |e.value.parents.value| > 0 && e.value.parents.value[0].Some?
    ensures Extract(e).Some? ==>
      && Extract(e).value.file == e.value.id.value
      && Extract(e).value.name == e.value.name.value
      && Extract(e).value.parent == e.value.parents.value[0].value
  {
  }

  /** A non-empty result has the columns transaccion_id, fecha, concepto,
      importe, origen, entidad; in every row none of fecha, concepto and
      importe is missing, the id is the hash of those three cells joined
      by '-', origen is "tarjeta" and entidad is "bankinter". */
  lemma {:induction false} CleanShape(lib: Pandas, raw: Frame, i: nat)
    requires Clean(lib, raw).Ok? && i < |Clean(lib, raw).value.rows|
    ensures var r := Clean(lib, raw).value;
      && |r.rows[i]| == 6 && r.rows[i][1] != Null && r.rows[i][2] != Null && r.rows[i][3] != Null
      && r.rows[i][0] == Str(RawId(lib, r.rows[i][1], r.rows[i][2], r.rows[i][3]))
      && r.rows[i][4] == Str("tarjeta") && r.rows[i][5] == Str("bankinter")
  {
    var f3 := Select(DropLast(Coerced(lib, raw).value), Core).value;
    var idOf := (a, b, c) => RawId(lib, a, b, c);
    assert Trimmed(lib, raw) == DropNa(f3, Core);
    assert Clean(lib, raw) == Ok(Normalized(DropNa(f3, Core).value, "transaccion_id", idOf, "origen", "tarjeta", "entidad", "bankinter"));
    NormalizedAfterDropNa(f3, "transaccion_id", idOf, "origen", "tarjeta", "entidad", "bankinter", i);
  }

  /** The cleaning yields an empty frame only when no row survived, and
      then only if `apply` on an empty frame does not raise. */
  lemma CleanEmpty(lib: Pandas, raw: Frame)
    ensures Clean(lib, raw).Ok? && IsEmpty(Clean(lib, raw).value) ==>
      !lib.applyOnEmptyRaises && |Trimmed(lib, raw).value.rows| == 0
    ensures Trimmed(lib, raw).Ok? && |Trimmed(lib, raw).value.rows| == 0 ==>
      (Clean(lib, raw).Ok? <==> !lib.applyOnEmptyRaises)
  {
  }

  /** Row `j` of the coerced frame is row `j` of the sheet with its first
      cell read as a date and its third as a number. */
  lemma {:induction false} CoercedRow(lib: Pandas, raw: Frame, j: nat)
    requires Coerced(lib, raw).Ok? && j < |raw.rows|
    ensures |raw.columns| == 3
    ensures var row := Coerced(lib, raw).value.rows[j];
      |row| == 3 && row[0] == lib.toDate(None, raw.rows[j][0]) && row[1] == raw.rows[j][1] && row[2] == lib.toNumeric(raw.rows[j][2])
  {
    var f0 := SetColumns(raw, Core).value;
    var f1 := MapColumn(f0, "fecha", c => lib.toDate(None, c)).value;
    var f2 := MapColumn(f1, "importe", c => lib.toNumeric(c)).value;
    assert Coerced(lib, raw).value == f2;
    assert IndexOf(Core, "fecha") == 0 && IndexOf(Core, "concepto") == 1 && IndexOf(Core, "importe") == 2;
    assert raw.rows[j] in raw.rows;
    MapColumnKeeps(f1, "importe", c => lib.toNumeric(c), j, "fecha");
    MapColumnKeeps(f1, "importe", c => lib.toNumeric(c), j, "concepto");
    MapColumnKeeps(f0, "fecha", c => lib.toDate(None, c), j, "concepto");
    MapColumnKeeps(f0, "fecha", c => lib.toDate(None, c), j, "importe");
    assert f2.rows[j] in f2.rows;
    assert f2.rows[j][0] == Get(f2, j, "fecha");
    assert f2.rows[j][1] == Get(f2, j, "concepto");
    assert f2.rows[j][2] == Get(f2, j, "importe");
  }

  /** Selecting fecha, concepto and importe from a frame that has exactly
      those columns keeps each row; dropping the last row keeps the others. */
  lemma {:induction false} SelectAfterDropLast(f: Frame, j: nat)
    requires f.columns == Core && j + 1 < |f.rows|
    ensures |Select(DropLast(f), Core).value.rows| == |f.rows| - 1
    ensures Select(DropLast(f), Core).value.rows[j] == f.rows[j]
  {
    var d := DropLast(f);
    assert d.rows[j] == f.rows[j] by {
      assert (d.rows + [f.rows[|f.rows| - 1]])[j] == d.rows[j];
    }
    SelectCoreKeeps(d, j);
  }

  /** Selecting the columns a frame already has, in its order, keeps each row. */
  lemma {:induction false} SelectCoreKeeps(d: Frame, j: nat)
    requires d.columns == Core && j < |d.rows|
    ensures Select(d, Core).Ok? && Select(d, Core).value.rows[j] == d.rows[j]
  {
    var g := Select(d, Core).value;
    assert IndexOf(Core, "fecha") == 0 && IndexOf(Core, "concepto") == 1 && IndexOf(Core, "importe") == 2;
    assert g.rows[j] in g.rows && d.rows[j] in d.rows;
    assert g.rows[j][0] == Get(g, j, "fecha") == Get(d, j, "fecha");
    assert g.rows[j][1] == Get(g, j, "concepto") == Get(d, j, "concepto");
    assert g.rows[j][2] == Get(g, j, "importe") == Get(d, j, "importe");
  }

  /** Every row kept by the trimming is a row of the coerced frame other
      than the last. */
  lemma {:induction false} TrimmedRow(lib: Pandas, raw: Frame, i: nat)
    requires Trimmed(lib, raw).Ok? && i < |Trimmed(lib, raw).value.rows|
    ensures |raw.columns| == 3
    ensures exists j :: 0 <= j < |raw.rows| - 1 && Trimmed(lib, raw).value.rows[i] == Coerced(lib, raw).value.rows[j]
  {
    var f2 := Coerced(lib, raw).value;
    var f3 := Select(DropLast(f2), Core).value;
    var f4 := Trimmed(lib, raw).value;
    assert f4 == DropNa(f3, Core).value;
    assert f4.rows[i] in f3.rows;
    var j :| 0 <= j < |f3.rows| && f3.rows[j] == f4.rows[i];
    SelectAfterDropLast(f2, j);
  }

  /** Every output row comes from a row of the sheet other than the last:
      its fecha is that row's first cell as a date, its concepto that row's
      second cell, its importe that row's third cell as a number. */
  lemma {:induction false} CleanRowsFromSheet(lib: Pandas, raw: Frame, i: nat)
    requires Clean(lib, raw).Ok? && i < |Clean(lib, raw).value.rows|
    ensures |raw.columns| == 3
    ensures exists j :: 0 <= j < |raw.rows| - 1 && FromRow(lib, Clean(lib, raw).value.rows[i], raw.rows[j])
  {
    var f4 := Trimmed(lib, raw).value;
    var idOf := (a, b, c) => RawId(lib, a, b, c);
    var out := Normalized(f4, "transaccion_id", idOf, "origen", "tarjeta", "entidad", "bankinter");
    assert Clean(lib, raw) == Ok(out);
    NormalizedRow(f4, "transaccion_id", idOf, "origen", "tarjeta", "entidad", "bankinter", i);
    TrimmedRow(lib, raw, i);
    var j :| 0 <= j < |raw.rows| - 1 && f4.rows[i] == Coerced(lib, raw).value.rows[j];
    CoercedRow(lib, raw, j);
    assert f4.rows[i] in f4.rows;
    assert IndexOf(Core, "fecha") == 0 && IndexOf(Core, "concepto") == 1 && IndexOf(Core, "importe") == 2;
    var cr := Coerced(lib, raw).value.rows[j];
    assert Get(f4, i, "fecha") == cr[0] && Get(f4, i, "concepto") == cr[1] && Get(f4, i, "importe") == cr[2];
    assert out.rows[i][1] == cr[0] && out.rows[i][2] == cr[1] && out.rows[i][3] == cr[2];
    assert FromRow(lib, out.rows[i], raw.rows[j]);
  }

  /** A coerced row other than the last with all three cells present
      survives the trimming. */
  lemma {:induction false} TrimmedKeepsCompleteRow(lib: Pandas, raw: Frame, j: nat)
    requires Trimmed(lib, raw).Ok? && j + 1 < |raw.rows|
    requires var cr := Coerced(lib, raw).value.rows[j];
      |cr| == 3 && cr[0] != Null && cr[1] != Null && cr[2] != Null
    ensures exists i :: 0 <= i < |Trimmed(lib, raw).value.rows| && Trimmed(lib, raw).value.rows[i] == Coerced(lib, raw).value.rows[j]
  {
    var f2 := Coerced(lib, raw).value;
    var f3 := Select(DropLast(f2), Core).value;
    assert Trimmed(lib, raw) == DropNa(f3, Core);
    SelectAfterDropLast(f2, j);
    var cr := f3.rows[j];
    assert cr in f3.rows;
    assert IndexOf(Core, "fecha") == 0 && IndexOf(Core, "concepto") == 1 && IndexOf(Core, "importe") == 2;
    assert Complete(cr, Core, Core);
    var f4 := Trimmed(lib, raw).value;
    assert cr in f4.rows;
  }

  /** The converse: every sheet row other than the last whose date, text
      and amount all come out present reaches the output. */
  lemma {:induction false} CleanKeepsCompleteRows(lib: Pandas, raw: Frame, j: nat)
    requires Clean(lib, raw).Ok? && j + 1 < |raw.rows| && |raw.rows[j]| == 3
    requires && lib.toDate(None, raw.rows[j][0]) != Null && raw.rows[j][1] != Null
             && lib.toNumeric(raw.rows[j][2]) != Null
    ensures exists i :: 0 <= i < |Clean(lib, raw).value.rows| && FromRow(lib, Clean(lib, raw).value.rows[i], raw.rows[j])
  {
    var f4 := Trimmed(lib, raw).value;
    CoercedRow(lib, raw, j);
    var cr := Coerced(lib, raw).value.rows[j];
    assert Trimmed(lib, raw).Ok?;
    assert |cr| == 3 && cr[0] != Null && cr[1] != Null && cr[2] != Null;
    TrimmedKeepsCompleteRow(lib, raw, j);
    var i :| 0 <= i < |f4.rows| && f4.rows[i] == cr;
    var idOf := (a, b, c) => RawId(lib, a, b, c);
    var out := Normalized(f4, "transaccion_id", idOf, "origen", "tarjeta", "entidad", "bankinter");
    assert Clean(lib, raw) == Ok(out);
    NormalizedRow(f4, "transaccion_id", idOf, "origen", "tarjeta", "entidad", "bankinter", i);
    assert IndexOf(Core, "fecha") == 0 && IndexOf(Core, "concepto") == 1 && IndexOf(Core, "importe") == 2;
    assert f4.rows[i] in f4.rows;
    assert Get(f4, i, "fecha") == cr[0] && Get(f4, i, "concepto") == cr[1] && Get(f4, i, "importe") == cr[2];
    assert FromRow(lib, out.rows[i], raw.rows[j]);
  }

  /** `out` was cleaned from the sheet row `src`. */
  predicate FromRow(lib: Pandas, out: seq<Cell>, src: seq<Cell>) {
    |out| == 6 && |src| == 3
    && out[1] == lib.toDate(None, src[0]) && out[2] == src[1] && out[3] == lib.toNumeric(src[2])
  }

  /** Two uploads of one statement under different events never collide;
      the event id is part of the object name. */
  lemma {:induction false} UploadPathKeepsEvent(name: string, a: string, b: string)
    requires UploadPath(name, a) == UploadPath(name, b)
    ensures a == b
  {
    var pre := "tarjeta/" + Stem(name) + "_";
    var pa, pb := UploadPath(name, a), UploadPath(name, b);
    assert pa == pre + a + ".jsonl" && pb == pre + b + ".jsonl";
    assert a == pa[|pre|..|pre| + |a|];
    assert b == pb[|pre|..|pre| + |b|];
  }

  // ---------------------------------------------------------------------
  // Properties of the handler

  /** A malformed event is answered with 400 before anything is
      downloaded. */
  lemma BadEventRejected(c: Cloud, t: Tree, cred: bool, e: Option<Payload>, eventId: string, processed: FolderId, tf: seq<bv8> -> Result<Frame>)
    requires Extract(e).None?
    ensures Handle(c, t, cred, e, eventId, processed, tf) == Answered(t, [], "Formato de evento incorrecto", 400)
  {
  }

  /** After the download: the file moves only to `processed`, only after
      its rows were uploaded, and only when Drive accepts the move; the
      "completed" answer comes exactly when the upload was accepted; an
      empty result answers 200 without an upload. */
  lemma {:induction false} DeliverFacts(c: Cloud, t: Tree, tg: Target, eventId: string, processed: FolderId, r: Result<Frame>)
    ensures var o := Deliver(c, t, tg, eventId, processed, r);
      && (o.tree == t || o.tree == t[tg.file := processed])
      && (o.tree != t ==> r.Ok? && !IsEmpty(r.value) && Upload(UploadPath(tg.name, eventId), "application/jsonl+json", r.value, true) in o.trace)
      && (o.Answered? && o.message == "Proceso de TARJETA completado" <==>
            r.Ok? && !IsEmpty(r.value) && c.uploadOk(UploadPath(tg.name, eventId)))
      && (r.Ok? && IsEmpty(r.value) ==> o == Answered(t, [Fetched(tg.file, true)], "Archivo vacío o sin datos válidos", 200))
      && (o.Escaped? ==> o.tree == t)
      && (forall ev | ev in o.trace && ev.Upload? :: r == Ok(ev.rows))
  {
    var o := Deliver(c, t, tg, eventId, processed, r);
    if r.Ok? && !IsEmpty(r.value) {
      var df := r.value;
      var path := UploadPath(tg.name, eventId);
      if c.uploadOk(path) {
        var m := Move(c, tg.file, ParentOf(t, tg.file), tg.parent, processed);
        var t' := if m.ok then t[tg.file := processed] else t;
        assert o == Answered(t', [Fetched(tg.file, true), Upload(path, "application/jsonl+json", df, true), MoveCall(tg.file, tg.parent, processed, m.ok)],
                             "Proceso de TARJETA completado", 200);
      } else {
        assert o == Escaped(t, [Fetched(tg.file, true), Upload(path, "application/jsonl+json", df, false)]);
      }
    }
  }

  /** The handler moves at most the event's file, and only to
      `processed`; an exception that escapes leaves Drive untouched; every
      upload carries the cleaning of the downloaded bytes. */
  lemma {:induction false} HandleFacts(c: Cloud, t: Tree, cred: bool, e: Option<Payload>, eventId: string, processed: FolderId, tf: seq<bv8> -> Result<Frame>)
    ensures var o := Handle(c, t, cred, e, eventId, processed, tf);
      && (o.tree != t ==> Extract(e).Some? && o.tree == t[Extract(e).value.file := processed])
      && (o.Escaped? ==> o.tree == t)
      && (forall ev | ev in o.trace && ev.Upload? ::
            Extract(e).Some? && c.media(Extract(e).value.file, false).Some? && tf(c.media(Extract(e).value.file, false).value) == Ok(ev.rows))
  {
    if Extract(e).Some? && cred && c.media(Extract(e).value.file, false).Some? {
      var tg := Extract(e).value;
      var bytes := c.media(tg.file, false).value;
      assert Handle(c, t, cred, e, eventId, processed, tf) == Deliver(c, t, tg, eventId, processed, tf(bytes));
      DeliverFacts(c, t, tg, eventId, processed, tf(bytes));
    }
  }

  /** As written, the rows uploaded for an event are those of the workbook
      on disk, whatever file the event names and whatever its bytes. */
  lemma {:induction false} AsWrittenIgnoresDownload(c: Cloud, lib: Pandas, t: Tree, cred: bool, e: Option<Payload>, eventId: string, processed: FolderId)
    ensures forall ev | ev in MainAsWritten(c, lib, t, cred, e, eventId, processed).trace && ev.Upload? ::
      TransformAsWritten(lib) == Ok(ev.rows)
  {
    HandleFacts(c, t, cred, e, eventId, processed, _ => TransformAsWritten(lib));
  }

  /** A concrete case: two events about different files whose downloads
      differ upload the same rows. */
  lemma {:induction false} AsWrittenSameRowsForAnyFile(c1: Cloud, c2: Cloud, lib: Pandas, t: Tree, e1: Option<Payload>, e2: Option<Payload>, id1: string, id2: string, processed: FolderId)
    requires exists ev :: ev in MainAsWritten(c1, lib, t, true, e1, id1, processed).trace && ev.Upload?
    requires exists ev :: ev in MainAsWritten(c2, lib, t, true, e2, id2, processed).trace && ev.Upload?
    ensures forall u1, u2 ::
      (&& u1 in MainAsWritten(c1, lib, t, true, e1, id1, processed).trace && u1.Upload?
       && u2 in MainAsWritten(c2, lib, t, true, e2, id2, processed).trace && u2.Upload?) ==> u1.rows == u2.rows
  {
    AsWrittenIgnoresDownload(c1, lib, t, true, e1, eventId := id1, processed := processed);
    AsWrittenIgnoresDownload(c2, lib, t, true, e2, eventId := id2, processed := processed);
  }

  /** As intended, the rows uploaded for an event are the cleaning of the
      sheet read from that event's own download, and each of them comes
      from a row of that sheet. */
  lemma {:induction false} UploadFromDownload(c: Cloud, lib: Pandas, t: Tree, cred: bool, e: Option<Payload>, eventId: string, processed: FolderId, ev: Event, i: nat)
    requires ev in Main(c, lib, t, cred, e, eventId, processed).trace && ev.Upload? && i < |ev.rows.rows|
    ensures Extract(e).Some? && c.media(Extract(e).value.file, false).Some?
    ensures var sheet := lib.readExcel(Bytes(c.media(Extract(e).value.file, false).value), Openpyxl, SheetOpts);
      && sheet.Some? && Clean(lib, sheet.value) == Ok(ev.rows)
      && exists j :: 0 <= j < |sheet.value.rows| - 1 && FromRow(lib, ev.rows.rows[i], sheet.value.rows[j])
  {
    HandleFacts(c, t, cred, e, eventId, processed, data => Transform(lib, data));
    var bytes := c.media(Extract(e).value.file, false).value;
    var sheet := lib.readExcel(Bytes(bytes), Openpyxl, SheetOpts);
    assert Transform(lib, bytes) == Ok(ev.rows);
    CleanRowsFromSheet(lib, sheet.value, i);
  }
}

=== FILE: config.dfy ===
/**
 * The per-account settings read from `bank_configs.json`: for each bank
 * folder name and account folder name, how to read the statement and how
 * to map its columns. Defaults that the code supplies with `config.get`
 * are already filled in.
 */
module Config {
  import opened Base
  import opened Frames

  datatype BankConfig = BankConfig(
    skipRows: int,                  // config.get('skip_rows', 0)
    skipFooter: int,                // config.get('skip_footer', 0)
    mapping: Option<Mapping>,       // config['column_mapping'], which may be missing
    dateFormat: Option<string>,     // config.get('date_format')
    filterCompleted: bool)          // config.get('filter_completed', False)

  /** `bank_configs[bank][account]`. */
  type Configs = map<string, map<string, BankConfig>>

  /** `configs[bank][account]`: `KeyError` when either level is missing. */
  function Lookup(cs: Configs, bank: string, account: string): (r: Result<BankConfig>)
    ensures r.Ok? <==> bank in cs && account in cs[bank]
    ensures r.Ok? ==> r.value == cs[bank][account]
    ensures r.Err? ==> r.fault == KeyError
  {
    if bank in cs && account in cs[bank] then Ok(cs[bank][account]) else Err(KeyError)
  }
}

=== FILE: drive.dfy ===
/**
 * Google Drive as the intake jobs see it. A file's parent folder is its
 * state (pending, in progress, processed), so the part of Drive that is
 * modelled is the parent of each file. Every call into Drive or Cloud
 * Storage is a field of the `Cloud` oracle, whose answer depends only on
 * the call's arguments.
 */
module Drive {
  import opened Base
  import opened Text
  import opened Paths
  import opened Frames

  type FileId = string
  type FolderId = string

  /** The parent of each file. Drive lets a file have one parent only. */
  type Tree = map<FileId, FolderId>

  /** One entry of a `files().list(...)` answer: `{'id': ..., 'name': ...}`. */
  datatype Item = Item(id: string, name: string)

  /** A listing query: the children of `parent`, only folders when
      `foldersOnly`, excluding the bin when `notTrashed`. */
  datatype Query = Query(parent: FolderId, foldersOnly: bool, notTrashed: bool)

  /** A file's metadata as `files().get(fields='mimeType, name')` returns it. */
  datatype Meta = Meta(name: string, mimeType: string)

  /** The MIME type Drive gives a Google Sheets spreadsheet. */
  const SheetsMime: string := "application/vnd.google-apps.spreadsheet"

  /** The answers of Drive and Cloud Storage. `None` stands for a call that
      raised. */
  datatype Cloud = Cloud(
    list: Query -> Option<seq<Item>>,
    create: (FolderId, string) -> Option<FolderId>,   // a sub-folder of that name
    moveOk: (FileId, FolderId, FolderId) -> bool,      // update(addParents, removeParents) accepted
    meta: FileId -> Option<Meta>,
    media: (FileId, bool) -> Option<seq<bv8>>,         // exported as XLSX when true, raw otherwise
    uploadOk: string -> bool)                          // upload to that object path

  /** What a job did, in order: the Drive moves it requested and whether
      they succeeded, downloads, uploads with their content, and the
      "unrecoverable" log line of a rollback that failed. */
  datatype Event =
    | MoveCall(file: FileId, from: FolderId, to: FolderId, ok: bool)
    | Fetched(file: FileId, ok: bool)
    | Upload(path: string, contentType: string, rows: Frame, ok: bool)
    | Critical(file: FileId)

  /** The parent of `f`, if the tree knows `f`. */
  function ParentOf(t: Tree, f: FileId): (p: Option<FolderId>)
    ensures p.Some? <==> f in t
    ensures p.Some? ==> p.value == t[f]
  {
    if f in t then Some(t[f]) else None
  }

  // ---------------------------------------------------------------------
  // Moving a file

  /** The parent after a move request, and whether Drive accepted it. */
  datatype Moved = Moved(ok: bool, parent: Option<FolderId>)

  /** `files().update(fileId=f, addParents=to, removeParents=from)` on a file
      whose parent is `cur`. Adding `to` to a file whose parent is neither
      `from` nor `to` would give it two parents, which Drive refuses; when
      the parent is already `to` the request changes nothing and succeeds.
      A refused request leaves the parent as it was. */
  function Move(c: Cloud, f: FileId, cur: Option<FolderId>, from: FolderId, to: FolderId): (m: Moved)
    ensures m.ok ==> m.parent == Some(to)
    ensures !m.ok ==> m.parent == cur
  {
    if c.moveOk(f, from, to) && cur.Some? && (cur.value == from || cur.value == to) then Moved(true, Some(to))
    else Moved(false, cur)
  }

  /** The event a move request leaves in the log. */
  function MoveEvent(f: FileId, from: FolderId, to: FolderId, m: Moved): Event {
    MoveCall(f, from, to, m.ok)
  }

  // ---------------------------------------------------------------------
  // Sub-folders by name

  /** `{f['name']: f['id'] for f in folders}`, built in listing order. */
  function NameMap(items: seq<Item>): map<string, string> {
    if items == [] then map[]
    else NameMap(items[..|items| - 1])[items[|items| - 1].name := items[|items| - 1].id]
  }

  /** The name the jobs give the lease folder, created on demand. */
  const InProgress: string := "in_progress"

  /** The sub-folder ids of an account folder, and whether the lease folder
      had to be created. */
  datatype Subfolders = Subfolders(ids: map<string, FolderId>, created: bool)

  /** `get_subfolder_ids(service, parent)`: lists the non-trashed sub-folders,
      maps each name to its id, and creates `in_progress` when no sub-folder
      has that name. A failed listing or creation raises. */
  function SubfolderIds(c: Cloud, parent: FolderId): (r: Result<Subfolders>)
    ensures r.Ok? ==> InProgress in r.value.ids
    ensures r.Ok? <==>
      && c.list(Query(parent, true, true)).Some?
      && (InProgress in NameMap(c.list(Query(parent, true, true)).value) || c.create(parent, InProgress).Some?)
    ensures r.Ok? ==> forall n :: n != InProgress ==>
      && (n in r.value.ids <==> n in NameMap(c.list(Query(parent, true, true)).value))
      && (n in r.value.ids ==> r.value.ids[n] == NameMap(c.list(Query(parent, true, true)).value)[n])
  {
    match c.list(Query(parent, true, true))
    case None => Err(HttpError)
    case Some(items) =>
      var m := NameMap(items);
      if InProgress in m then Ok(Subfolders(m, false))
      else
        match c.create(parent, InProgress)
        case None => Err(HttpError)
        case Some(id) => Ok(Subfolders(m[InProgress := id], true))
  }

  /** `ids.get(name)` read as a condition: an id that is present and not
      the empty string. */
  function Present(ids: map<string, FolderId>, name: string): (r: Option<FolderId>)
    ensures r.Some? <==> name in ids && ids[name] != ""
    ensures r.Some? ==> r.value == ids[name]
  {
    if name in ids && ids[name] != "" then Some(ids[name]) else None
  }

  /** `next((f for f in folders if f['name'] == name), None)`: the first
      entry with that name. */
  function FirstNamed(items: seq<Item>, name: string): (r: Option<Item>)
    ensures r.Some? ==> r.value in items && r.value.name == name
    ensures r.None? <==> forall k :: 0 <= k < |items| ==> items[k].name != name
  {
    if items == [] then None
    else if items[0].name == name then Some(items[0])
    else FirstNamed(items[1..], name)
  }

  // ---------------------------------------------------------------------
  // Downloads

  /** A downloaded file: its bytes, the type the readers dispatch on, and
      its name. */
  datatype Download = Download(data: seq<bv8>, fileType: string, name: string)

  /** The type a download is read as: a Google Sheets file is exported as
      XLSX and read as "excel"; any other file by the lower-cased suffix of
      its name. */
  function EffectiveType(m: Meta): string {
    if m.mimeType == SheetsMime then "excel" else Lower(Suffix(m.name))
  }

  /** `download_drive_file_as_bytes`: reads the metadata, then exports a
      spreadsheet or fetches the raw bytes. Either call may raise. */
  function FetchFile(c: Cloud, f: FileId): (r: Result<Download>)
    ensures r.Ok? <==> c.meta(f).Some? && c.media(f, c.meta(f).value.mimeType == SheetsMime).Some?
    ensures r.Ok? ==> r.value.name == c.meta(f).value.name
  {
    match c.meta(f)
    case None => Err(HttpError)
    case Some(m) =>
      match c.media(f, m.mimeType == SheetsMime)
      case None => Err(HttpError)
      case Some(bytes) => Ok(Download(bytes, EffectiveType(m), m.name))
  }

  /** The number of accepted uploads in a log. */
  function UploadsDone(trace: seq<Event>): nat {
    if trace == [] then 0
    else UploadsDone(trace[..|trace| - 1]) + (if trace[|trace| - 1].Upload? && trace[|trace| - 1].ok then 1 else 0)
  }

  // ---------------------------------------------------------------------
  // Properties

  /** A move never loses a file and leaves it in exactly one folder: the
      requested one when accepted, the one it was in otherwise. */
  lemma MoveKeepsOneFolder(c: Cloud, t: Tree, f: FileId, from: FolderId, to: FolderId)
    requires f in t
    ensures Move(c, f, ParentOf(t, f), from, to).parent.Some?
    ensures Move(c, f, ParentOf(t, f), from, to).parent.value in {t[f], to}
  {
  }

  /** A move from where the file is succeeds exactly when Drive accepts the
      request, and a request to move a file that is somewhere else is
      refused. */
  lemma MoveOkIff(c: Cloud, f: FileId, cur: FolderId, from: FolderId, to: FolderId)
    ensures cur == from ==> (Move(c, f, Some(cur), from, to).ok <==> c.moveOk(f, from, to))
    ensures cur != from && cur != to ==> !Move(c, f, Some(cur), from, to).ok
  {
  }

  /** Moving back undoes a move: after an accepted move from `a` to `b`, an
      accepted move from `b` to `a` restores the parent. */
  lemma MoveBack(c: Cloud, f: FileId, a: FolderId, b: FolderId)
    requires c.moveOk(f, a, b) && c.moveOk(f, b, a)
    ensures Move(c, f, Move(c, f, Some(a), a, b).parent, b, a).parent == Some(a)
  {
  }

  /** A rollback after a refused move still succeeds when Drive accepts it:
      the file never left, and adding the parent it already has changes
      nothing. */
  lemma RollbackAfterRefusal(c: Cloud, f: FileId, a: FolderId, b: FolderId)
    requires !c.moveOk(f, a, b) && c.moveOk(f, b, a)
    ensures Move(c, f, Move(c, f, Some(a), a, b).parent, b, a) == Moved(true, Some(a))
  {
  }

  /** The name map holds exactly the listed names, and for each the id of
      the LAST entry with that name. */
  lemma {:induction false} NameMapLastWins(items: seq<Item>, k: nat)
    requires k < |items|
    requires forall j :: k < j < |items| ==> items[j].name != items[k].name
    ensures items[k].name in NameMap(items)
    ensures NameMap(items)[items[k].name] == items[k].id
    decreases |items|
  {
    if k < |items| - 1 {
      var init := items[..|items| - 1];
      assert init[k] == items[k];
      NameMapLastWins(init, k);
    }
  }

  /** A name maps to something only when some entry carries it. */
  lemma {:induction false} NameMapKeys(items: seq<Item>, n: string)
    ensures n in NameMap(items) <==> exists k :: 0 <= k < |items| && items[k].name == n
    decreases |items|
  {
    if items != [] {
      var init := items[..|items| - 1];
      NameMapKeys(init, n);
      if n in NameMap(init) {
        var k :| 0 <= k < |init| && init[k].name == n;
        assert items[k].name == n;
      }
      if exists k :: 0 <= k < |items| && items[k].name == n {
        var k :| 0 <= k < |items| && items[k].name == n;
        if k < |items| - 1 {
          assert init[k].name == n;
        }
      }
    }
  }

  /** The lease folder is created only when no listed sub-folder has its
      name; every other name keeps the id the listing gave it. */
  lemma {:induction false} SubfolderIdsCreateOnlyWhenAbsent(c: Cloud, parent: FolderId, items: seq<Item>)
    requires c.list(Query(parent, true, true)) == Some(items)
    requires SubfolderIds(c, parent).Ok?
    ensures SubfolderIds(c, parent).value.created <==> forall k :: 0 <= k < |items| ==> items[k].name != InProgress
    ensures forall n :: n != InProgress ==>
      (n in SubfolderIds(c, parent).value.ids <==> n in NameMap(items)) &&
      (n in NameMap(items) ==> SubfolderIds(c, parent).value.ids[n] == NameMap(items)[n])
    ensures !SubfolderIds(c, parent).value.created ==> SubfolderIds(c, parent).value.ids == NameMap(items)
  {
    NameMapKeys(items, InProgress);
  }

  /** A spreadsheet is read as "excel"; any other file by its lower-cased
      suffix, which is empty or starts with a '.'. */
  lemma {:induction false} EffectiveTypeShape(m: Meta)
    ensures m.mimeType == SheetsMime ==> EffectiveType(m) == "excel"
    ensures m.mimeType != SheetsMime ==>
      EffectiveType(m) == Lower(Suffix(m.name)) &&
      (EffectiveType(m) == "" || EffectiveType(m)[0] == '.')
  {
    SuffixShape(m.name);
  }
  /** Accepted uploads add up over concatenated logs. */
  lemma {:induction false} UploadsDoneAppend(a: seq<Event>, b: seq<Event>)
    ensures UploadsDone(a + b) == UploadsDone(a) + UploadsDone(b)
    decreases |b|
  {
    if b == [] {
      assert a + b == a;
    } else {
      var b' := b[..|b| - 1];
      assert (a + b)[..|a + b| - 1] == a + b';
      assert (a + b)[|a + b| - 1] == b[|b| - 1];
      UploadsDoneAppend(a, b');
    }
  }

  /** A log without uploads counts no accepted upload. */
  lemma {:induction false} UploadsDoneNone(trace: seq<Event>)
    requires forall k :: 0 <= k < |trace| ==> !trace[k].Upload?
    ensures UploadsDone(trace) == 0
    decreases |trace|
  {
    if trace != [] {
      UploadsDoneNone(trace[..|trace| - 1]);
    }
  }
}

=== FILE: etl_drive.dfy ===
/**
 * The scheduled Drive-to-Cloud-Storage ETL in
 * `cloud_functions/etl_drive_to_gcs/main.py`. Each configured source names
 * a `pending` and a `processed` folder directly. Every listed file is
 * downloaded, parsed and, when rows remain, uploaded as JSON lines; whatever
 * happens, a `finally` clause then moves it to `processed`, and a refused
 * move is only logged.
 */
module EtlDrive {
  import opened Base
  import opened Text
  import opened Paths
  import opened Frames
  import opened Hashing
  import opened Drive
  import opened Sweep

  /** `config['parser_config']`, with the defaults `get` supplies. */
  datatype Parser = Parser(
    skipRows: int,                   // parser_cfg.get('skiprows', 0)
    columns: Option<seq<string>>,    // parser_cfg['columns']
    dropLastRow: bool,               // parser_cfg.get('drop_last_row', False)
    columnsMap: Option<Mapping>,     // parser_cfg['columns_map'] when present
    finalColumns: Option<seq<string>>, // parser_cfg['final_columns']
    dateFormat: Option<string>)      // parser_cfg['date_format'] when present

  /** One entry of `config.json`. A missing key is `None`. */
  datatype SourceConfig = SourceConfig(
    description: Option<string>,
    parser: Option<Parser>,
    fileType: Option<string>,
    entity: Option<string>,
    sourceType: Option<string>,
    gcsPath: Option<string>,
    pending: Option<FolderId>,
    processed: Option<FolderId>)

  /** `config.get('entity', 'unknown')`. */
  function Entity(cfg: SourceConfig): string {
    if cfg.entity.Some? then cfg.entity.value else "unknown"
  }

  // ---------------------------------------------------------------------
  // The `try` block of `process_and_upload`

  /** The read: CSV when the configured type is exactly "csv", otherwise
      Excel with openpyxl, no header, and the configured column names. */
  function Read(lib: Pandas, data: seq<bv8>, cfg: SourceConfig, p: Parser): Result<Frame> {
    if cfg.fileType == Some("csv") then
      match lib.readCsv(Bytes(data), ReadOpts(p.skipRows, 0, true))
      case None => Err(ValueError)
      case Some(df) => Ok(df)
    else
      match lib.readExcel(Bytes(data), Openpyxl, ReadOpts(p.skipRows, 0, false))
      case None => Err(ValueError)
      case Some(df) =>
        if p.columns.None? then Err(KeyError) else SetColumns(df, p.columns.value)
  }

  /** The renamed frame and the list of final columns: the values of
      `columns_map` after renaming with it, or else `final_columns`. */
  function Renamed(df: Frame, p: Parser): Result<(Frame, seq<string>)> {
    if p.columnsMap.Some? then Ok((Rename(df, p.columnsMap.value), Values(p.columnsMap.value)))
    else if p.finalColumns.Some? then Ok((df, p.finalColumns.value))
    else Err(KeyError)
  }

  /** The final columns selected, importe coerced to a number and fecha
      normalised: a key error when a final column or one of those two is
      missing. */
  function Coerced(lib: Pandas, df: Frame, finals: seq<string>, p: Parser): (r: Result<Frame>)
    ensures r.Ok? <==> HasAll(df, finals) && "importe" in finals && "fecha" in finals
    ensures r.Ok? ==> r.value.columns == finals && |r.value.rows| == |df.rows|
  {
    match Select(df, finals)
    case Err(e) => Err(e)
    case Ok(sel) =>
      match MapColumn(sel, "importe", c => lib.toNumeric(c))
      case Err(e) => Err(e)
      case Ok(f1) => MapColumn(f1, "fecha", c => lib.toDate(p.dateFormat, c))
  }

  /** The cleaning: rows with a gap in any final column are dropped; a
      non-empty result gets origen, entidad and the id. */
  function Clean(lib: Pandas, df: Frame, finals: seq<string>, cfg: SourceConfig, p: Parser): Result<Frame> {
    match Coerced(lib, df, finals, p)
    case Err(e) => Err(e)
    case Ok(f2) =>
      match DropNa(f2, finals)
      case Err(e) => Err(e)
      case Ok(f3) =>
        if IsEmpty(f3) then Ok(f3)
        else if cfg.sourceType.None? || !HasAll(f3, Core) then Err(KeyError)
        else Ok(Normalized(f3, "transaccion_id", (a, b, c) => EntityId(lib, Entity(cfg), a, b, c),
                           "origen", cfg.sourceType.value, "entidad", Entity(cfg)))
  }

  /** The parsing part of the `try` block, from the downloaded bytes to the
      final frame. */
  function Transform(lib: Pandas, data: seq<bv8>, cfg: SourceConfig, p: Parser): Result<Frame> {
    match Read(lib, data, cfg, p)
    case Err(e) => Err(e)
    case Ok(df) =>
      var df' := if p.dropLastRow then DropLast(df) else df;
      match Renamed(df', p)
      case Err(e) => Err(e)
      case Ok(rf) => Clean(lib, rf.0, rf.1, cfg, p)
  }

  /** The object a file's rows go to: the configured path, then the file's
      stem and id. */
  function UploadPath(gcsPath: string, name: string, id: FileId): string {
    gcsPath + "/" + Stem(name) + "_" + id + ".jsonl"
  }

  /** The events of the `try` block: the download, then the upload of a
      non-empty result. Any exception ends the block and is swallowed; a
      missing `gcs_path` is one. */
  function Attempt(c: Cloud, f: FileId, path: Option<string>, transform: seq<bv8> -> Result<Frame>): seq<Event> {
    match c.media(f, false)
    case None => [Fetched(f, false)]
    case Some(bytes) =>
      match transform(bytes)
      case Err(_) => [Fetched(f, true)]
      case Ok(df) =>
        if IsEmpty(df) || path.None? then [Fetched(f, true)]
        else [Fetched(f, true), Upload(path.value, "application/jsonl+json", df, c.uploadOk(path.value))]
  }

  /** The folders a source moves files between. */
  datatype Folders = Folders(pending: FolderId, processed: FolderId)

  /** `process_and_upload` for one file: the `try` block, then the move to
      `processed` of the `finally` clause, whose refusal is logged. The
      function keeps no counter; a step reports as counted the file it
      moved, so that a run's count is the number of files moved. */
  function FileStep(c: Cloud, fs: Folders, f: FileId, path: Option<string>, transform: seq<bv8> -> Result<Frame>, cur: Option<FolderId>): Outcome {
    var m := Move(c, f, cur, fs.pending, fs.processed);
    Outcome(m.parent, Attempt(c, f, path, transform) + [MoveCall(f, fs.pending, fs.processed, m.ok)], m.ok)
  }

  function LeaseStep(c: Cloud, fs: Folders, pathOf: Item -> Option<string>, transform: seq<bv8> -> Result<Frame>): Step {
    (it: Item, cur: Option<FolderId>) => FileStep(c, fs, it.id, pathOf(it), transform, cur)
  }

  function StepOf(c: Cloud, lib: Pandas, cfg: SourceConfig, p: Parser, fs: Folders): Step {
    LeaseStep(c, fs,
              (it: Item) => if cfg.gcsPath.Some? then Some(UploadPath(cfg.gcsPath.value, it.name, it.id)) else None,
              (data: seq<bv8>) => Transform(lib, data, cfg, p))
  }

  // ---------------------------------------------------------------------
  // `process_files_for_source` and `main`

  /** A source's run, and whether an exception escaped it to `main`. */
  datatype SourceRun = SourceRun(run: Run, escaped: bool)

  /** `process_files_for_source`. A failed listing skips the source. A
      missing `drive_folder_pending`, `description` or `parser_config` key
      escapes before any file is touched; a missing
      `drive_folder_processed` escapes from the first file's `finally`
      clause, after its `try` block ran. */
  function ProcessSource(c: Cloud, lib: Pandas, t: Tree, cfg: SourceConfig): SourceRun {
    if cfg.pending.None? then SourceRun(Run(t, [], 0), true)
    else
      match c.list(Query(cfg.pending.value, false, true))
      case None => SourceRun(Run(t, [], 0), false)
      case Some(files) =>
        if cfg.description.None? then SourceRun(Run(t, [], 0), true)
        else if files == [] then SourceRun(Run(t, [], 0), false)
        else if cfg.parser.None? then SourceRun(Run(t, [], 0), true)
        else
          var p := cfg.parser.value;
          if cfg.processed.None? then
            var path := if cfg.gcsPath.Some? then Some(UploadPath(cfg.gcsPath.value, files[0].name, files[0].id)) else None;
            SourceRun(Run(t, Attempt(c, files[0].id, path, data => Transform(lib, data, cfg, p)), 0), true)
          else
            SourceRun(Loop(t, files, StepOf(c, lib, cfg, p, Folders(cfg.pending.value, cfg.processed.value))), false)
  }

  /** What `main` leaves behind and answers. */
  datatype Reply = Reply(tree: Tree, trace: seq<Event>, moved: nat, message: string, code: int)

  /** The loop over the sources, in the order of `config.json`, until one
      lets an exception escape. */
  function Sources(c: Cloud, lib: Pandas, cfgs: seq<SourceConfig>, r: Run): SourceRun
    decreases |cfgs|
  {
    if cfgs == [] then SourceRun(r, false)
    else
      var s := ProcessSource(c, lib, r.tree, cfgs[0]);
      var r' := Run(s.run.tree, r.trace + s.run.trace, r.count + s.run.count);
      if s.escaped then SourceRun(r', true) else Sources(c, lib, cfgs[1..], r')
  }

  /** `main`. `configs` is `None` when reading `config.json` or the
      credentials raised. */
  function Main(c: Cloud, lib: Pandas, t: Tree, configs: Option<seq<SourceConfig>>): Reply {
    if configs.None? then Reply(t, [], 0, "Error en la ejecución.", 500)
    else
      var s := Sources(c, lib, configs.value, Run(t, [], 0));
      if s.escaped then Reply(s.run.tree, s.run.trace, s.run.count, "Error en la ejecución.", 500)
      else Reply(s.run.tree, s.run.trace, s.run.count, "Proceso completado.", 200)
  }

  // ---------------------------------------------------------------------
  // Properties of the transform

  /** Dropping the last row removes exactly that row and keeps the rest in
      order. */
  lemma {:induction false} DropLastExactlyOne(f: Frame)
    requires |f.rows| > 0
    ensures |DropLast(f).rows| == |f.rows| - 1
    ensures forall i :: 0 <= i < |DropLast(f).rows| ==> DropLast(f).rows[i] == f.rows[i]
  {
    var r := DropLast(f);
    assert r.rows + [f.rows[|f.rows| - 1]] == f.rows;
    forall i | 0 <= i < |r.rows| ensures r.rows[i] == f.rows[i] {
      assert (r.rows + [f.rows[|f.rows| - 1]])[i] == r.rows[i];
    }
  }

  /** The parsing fails when the reader fails, when an Excel source has no
      `columns`, when neither `columns_map` nor `final_columns` is given,
      and when a non-empty result has no `source_type`. */
  lemma {:induction false} TransformFailures(lib: Pandas, data: seq<bv8>, cfg: SourceConfig, p: Parser)
    ensures cfg.fileType == Some("csv") && lib.readCsv(Bytes(data), ReadOpts(p.skipRows, 0, true)).None? ==>
      Transform(lib, data, cfg, p).Err?
    ensures cfg.fileType != Some("csv") && lib.readExcel(Bytes(data), Openpyxl, ReadOpts(p.skipRows, 0, false)).None? ==>
      Transform(lib, data, cfg, p).Err?
    ensures cfg.fileType != Some("csv") && lib.readExcel(Bytes(data), Openpyxl, ReadOpts(p.skipRows, 0, false)).Some? && p.columns.None? ==>
      Transform(lib, data, cfg, p) == Err(KeyError)
    ensures Read(lib, data, cfg, p).Ok? && p.columnsMap.None? && p.finalColumns.None? ==>
      Transform(lib, data, cfg, p) == Err(KeyError)
    ensures Transform(lib, data, cfg, p).Ok? && !IsEmpty(Transform(lib, data, cfg, p).value) ==> cfg.sourceType.Some?
  {
    if Transform(lib, data, cfg, p).Ok? && !IsEmpty(Transform(lib, data, cfg, p).value) {
      var df := Read(lib, data, cfg, p).value;
      var df' := if p.dropLastRow then DropLast(df) else df;
      var rf := Renamed(df', p).value;
      assert Transform(lib, data, cfg, p) == Clean(lib, rf.0, rf.1, cfg, p);
      CleanShape(lib, rf.0, rf.1, cfg, p, 0);
    }
  }

  /** A non-empty result has the columns transaccion_id, fecha, concepto,
      importe, origen, entidad; in every row the id is the hash of the
      entity (by default "unknown") and the row's own fecha, concepto and
      importe, none of these three is missing, and origen and entidad are
      the configured source type and entity. */
  lemma {:induction false} CleanShape(lib: Pandas, df: Frame, finals: seq<string>, cfg: SourceConfig, p: Parser, i: nat)
    requires Clean(lib, df, finals, cfg, p).Ok?
    requires !IsEmpty(Clean(lib, df, finals, cfg, p).value)
    requires i < |Clean(lib, df, finals, cfg, p).value.rows|
    ensures cfg.sourceType.Some?
    ensures var r := Clean(lib, df, finals, cfg, p).value;
      && r.columns == ["transaccion_id", "fecha", "concepto", "importe", "origen", "entidad"]
      && |r.rows[i]| == 6 && r.rows[i][1] != Null && r.rows[i][2] != Null && r.rows[i][3] != Null
      && r.rows[i][0] == Str(lib.sha256(Entity(cfg) + "-" + RawPreimage(lib, r.rows[i][1], r.rows[i][2], r.rows[i][3])))
      && r.rows[i][4] == Str(cfg.sourceType.value) && r.rows[i][5] == Str(Entity(cfg))
  {
    var r := CleanNormalizes(lib, df, finals, cfg, p);
    NormalizedAfterDropNaOf(Coerced(lib, df, finals, p).value, finals, "transaccion_id", (a, b, c) => EntityId(lib, Entity(cfg), a, b, c),
                            "origen", cfg.sourceType.value, "entidad", Entity(cfg), i);
  }

  /** A non-empty cleaned frame is the final frame built from `dropna`'s
      output, which covers fecha, concepto and importe. */
  lemma {:induction false} CleanNormalizes(lib: Pandas, df: Frame, finals: seq<string>, cfg: SourceConfig, p: Parser) returns (r: Frame)
    requires Clean(lib, df, finals, cfg, p).Ok?
    requires !IsEmpty(Clean(lib, df, finals, cfg, p).value)
    ensures cfg.sourceType.Some? && Coerced(lib, df, finals, p).Ok?
    ensures DropNa(Coerced(lib, df, finals, p).value, finals).Ok?
    ensures HasAll(DropNa(Coerced(lib, df, finals, p).value, finals).value, Core)
    ensures forall c | c in Core :: c in finals
    ensures r == Normalized(DropNa(Coerced(lib, df, finals, p).value, finals).value, "transaccion_id",
                            (a, b, c) => EntityId(lib, Entity(cfg), a, b, c), "origen", cfg.sourceType.value, "entidad", Entity(cfg))
    ensures Clean(lib, df, finals, cfg, p) == Ok(r)
  {
    var f3 := DropNa(Coerced(lib, df, finals, p).value, finals).value;
    r := Normalized(f3, "transaccion_id", (a, b, c) => EntityId(lib, Entity(cfg), a, b, c), "origen", cfg.sourceType.value, "entidad", Entity(cfg));
  }

  /** Files that share a name still go to different objects: the id is part
      of the object name. */
  lemma {:induction false} UploadPathKeepsId(gcsPath: string, name: string, a: FileId, b: FileId)
    requires UploadPath(gcsPath, name, a) == UploadPath(gcsPath, name, b)
    ensures a == b
  {
    var pre := gcsPath + "/" + Stem(name) + "_";
    var pa, pb := UploadPath(gcsPath, name, a), UploadPath(gcsPath, name, b);
    assert pa == pre + a + ".jsonl" && pb == pre + b + ".jsonl";
    assert |a| == |b|;
    assert a == pa[|pre|..|pre| + |a|];
    assert b == pb[|pre|..|pre| + |b|];
  }

  // ---------------------------------------------------------------------
  // Properties of one file

  /** The `try` block never moves a file, and uploads only the transform's
      non-empty result of the downloaded bytes, to the file's path. */
  lemma AttemptUploads(c: Cloud, f: FileId, path: Option<string>, tf: seq<bv8> -> Result<Frame>, e: Event)
    requires e in Attempt(c, f, path, tf)
    ensures !e.MoveCall?
    ensures e.Upload? ==>
      && c.media(f, false).Some? && tf(c.media(f, false).value) == Ok(e.rows)
      && !IsEmpty(e.rows) && path == Some(e.path) && e.contentType == "application/jsonl+json"
  {
  }

  /** The `finally` clause always runs: every iteration ends with exactly
      one request to move the file to `processed`, whatever the download,
      the transform and the upload did, and the file ends in `processed`
      exactly when Drive accepts it, in `pending` otherwise. */
  lemma {:induction false} StepAlwaysMoves(c: Cloud, fs: Folders, f: FileId, path: Option<string>, tf: seq<bv8> -> Result<Frame>)
    requires fs.pending != fs.processed
    ensures var o := FileStep(c, fs, f, path, tf, Some(fs.pending));
      && |o.trace| > 0
      && o.trace[|o.trace| - 1] == MoveCall(f, fs.pending, fs.processed, c.moveOk(f, fs.pending, fs.processed))
      && (forall k :: 0 <= k < |o.trace| - 1 ==> !o.trace[k].MoveCall?)
      && (c.moveOk(f, fs.pending, fs.processed) ==> o.parent == Some(fs.processed))
      && (!c.moveOk(f, fs.pending, fs.processed) ==> o.parent == Some(fs.pending))
      && (o.counted <==> o.parent == Some(fs.processed))
  {
    var a := Attempt(c, f, path, tf);
    forall k | 0 <= k < |a| ensures !a[k].MoveCall? {
      AttemptUploads(c, f, path, tf, a[k]);
    }
  }

  /** An empty result is not uploaded, and the file is moved all the same. */
  lemma StepEmptyMoves(c: Cloud, fs: Folders, f: FileId, path: Option<string>, tf: seq<bv8> -> Result<Frame>)
    requires c.media(f, false).Some? && tf(c.media(f, false).value).Ok? && IsEmpty(tf(c.media(f, false).value).value)
    ensures FileStep(c, fs, f, path, tf, Some(fs.pending)).trace
         == [Fetched(f, true), MoveCall(f, fs.pending, fs.processed, c.moveOk(f, fs.pending, fs.processed))]
  {
  }

  // ---------------------------------------------------------------------
  // Properties of a source and of `main`

  predicate Listed(t: Tree, files: seq<Item>, fs: Folders) {
    && DistinctIds(files)
    && forall k :: 0 <= k < |files| ==> ParentOf(t, files[k].id) == Some(fs.pending)
  }

  /** One source's sweep: every listed file ends in `processed` exactly
      when Drive accepts its move, whatever its processing did, and in
      `pending` otherwise; the count is the number of files in
      `processed`; no other file moves. */
  lemma {:induction false} SweepMovesAll(c: Cloud, fs: Folders, pathOf: Item -> Option<string>, tf: seq<bv8> -> Result<Frame>, t: Tree, files: seq<Item>)
    requires fs.pending != fs.processed && Listed(t, files, fs)
    ensures var r := Loop(t, files, LeaseStep(c, fs, pathOf, tf));
      && r.tree.Keys == t.Keys
      && (forall k :: 0 <= k < |files| ==>
            ParentOf(r.tree, files[k].id) == (if c.moveOk(files[k].id, fs.pending, fs.processed) then Some(fs.processed) else Some(fs.pending)))
      && r.count == CountIn(r.tree, files, fs.processed)
      && forall g :: (forall k :: 0 <= k < |files| ==> files[k].id != g) ==> ParentOf(r.tree, g) == ParentOf(t, g)
  {
    var step := LeaseStep(c, fs, pathOf, tf);
    LoopIsBatch(t, files, step);
    var r := Batch(t, files, step);
    forall k | 0 <= k < |files|
      ensures ParentOf(r.tree, files[k].id) == (if c.moveOk(files[k].id, fs.pending, fs.processed) then Some(fs.processed) else Some(fs.pending))
      ensures Own(t, files[k], step).counted <==> Lands(t, files[k], step) == Some(fs.processed)
    {
      var it := files[k];
      assert Own(t, it, step) == FileStep(c, fs, it.id, pathOf(it), tf, Some(fs.pending));
      StepAlwaysMoves(c, fs, it.id, pathOf(it), tf);
      BatchAt(t, files, step, k);
    }
    BatchCount(t, files, step, fs.processed);
    forall g | forall k :: 0 <= k < |files| ==> files[k].id != g
      ensures ParentOf(r.tree, g) == ParentOf(t, g)
    {
      BatchFrame(t, files, step, g);
    }
    BatchFrame(t, files, step, "");
  }

  /** A failed listing skips the source and touches nothing. A source
      without `drive_folder_processed` runs the first file's `try` block,
      so its rows may be uploaded, then escapes with the file still in
      `pending`. */
  lemma ProcessSourceEdges(c: Cloud, lib: Pandas, t: Tree, cfg: SourceConfig)
    ensures cfg.pending.Some? && c.list(Query(cfg.pending.value, false, true)).None? ==>
      ProcessSource(c, lib, t, cfg) == SourceRun(Run(t, [], 0), false)
    ensures cfg.pending.None? ==> ProcessSource(c, lib, t, cfg).escaped && ProcessSource(c, lib, t, cfg).run.tree == t
    ensures cfg.processed.None? ==> ProcessSource(c, lib, t, cfg).run.tree == t && ProcessSource(c, lib, t, cfg).run.count == 0
    ensures (cfg.processed.None? && cfg.pending.Some? && cfg.description.Some? && cfg.parser.Some?
             && c.list(Query(cfg.pending.value, false, true)).Some? && c.list(Query(cfg.pending.value, false, true)).value != []) ==>
      ProcessSource(c, lib, t, cfg).escaped
  {
  }

  /** `main` answers 200 when no source let an exception escape, 500
      otherwise, and 500 without touching Drive when the configuration or
      the credentials fail. Sources after an escape are not visited. */
  lemma MainAnswer(c: Cloud, lib: Pandas, t: Tree, configs: Option<seq<SourceConfig>>)
    ensures configs.None? ==> Main(c, lib, t, configs) == Reply(t, [], 0, "Error en la ejecución.", 500)
    ensures configs.Some? ==>
      var s := Sources(c, lib, configs.value, Run(t, [], 0));
      && (Main(c, lib, t, configs).code == 200 <==> !s.escaped)
      && (Main(c, lib, t, configs).code == 200 ==> Main(c, lib, t, configs).message == "Proceso completado.")
      && (Main(c, lib, t, configs).code != 200 ==> Main(c, lib, t, configs).code == 500)
  {
  }

  /** A source that escapes ends the loop over sources; the sources after
      it are never processed. */
  lemma SourcesStop(c: Cloud, lib: Pandas, s: SourceConfig, rest: seq<SourceConfig>, r: Run)
    requires ProcessSource(c, lib, r.tree, s).escaped
    ensures Sources(c, lib, [s] + rest, r).escaped
    ensures Sources(c, lib, [s] + rest, r).run.tree == ProcessSource(c, lib, r.tree, s).run.tree
  {
  }

  /** The loop over sources only adds: earlier events stay a prefix of the
      log and the count never goes down. */
  lemma {:induction false} SourcesGrow(c: Cloud, lib: Pandas, cfgs: seq<SourceConfig>, r: Run)
    ensures r.trace <= Sources(c, lib, cfgs, r).run.trace
    ensures r.count <= Sources(c, lib, cfgs, r).run.count
    decreases |cfgs|
  {
    if cfgs != [] {
      var s := ProcessSource(c, lib, r.tree, cfgs[0]);
      var r' := Run(s.run.tree, r.trace + s.run.trace, r.count + s.run.count);
      if !s.escaped {
        SourcesGrow(c, lib, cfgs[1..], r');
      }
    }
  }
}

=== FILE: external_table.dfy ===
/**
 * The Cloud Storage trigger in `cloud_functions/create_external_table/main.py`:
 * a new object `dir/file` (re)creates the BigQuery external table named
 * after `dir`, reading every newline-delimited JSON file under that
 * directory. Deployment variables (project, raw dataset) are parameters.
 */
module ExternalTable {
  import opened Base
  import opened Text
  import opened Paths

  /** The fields of a Cloud Storage notification the functions read; a
      missing key is `None`. */
  datatype StorageEvent = StorageEvent(bucket: Option<string>, name: Option<string>)

  /** An external table: its id, source format, source URIs and whether
      the schema is detected automatically. */
  datatype TableDef = TableDef(id: string, format: string, uris: seq<string>, autodetect: bool)

  /** The dataset's tables by id. */
  type Catalog = map<string, TableDef>

  /** BigQuery's answers: whether `delete_table(not_found_ok=True)` and
      `create_table` go through (a missing table is not a failure). A
      `bigquery.Client()` that cannot be built is a `deleteOk` answering
      false: it also escapes before the catalogue is touched. */
  datatype Bq = Bq(deleteOk: string -> bool, createOk: TableDef -> bool)

  /** `os.path.dirname(name).replace('/', '_')`. */
  function TableName(name: string): string {
    ReplaceAll(DirName(name), "/", "_")
  }

  /** The URI `gs://bucket/dir/` followed by the wildcard `*`. */
  function SourceUri(bucket: string, name: string): string {
    "gs://" + bucket + "/" + DirName(name) + "/*"
  }

  function TableId(project: string, dataset: string, name: string): string {
    project + "." + dataset + "." + TableName(name)
  }

  /** The table a new object asks for. */
  function Definition(project: string, dataset: string, bucket: string, name: string): TableDef {
    TableDef(TableId(project, dataset, name), "NEWLINE_DELIMITED_JSON", [SourceUri(bucket, name)], true)
  }

  /** What an invocation leaves: the answer, or an exception that escaped. */
  datatype Reply =
    | Answered(catalog: Catalog, message: string, code: int)
    | Escaped(catalog: Catalog)

  /** `main`: the event keys are read without a guard; the table is
      deleted if present and created again, and any failure re-raised. */
  function Main(bq: Bq, cat: Catalog, project: string, dataset: string, e: StorageEvent): Reply {
    if e.bucket.None? || e.name.None? then Escaped(cat)
    else
      var def := Definition(project, dataset, e.bucket.value, e.name.value);
      if !bq.deleteOk(def.id) then Escaped(cat)
      else
        var cleared := cat - {def.id};
        if !bq.createOk(def) then Escaped(cleared)
        else Answered(cleared[def.id := def], "External table creation process finished.", 200)
  }

  // ---------------------------------------------------------------------
  // Properties of the naming

  /** A table name never contains a separator. */
  lemma {:induction false} TableNameHasNoSlash(name: string)
    ensures '/' !in TableName(name)
  {
    ReplaceOneChar(DirName(name), '/', "_");
    MapCharRemoves(DirName(name), '/', "_");
  }

  /** The layout of the code's comment: `bank/account/file` (for example
      `bankinter/account/fichero.jsonl`) goes to table `bank_account`
      (`bankinter_account`), reading every object under `bank/account/`. */
  lemma {:induction false} TableOfAccountFile(project: string, dataset: string, bucket: string, bank: string, account: string, leaf: string)
    requires '/' !in bank && '/' !in account && '/' !in leaf && |account| > 0
    ensures TableName(bank + "/" + account + "/" + leaf) == bank + "_" + account
    ensures TableId(project, dataset, bank + "/" + account + "/" + leaf) == project + "." + dataset + "." + bank + "_" + account
    ensures SourceUri(bucket, bank + "/" + account + "/" + leaf) == "gs://" + bucket + "/" + bank + "/" + account + "/*"
  {
    var dir := bank + "/" + account;
    assert dir[|dir| - 1] == account[|account| - 1];
    assert account[|account| - 1] in account;
    assert dir + "/" + leaf == bank + "/" + account + "/" + leaf;
    DirNameOfChild(dir, leaf);
    ReplaceOneChar(dir, '/', "_");
    JoinedWithUnderscore(bank, account);
  }

  /** Joining two separator-free names with '/' and replacing the
      separators gives the names joined with '_'. */
  lemma {:induction false} JoinedWithUnderscore(a: string, b: string)
    requires '/' !in a && '/' !in b
    ensures MapChar(a + "/" + b, '/', "_") == a + "_" + b
  {
    MapCharAppend(a, "/" + b, '/', "_");
    MapCharAppend("/", b, '/', "_");
    assert a + "/" + b == a + ("/" + b);
    MapCharRemoves(a, '/', "_");
    MapCharRemoves(b, '/', "_");
  }

  /** A file at the bucket's root has an empty table name, so its table id
      ends with the dataset and a dot, and its URI has an empty directory between two separators. */
  lemma {:induction false} RootFileNames(project: string, dataset: string, bucket: string, name: string)
    requires '/' !in name
    ensures TableName(name) == ""
    ensures TableId(project, dataset, name) == project + "." + dataset + "."
    ensures SourceUri(bucket, name) == "gs://" + bucket + "//*"
  {
    DirNameOfRootFile(name);
  }

  /** Objects in the same directory ask for the same table, whose URI
      covers every file of that directory. */
  lemma {:induction false} SameDirectorySameTable(project: string, dataset: string, bucket: string, dir: string, a: string, b: string)
    requires |dir| > 0 && dir[|dir| - 1] != '/'
    requires '/' !in a && '/' !in b
    ensures Definition(project, dataset, bucket, dir + "/" + a) == Definition(project, dataset, bucket, dir + "/" + b)
    ensures Definition(project, dataset, bucket, dir + "/" + a).uris == ["gs://" + bucket + "/" + dir + "/*"]
  {
    DirNameOfChild(dir, a);
    DirNameOfChild(dir, b);
  }

  // ---------------------------------------------------------------------
  // Properties of `main`

  /** On success the catalogue holds exactly one table under the id, the
      one just defined, and every other table is untouched; on failure
      no other table is touched either, and a failed creation leaves no
      table under the id. */
  lemma {:induction false} MainReplaces(bq: Bq, cat: Catalog, project: string, dataset: string, e: StorageEvent)
    ensures Main(bq, cat, project, dataset, e).Answered? ==> e.bucket.Some? && e.name.Some?
    ensures Main(bq, cat, project, dataset, e).Answered? ==>
      var def := Definition(project, dataset, e.bucket.value, e.name.value);
      Main(bq, cat, project, dataset, e) == Answered(cat[def.id := def], "External table creation process finished.", 200)
    ensures (Main(bq, cat, project, dataset, e).Escaped? && Main(bq, cat, project, dataset, e).catalog != cat) ==>
      && e.bucket.Some? && e.name.Some?
      && !bq.createOk(Definition(project, dataset, e.bucket.value, e.name.value))
      && Main(bq, cat, project, dataset, e).catalog == cat - {TableId(project, dataset, e.name.value)}
  {
    if e.bucket.Some? && e.name.Some? {
      var def := Definition(project, dataset, e.bucket.value, e.name.value);
      if bq.deleteOk(def.id) && bq.createOk(def) {
        assert (cat - {def.id})[def.id := def] == cat[def.id := def];
      }
    }
  }

  /** A missing `bucket` or `name` raises before BigQuery is called. */
  lemma MissingKeysRaise(bq: Bq, cat: Catalog, project: string, dataset: string, e: StorageEvent)
    requires e.bucket.None? || e.name.None?
    ensures Main(bq, cat, project, dataset, e) == Escaped(cat)
  {
  }

  /** Recreating is idempotent: a second object in the same directory,
      processed after the first, leaves the catalogue as the first did. */
  lemma {:induction false} MainIdempotent(bq: Bq, cat: Catalog, project: string, dataset: string, bucket: string, dir: string, a: string, b: string)
    requires |dir| > 0 && dir[|dir| - 1] != '/'
    requires '/' !in a && '/' !in b
    requires Main(bq, cat, project, dataset, StorageEvent(Some(bucket), Some(dir + "/" + a))).Answered?
    ensures var first := Main(bq, cat, project, dataset, StorageEvent(Some(bucket), Some(dir + "/" + a))).catalog;
      Main(bq, first, project, dataset, StorageEvent(Some(bucket), Some(dir + "/" + b)))
        == Answered(first, "External table creation process finished.", 200)
  {
    SameDirectorySameTable(project, dataset, bucket, dir, a, b);
    var def := Definition(project, dataset, bucket, dir + "/" + a);
    var first := (cat - {def.id})[def.id := def];
    assert (first - {def.id})[def.id := def] == first;
  }
}

=== FILE: frames.dfy ===
/**
 * The slice of pandas the transforms use: a data frame as a list of column
 * labels and rectangular rows of cells, column renaming and selection, row
 * filtering, and the library calls whose behaviour is not visible here
 * (file readers, date and number parsing, float formatting, SHA-256),
 * which are fields of the `Pandas` oracle.
 */
module Frames {
  import opened Base
  import Text

  /** A cell: missing (NaN/NaT/None), text, or a number. */
  datatype Cell = Null | Str(s: string) | Num(x: real)

  datatype Table = Table(columns: seq<string>, rows: seq<seq<Cell>>)

  predicate Rectangular(t: Table) {
    forall r | r in t.rows :: |r| == |t.columns|
  }

  /** A data frame: every row has one cell per column label. */
  type Frame = t: Table | Rectangular(t) witness Table([], [])

  /** `pd.DataFrame()`: no columns and no rows. */
  const NoFrame: Frame := Table([], [])

  /** `df.empty`: true when either axis has length zero. */
  predicate IsEmpty(f: Frame) {
    |f.rows| == 0 || |f.columns| == 0
  }

  /** The three columns every bank statement must yield. */
  const Core: seq<string> := ["fecha", "concepto", "importe"]

  // ---------------------------------------------------------------------
  // Column mappings: Python dicts from source label to target label

  predicate KeysDistinct(m: seq<(string, string)>) {
    forall i, j :: 0 <= i < j < |m| ==> m[i].0 != m[j].0
  }

  /** A dict decoded from JSON: insertion-ordered pairs with distinct keys. */
  type Mapping = m: seq<(string, string)> | KeysDistinct(m) witness []

  /** `list(m.keys())`. */
  function Keys(m: Mapping): (r: seq<string>)
    ensures |r| == |m| && forall i :: 0 <= i < |m| ==> r[i] == m[i].0
  {
    seq(|m|, i requires 0 <= i < |m| => m[i].0)
  }

  /** `list(m.values())`. */
  function Values(m: Mapping): (r: seq<string>)
    ensures |r| == |m| && forall i :: 0 <= i < |m| ==> r[i] == m[i].1
  {
    seq(|m|, i requires 0 <= i < |m| => m[i].1)
  }

  /** The label `df.rename(columns=m)` gives column `c`. */
  function RenameLabel(m: seq<(string, string)>, c: string): string {
    if m == [] then c
    else if m[0].0 == c then m[0].1
    else RenameLabel(m[1..], c)
  }

  /** `df.rename(columns=m)`: relabels columns, keeps every cell. */
  function Rename(f: Frame, m: Mapping): (r: Frame)
    ensures r.rows == f.rows && |r.columns| == |f.columns|
    ensures forall i :: 0 <= i < |f.columns| ==> r.columns[i] == RenameLabel(m, f.columns[i])
  {
    Table(seq(|f.columns|, i requires 0 <= i < |f.columns| => RenameLabel(m, f.columns[i])), f.rows)
  }

  /** `{k: v for k, v in m.items() if k in cols}`. */
  function Restrict(m: Mapping, cols: seq<string>): (r: Mapping)
    ensures forall p :: p in r <==> p in m && p.0 in cols
  {
    if m == [] then []
    else
      var rest := Restrict(m[1..], cols);
      assert forall p :: p in rest ==> p in m[1..];
      if m[0].0 in cols then [m[0]] + rest else rest
  }

  predicate HasAll(f: Frame, cols: seq<string>) {
    forall c | c in cols :: c in f.columns
  }

  /** Position of the first column labelled `c`. */
  function IndexOf(cols: seq<string>, c: string): (i: nat)
    requires c in cols
    ensures i < |cols| && cols[i] == c
    ensures forall j :: 0 <= j < i ==> cols[j] != c
  {
    if cols[0] == c then 0 else 1 + IndexOf(cols[1..], c)
  }

  /** The cell of row `i` under label `c` (`df[c].iloc[i]`). */
  function Get(f: Frame, i: nat, c: string): Cell
    requires i < |f.rows| && c in f.columns
  {
    assert f.rows[i] in f.rows;
    f.rows[i][IndexOf(f.columns, c)]
  }

  /** The cells of `row` under the labels `want`. */
  function Pick(row: seq<Cell>, cols: seq<string>, want: seq<string>): (r: seq<Cell>)
    requires |row| == |cols| && forall c | c in want :: c in cols
    ensures |r| == |want|
    ensures forall j :: 0 <= j < |want| ==> r[j] == row[IndexOf(cols, want[j])]
  {
    seq(|want|, j requires 0 <= j < |want| => row[IndexOf(cols, want[j])])
  }

  /** `df[cols]`: the listed columns in the listed order, `KeyError` when
      one is missing. */
  function Select(f: Frame, cols: seq<string>): (r: Result<Frame>)
    ensures r.Ok? <==> HasAll(f, cols)
    ensures r.Ok? ==> r.value.columns == cols && |r.value.rows| == |f.rows|
    ensures r.Ok? ==> forall i, c :: 0 <= i < |f.rows| && c in cols ==> Get(r.value, i, c) == Get(f, i, c)
  {
    if !HasAll(f, cols) then Err(KeyError)
    else
      var rows := seq(|f.rows|, i requires 0 <= i < |f.rows| => (assert f.rows[i] in f.rows; Pick(f.rows[i], f.columns, cols)));
      var t: Frame := Table(cols, rows);
      assert forall i, c :: 0 <= i < |f.rows| && c in cols ==> Get(t, i, c) == Get(f, i, c) by {
        forall i, c | 0 <= i < |f.rows| && c in cols
          ensures Get(t, i, c) == Get(f, i, c)
        {
          var j := IndexOf(cols, c);
          assert t.rows[i][j] == f.rows[i][IndexOf(f.columns, cols[j])];
        }
      }
      Ok(t)
  }

  /** A label that names several columns is read from the first of them,
      and the selection has one column per requested label. (pandas keeps
      every column carrying the label; the model does not.) */
  lemma SelectFirstOfRepeated(f: Frame, cols: seq<string>, c: string, i: nat, j: nat, r: nat)
    requires HasAll(f, cols) && c in cols
    requires i < j < |f.columns| && f.columns[i] == c && f.columns[j] == c
    requires forall k :: 0 <= k < i ==> f.columns[k] != c
    requires r < |f.rows|
    ensures Select(f, cols).Ok? && |Select(f, cols).value.columns| == |cols|
    ensures Get(Select(f, cols).value, r, c) == f.rows[r][i]
  {
    assert IndexOf(f.columns, c) == i;
    assert Get(f, r, c) == f.rows[r][i];
  }

  /** `df.columns = names`: `ValueError` unless one name per column. */
  function SetColumns(f: Frame, names: seq<string>): (r: Result<Frame>)
    ensures r.Ok? <==> |names| == |f.columns|
    ensures r.Ok? ==> r.value.columns == names && r.value.rows == f.rows
  {
    if |names| == |f.columns| then Ok(Table(names, f.rows)) else Err(ValueError)
  }

  /** `df.iloc[:-1]` (also `df[:-1]`): every row but the last. */
  function DropLast(f: Frame): (r: Frame)
    ensures r.columns == f.columns
    ensures |f.rows| > 0 ==> r.rows + [f.rows[|f.rows| - 1]] == f.rows
    ensures |f.rows| == 0 ==> r.rows == []
  {
    if |f.rows| == 0 then f
    else
      assert f.rows[..|f.rows| - 1] + [f.rows[|f.rows| - 1]] == f.rows;
      Table(f.columns, f.rows[..|f.rows| - 1])
  }

  function Replace(row: seq<Cell>, k: nat, v: Cell): (r: seq<Cell>)
    requires k < |row|
    ensures |r| == |row|
  {
    row[k := v]
  }

  /** `df[c] = df[c].map(g)`: `KeyError` when there is no column `c`;
      other columns keep their cells. */
  function MapColumn(f: Frame, c: string, g: Cell -> Cell): (r: Result<Frame>)
    ensures r.Ok? <==> c in f.columns
    ensures r.Ok? ==> r.value.columns == f.columns && |r.value.rows| == |f.rows|
    ensures r.Ok? ==> forall i :: 0 <= i < |f.rows| ==> Get(r.value, i, c) == g(Get(f, i, c))
  {
    if c !in f.columns then Err(KeyError)
    else
      var k := IndexOf(f.columns, c);
      var rows := seq(|f.rows|, i requires 0 <= i < |f.rows| => (assert f.rows[i] in f.rows; Replace(f.rows[i], k, g(f.rows[i][k]))));
      Ok(Table(f.columns, rows))
  }

  /** The cells `g` gives a column, or the first failure. */
  function MapCells(cells: seq<Cell>, g: Cell -> Option<Cell>): (r: Option<seq<Cell>>)
    ensures r.Some? <==> forall k :: 0 <= k < |cells| ==> g(cells[k]).Some?
    ensures r.Some? ==> |r.value| == |cells| && forall k :: 0 <= k < |cells| ==> Some(r.value[k]) == g(cells[k])
  {
    if cells == [] then Some([])
    else match (g(cells[0]), MapCells(cells[1..], g))
      case (Some(v), Some(vs)) => Some([v] + vs)
      case _ => None
  }

  /** `df[c] = df[c].apply(g)` for a `g` that may raise: `KeyError` when
      there is no column `c`, `ValueError` when `g` fails on some cell. */
  function TryMapColumn(f: Frame, c: string, g: Cell -> Option<Cell>): (r: Result<Frame>)
    ensures c !in f.columns ==> r == Err(KeyError)
    ensures c in f.columns ==> (r.Ok? <==> forall i :: 0 <= i < |f.rows| ==> g(Get(f, i, c)).Some?)
    ensures r.Ok? ==> r.value.columns == f.columns && |r.value.rows| == |f.rows|
    ensures r.Ok? ==> forall i :: 0 <= i < |f.rows| ==> Some(Get(r.value, i, c)) == g(Get(f, i, c))
  {
    if c !in f.columns then Err(KeyError)
    else
      var k := IndexOf(f.columns, c);
      var column := seq(|f.rows|, i requires 0 <= i < |f.rows| => Get(f, i, c));
      match MapCells(column, g)
      case None => Err(ValueError)
      case Some(vs) =>
        var rows := seq(|f.rows|, i requires 0 <= i < |f.rows| => (assert f.rows[i] in f.rows; Replace(f.rows[i], k, vs[i])));
        Ok(Table(f.columns, rows))
  }

  /** A row has a value under every label of `subset`. */
  predicate Complete(row: seq<Cell>, cols: seq<string>, subset: seq<string>)
    requires |row| == |cols| && forall c | c in subset :: c in cols
  {
    forall c | c in subset :: row[IndexOf(cols, c)] != Null
  }

  function KeepComplete(rows: seq<seq<Cell>>, cols: seq<string>, subset: seq<string>): (r: seq<seq<Cell>>)
    requires forall row | row in rows :: |row| == |cols|
    requires forall c | c in subset :: c in cols
    ensures forall row | row in r :: row in rows && Complete(row, cols, subset)
    ensures forall row | row in rows && Complete(row, cols, subset) :: row in r
    ensures |r| <= |rows|
  {
    if rows == [] then []
    else
      var rest := KeepComplete(rows[1..], cols, subset);
      if Complete(rows[0], cols, subset) then [rows[0]] + rest else rest
  }

  /** `df.dropna(subset=subset)`: keeps exactly the rows with a value under
      every label of `subset`; `KeyError` when a label is missing. */
  function DropNa(f: Frame, subset: seq<string>): (r: Result<Frame>)
    ensures r.Ok? <==> HasAll(f, subset)
    ensures r.Ok? ==> r.value.columns == f.columns && |r.value.rows| <= |f.rows|
    ensures r.Ok? ==> forall row | row in r.value.rows :: row in f.rows && Complete(row, f.columns, subset)
    ensures r.Ok? ==> forall row | row in f.rows && Complete(row, f.columns, subset) :: row in r.value.rows
  {
    if !HasAll(f, subset) then Err(KeyError)
    else Ok(Table(f.columns, KeepComplete(f.rows, f.columns, subset)))
  }

  function KeepEqual(rows: seq<seq<Cell>>, k: nat, v: Cell): (r: seq<seq<Cell>>)
    requires forall row | row in rows :: k < |row|
    ensures forall row | row in r :: row in rows && row[k] == v
    ensures forall row | row in rows && row[k] == v :: row in r
    ensures |r| <= |rows|
  {
    if rows == [] then []
    else
      var rest := KeepEqual(rows[1..], k, v);
      if rows[0][k] == v then [rows[0]] + rest else rest
  }

  /** `df[df[c] == v]`: keeps exactly the rows whose cell under `c` is the
      text `v`. */
  function FilterEqual(f: Frame, c: string, v: string): (r: Frame)
    requires c in f.columns
    ensures r.columns == f.columns && |r.rows| <= |f.rows|
    ensures forall row | row in r.rows :: row in f.rows && row[IndexOf(f.columns, c)] == Str(v)
    ensures forall row | row in f.rows && row[IndexOf(f.columns, c)] == Str(v) :: row in r.rows
  {
    Table(f.columns, KeepEqual(f.rows, IndexOf(f.columns, c), Str(v)))
  }

  /** The final frame: an id column, fecha, concepto, importe, then two
      columns holding one constant each; the id of a row is computed from
      that row's own fecha, concepto and importe. */
  function Normalized(f: Frame, idCol: string, idOf: (Cell, Cell, Cell) -> string,
                      col5: string, val5: string, col6: string, val6: string): (r: Frame)
    requires HasAll(f, Core)
    ensures r.columns == [idCol, "fecha", "concepto", "importe", col5, col6]
    ensures |r.rows| == |f.rows|
  {
    var rows := seq(|f.rows|, i requires 0 <= i < |f.rows| => NormalRow(f, idOf, val5, val6, i));
    var cols := [idCol, "fecha", "concepto", "importe", col5, col6];
    assert forall r | r in rows :: |r| == |cols| by {
      forall r | r in rows ensures |r| == |cols| {
        var k :| 0 <= k < |rows| && rows[k] == r;
      }
    }
    Table(cols, rows)
  }

  /** Row `i` of the final frame. */
  function NormalRow(f: Frame, idOf: (Cell, Cell, Cell) -> string, val5: string, val6: string, i: nat): (row: seq<Cell>)
    requires HasAll(f, Core) && i < |f.rows|
    ensures |row| == 6
  {
    var fecha, concepto, importe := Get(f, i, "fecha"), Get(f, i, "concepto"), Get(f, i, "importe");
    [Str(idOf(fecha, concepto, importe)), fecha, concepto, importe, Str(val5), Str(val6)]
  }

  // ---------------------------------------------------------------------
  // The library oracle

  /** `read_excel` engines. */
  datatype Engine = Openpyxl | Xlrd | Inferred

  /** What a reader is given: the downloaded bytes, or a path on disk. */
  datatype Source = Bytes(data: seq<bv8>) | LocalPath(name: string)

  /** Reader options: rows skipped at the top and bottom, and whether the
      first remaining row is a header (`header=None` makes it data). */
  datatype ReadOpts = ReadOpts(skipRows: int, skipFooter: int, header: bool)

  /** Library behaviour that is not visible in the modelled code. A reader
      returns `None` when it raises. */
  datatype Pandas = Pandas(
    readExcel: (Source, Engine, ReadOpts) -> Option<Frame>,
    readCsv: (Source, ReadOpts) -> Option<Frame>,
    toDate: (Option<string>, Cell) -> Cell,  // to_datetime(errors='coerce').dt.strftime('%Y-%m-%d')
    toNumeric: Cell -> Cell,                 // to_numeric(errors='coerce')
    parseFloat: string -> Option<real>,      // float(s); None when it raises
    atof: string -> Option<real>,            // locale.atof(s); None when it raises
    fixed2: Cell -> string,                  // f"{float(x):.2f}"
    showNumber: real -> string,              // str(x) of a float
    sha256: string -> string,                // hashlib.sha256(...).hexdigest()
    applyOnEmptyRaises: bool)                // df[c] = df.apply(g, axis=1) on an empty frame raises

  /** `str(x)` of a cell, as `astype(str)` and f-strings render it. */
  function Show(lib: Pandas, c: Cell): string {
    match c
    case Null => "nan"
    case Str(s) => s
    case Num(x) => lib.showNumber(x)
  }

  // ---------------------------------------------------------------------
  // Properties

  /** Restricting the mapping to the labels present, as one of the
      transforms does before renaming, changes nothing. */
  lemma {:induction false} RestrictedRenameSame(f: Frame, m: Mapping)
    ensures Rename(f, Restrict(m, f.columns)) == Rename(f, m)
  {
    forall i | 0 <= i < |f.columns|
      ensures RenameLabel(Restrict(m, f.columns), f.columns[i]) == RenameLabel(m, f.columns[i])
    {
      RestrictLabel(m, f.columns, f.columns[i]);
    }
  }

  lemma {:induction false} RestrictLabel(m: Mapping, cols: seq<string>, c: string)
    requires c in cols
    ensures RenameLabel(Restrict(m, cols), c) == RenameLabel(m, c)
  {
    if m != [] {
      var tail: Mapping := m[1..];
      RestrictLabel(tail, cols, c);
    }
  }

  // ---------------------------------------------------------------------
  // Row filters keep order and repetitions

  /** One row survives `dropna` exactly when it is complete. */
  lemma KeepCompleteOne(row: seq<Cell>, cols: seq<string>, subset: seq<string>)
    requires |row| == |cols| && forall c | c in subset :: c in cols
    ensures KeepComplete([row], cols, subset) == if Complete(row, cols, subset) then [row] else []
  {
    assert [row][1..] == [];
  }

  /** `dropna` filters a concatenation piece by piece: with
      `KeepCompleteOne` this fixes the result of every input, so the kept
      rows stay in their order and a repeated row is kept as often as it
      occurs. */
  lemma {:induction false} KeepCompleteAppend(a: seq<seq<Cell>>, b: seq<seq<Cell>>, cols: seq<string>, subset: seq<string>)
    requires forall row | row in a + b :: |row| == |cols|
    requires forall c | c in subset :: c in cols
    ensures KeepComplete(a + b, cols, subset) == KeepComplete(a, cols, subset) + KeepComplete(b, cols, subset)
    decreases |a|
  {
    if a == [] {
      assert a + b == b;
    } else {
      var ab := a + b;
      assert ab[0] == a[0] && ab[1..] == a[1..] + b;
      KeepCompleteAppend(a[1..], b, cols, subset);
      if Complete(a[0], cols, subset) {
        calc {
          KeepComplete(ab, cols, subset);
          [a[0]] + KeepComplete(a[1..] + b, cols, subset);
          [a[0]] + (KeepComplete(a[1..], cols, subset) + KeepComplete(b, cols, subset));
          ([a[0]] + KeepComplete(a[1..], cols, subset)) + KeepComplete(b, cols, subset);
        }
      }
    }
  }

  /** One row survives the mask exactly when its cell matches. */
  lemma KeepEqualOne(row: seq<Cell>, k: nat, v: Cell)
    requires k < |row|
    ensures KeepEqual([row], k, v) == if row[k] == v then [row] else []
  {
    assert [row][1..] == [];
  }

  /** The boolean mask filters a concatenation piece by piece, so the kept
      rows stay in order with their repetitions. */
  lemma {:induction false} KeepEqualAppend(a: seq<seq<Cell>>, b: seq<seq<Cell>>, k: nat, v: Cell)
    requires forall row | row in a + b :: k < |row|
    ensures KeepEqual(a + b, k, v) == KeepEqual(a, k, v) + KeepEqual(b, k, v)
    decreases |a|
  {
    if a == [] {
      assert a + b == b;
    } else {
      var ab := a + b;
      assert ab[0] == a[0] && ab[1..] == a[1..] + b;
      KeepEqualAppend(a[1..], b, k, v);
      if a[0][k] == v {
        calc {
          KeepEqual(ab, k, v);
          [a[0]] + KeepEqual(a[1..] + b, k, v);
          [a[0]] + (KeepEqual(a[1..], k, v) + KeepEqual(b, k, v));
          ([a[0]] + KeepEqual(a[1..], k, v)) + KeepEqual(b, k, v);
        }
      }
    }
  }

  /** `dropna` on a frame: a single row is kept exactly when complete, and
      the frame of two row blocks gives the kept rows of the first block
      followed by those of the second. Order and repetitions are kept. */
  lemma {:induction false} DropNaKeepsOrder(cols: seq<string>, a: seq<seq<Cell>>, b: seq<seq<Cell>>, subset: seq<string>)
    requires forall row | row in a + b :: |row| == |cols|
    ensures forall row | row in a :: |row| == |cols|
    ensures forall row | row in b :: |row| == |cols|
    ensures (forall c | c in subset :: c in cols) ==>
      && DropNa(Table(cols, a + b), subset).Ok?
      && DropNa(Table(cols, a + b), subset).value.rows
         == DropNa(Table(cols, a), subset).value.rows + DropNa(Table(cols, b), subset).value.rows
    ensures (forall c | c in subset :: c in cols) && |a| == 1 ==>
      DropNa(Table(cols, a), subset) == Ok(Table(cols, if Complete(a[0], cols, subset) then a else []))
  {
    assert forall row | row in a :: row in a + b;
    assert forall row | row in b :: row in a + b;
    if forall c | c in subset :: c in cols {
      KeepCompleteAppend(a, b, cols, subset);
      if |a| == 1 {
        assert a == [a[0]];
        KeepCompleteOne(a[0], cols, subset);
      }
    }
  }

  /** `df[df[c] == v]` on a frame: a single row is kept exactly when its
      cell matches, and two row blocks are filtered block by block. */
  lemma {:induction false} FilterEqualKeepsOrder(cols: seq<string>, a: seq<seq<Cell>>, b: seq<seq<Cell>>, c: string, v: string)
    requires c in cols
    requires forall row | row in a + b :: |row| == |cols|
    ensures forall row | row in a :: |row| == |cols|
    ensures forall row | row in b :: |row| == |cols|
    ensures FilterEqual(Table(cols, a + b), c, v).rows
      == FilterEqual(Table(cols, a), c, v).rows + FilterEqual(Table(cols, b), c, v).rows
    ensures |a| == 1 ==>
      FilterEqual(Table(cols, a), c, v) == Table(cols, if a[0][IndexOf(cols, c)] == Str(v) then a else [])
  {
    assert forall row | row in a :: row in a + b;
    assert forall row | row in b :: row in a + b;
    KeepEqualAppend(a, b, IndexOf(cols, c), Str(v));
    if |a| == 1 {
      assert a == [a[0]];
      KeepEqualOne(a[0], IndexOf(cols, c), Str(v));
    }
  }

  /** After `dropna`, every surviving row has a value in each listed column. */
  lemma {:induction false} DropNaLeavesNoGap(f: Frame, subset: seq<string>, i: nat, c: string)
    requires DropNa(f, subset).Ok?
    requires i < |DropNa(f, subset).value.rows| && c in subset
    ensures Get(DropNa(f, subset).value, i, c) != Null
  {
    var g := DropNa(f, subset).value;
    assert g.rows[i] in g.rows;
  }

  /** Mapping one column leaves every other column's cells as they were. */
  lemma {:induction false} MapColumnKeeps(f: Frame, c: string, g: Cell -> Cell, i: nat, d: string)
    requires MapColumn(f, c, g).Ok? && d in f.columns && d != c && i < |f.rows|
    ensures Get(MapColumn(f, c, g).value, i, d) == Get(f, i, d)
  {
    var k := IndexOf(f.columns, c);
    assert f.rows[i] in f.rows;
    assert MapColumn(f, c, g).value.rows[i] == f.rows[i][k := g(f.rows[i][k])];
  }

  /** Row `i` of the final frame: the id computed from that row's own
      fecha, concepto and importe, those three cells, and the constants. */
  lemma {:induction false} NormalizedRow(f: Frame, idCol: string, idOf: (Cell, Cell, Cell) -> string,
                      col5: string, val5: string, col6: string, val6: string, i: nat)
    requires HasAll(f, Core) && i < |f.rows|
    ensures var row := Normalized(f, idCol, idOf, col5, val5, col6, val6).rows[i];
      && |row| == 6
      && row[0] == Str(idOf(Get(f, i, "fecha"), Get(f, i, "concepto"), Get(f, i, "importe")))
      && row[1] == Get(f, i, "fecha") && row[2] == Get(f, i, "concepto") && row[3] == Get(f, i, "importe")
      && row[4] == Str(val5) && row[5] == Str(val6)
  {
    assert Normalized(f, idCol, idOf, col5, val5, col6, val6).rows[i] == NormalRow(f, idOf, val5, val6, i);
  }

  /** Renaming with a dict that maps one label leaves every other label alone. */
  lemma RenameLabelMissing(m: seq<(string, string)>, c: string)
    requires forall k :: 0 <= k < |m| ==> m[k].0 != c
    ensures RenameLabel(m, c) == c
  {
  }

  /** A label that is a key of the dict becomes that key's value. */
  lemma {:induction false} RenameLabelHit(m: Mapping, k: nat)
    requires k < |m|
    ensures RenameLabel(m, m[k].0) == m[k].1
  {
    if k > 0 {
      var tail: Mapping := m[1..];
      RenameLabelHit(tail, k - 1);
    }
  }

  /** Row `i` of the final frame built from `dropna`'s output: fecha,
      concepto and importe are present, the id is computed from exactly
      those cells, and the last two columns hold the constants. */
  lemma {:induction false} NormalizedAfterDropNa(g: Frame, idCol: string, idOf: (Cell, Cell, Cell) -> string,
                              col5: string, val5: string, col6: string, val6: string, i: nat)
    requires DropNa(g, Core).Ok? && i < |DropNa(g, Core).value.rows|
    ensures HasAll(DropNa(g, Core).value, Core)
    ensures var row := Normalized(DropNa(g, Core).value, idCol, idOf, col5, val5, col6, val6).rows[i];
      && |row| == 6 && row[1] != Null && row[2] != Null && row[3] != Null
      && row[0] == Str(idOf(row[1], row[2], row[3]))
      && row[4] == Str(val5) && row[5] == Str(val6)
  {
    var f := DropNa(g, Core).value;
    assert HasAll(f, Core);
    DropNaLeavesNoGap(g, Core, i, "fecha");
    DropNaLeavesNoGap(g, Core, i, "concepto");
    DropNaLeavesNoGap(g, Core, i, "importe");
    NormalizedRow(f, idCol, idOf, col5, val5, col6, val6, i);
  }

  /** The same when `dropna` ran on a list of labels that includes fecha,
      concepto and importe. */
  lemma {:induction false} NormalizedAfterDropNaOf(g: Frame, subset: seq<string>, idCol: string, idOf: (Cell, Cell, Cell) -> string,
                                col5: string, val5: string, col6: string, val6: string, i: nat)
    requires DropNa(g, subset).Ok? && HasAll(DropNa(g, subset).value, Core)
    requires forall c | c in Core :: c in subset
    requires i < |DropNa(g, subset).value.rows|
    ensures var row := Normalized(DropNa(g, subset).value, idCol, idOf, col5, val5, col6, val6).rows[i];
      && |row| == 6 && row[1] != Null && row[2] != Null && row[3] != Null
      && row[0] == Str(idOf(row[1], row[2], row[3]))
      && row[4] == Str(val5) && row[5] == Str(val6)
  {
    var f := DropNa(g, subset).value;
    DropNaLeavesNoGap(g, subset, i, "fecha");
    DropNaLeavesNoGap(g, subset, i, "concepto");
    DropNaLeavesNoGap(g, subset, i, "importe");
    NormalizedRow(f, idCol, idOf, col5, val5, col6, val6, i);
  }
}

=== FILE: gcs_to_bq.dfy ===
/**
 * The Cloud Storage trigger in `cloud_functions/gcs_to_bq/main.py`: a new
 * object under `CUENTA/` or `TARJETA/` is appended to the raw BigQuery
 * table by a load job; anything else is ignored.
 */
module GcsToBq {
  import opened Base
  import opened Text
  import ExternalTable

  type StorageEvent = ExternalTable.StorageEvent

  /** One loaded record (a JSON line of the source object). */
  type Record = string

  /** BigQuery's answers: whether `schema_from_json` finds the schema file,
      the records a load job appends for a URI (`None` when the job fails,
      in which case it appends nothing), and whether `get_table` after the
      load goes through. A `bigquery.Client()` that cannot be built is a
      `schemaOk` answering false: it also escapes before any load. */
  datatype Loader = Loader(schemaOk: bool, load: string -> Option<seq<Record>>, getTableOk: bool)

  /** The table after the call, the URIs of the load jobs started, and the
      answer (`None` when an exception escaped). */
  datatype Reply = Reply(table: seq<Record>, jobs: seq<string>, answer: Option<(string, int)>)

  /** The folders whose objects are loaded; the test is case-sensitive. */
  predicate Loadable(name: string) {
    StartsWith(name, "CUENTA/") || StartsWith(name, "TARJETA/")
  }

  function Uri(bucket: string, name: string): string {
    "gs://" + bucket + "/" + name
  }

  /** `main`. The load job appends; a failure after the job (reading the
      table back) escapes although the rows are already in. */
  function Main(ld: Loader, table: seq<Record>, e: StorageEvent): Reply {
    if e.bucket.None? || e.name.None? then Reply(table, [], Some(("Formato de evento incorrecto", 400)))
    else if !Loadable(e.name.value) then Reply(table, [], Some(("Archivo ignorado", 200)))
    else if !ld.schemaOk then Reply(table, [], None)
    else
      var uri := Uri(e.bucket.value, e.name.value);
      match ld.load(uri)
      case None => Reply(table, [uri], None)
      case Some(rows) =>
        if !ld.getTableOk then Reply(table + rows, [uri], None)
        else Reply(table + rows, [uri], Some(("Carga a BigQuery completada", 200)))
  }

  // ---------------------------------------------------------------------
  // Properties

  /** A malformed event answers 400 and an object outside the two folders
      answers "ignored"; neither starts a load. */
  lemma RejectsWithoutLoad(ld: Loader, table: seq<Record>, e: StorageEvent)
    ensures e.bucket.None? || e.name.None? ==>
      Main(ld, table, e) == Reply(table, [], Some(("Formato de evento incorrecto", 400)))
    ensures e.bucket.Some? && e.name.Some? && !Loadable(e.name.value) ==>
      Main(ld, table, e) == Reply(table, [], Some(("Archivo ignorado", 200)))
  {
  }

  /** At most one load job is started, only for an object in one of the two
      folders, and it reads exactly `gs://bucket/name`. */
  lemma LoadsTheObject(ld: Loader, table: seq<Record>, e: StorageEvent)
    ensures |Main(ld, table, e).jobs| <= 1
    ensures Main(ld, table, e).jobs != [] ==>
      && e.bucket.Some? && e.name.Some? && Loadable(e.name.value)
      && Main(ld, table, e).jobs == ["gs://" + e.bucket.value + "/" + e.name.value]
  {
  }

  /** The load only appends: the table afterwards is the table before
      followed by the records of the loaded object, or unchanged. */
  lemma AppendOnly(ld: Loader, table: seq<Record>, e: StorageEvent)
    ensures table <= Main(ld, table, e).table
    ensures Main(ld, table, e).table == table ||
      (&& |Main(ld, table, e).jobs| == 1
       && ld.load(Main(ld, table, e).jobs[0]).Some?
       && Main(ld, table, e).table == table + ld.load(Main(ld, table, e).jobs[0]).value)
  {
  }

  /** "Completed" is answered exactly when the event is well formed, the
      object is in one of the two folders, the schema is found, the job
      succeeds and the table can be read back; every failure after the
      folder test escapes. */
  lemma CompletedIff(ld: Loader, table: seq<Record>, e: StorageEvent)
    ensures Main(ld, table, e).answer == Some(("Carga a BigQuery completada", 200)) <==>
      && e.bucket.Some? && e.name.Some? && Loadable(e.name.value) && ld.schemaOk
      && ld.load(Uri(e.bucket.value, e.name.value)).Some? && ld.getTableOk
    ensures (e.bucket.Some? && e.name.Some? && Loadable(e.name.value)) ==>
      (Main(ld, table, e).answer.None? <==>
        !ld.schemaOk || ld.load(Uri(e.bucket.value, e.name.value)).None? || !ld.getTableOk)
  {
  }

  /** The folder test is case-sensitive: `cuenta/` objects are ignored. */
  lemma {:induction false} FolderTestIsCaseSensitive(ld: Loader, table: seq<Record>, bucket: string, leaf: string)
    ensures Main(ld, table, ExternalTable.StorageEvent(Some(bucket), Some("cuenta/" + leaf))).answer == Some(("Archivo ignorado", 200))
    ensures Loadable("CUENTA/" + leaf) && Loadable("TARJETA/" + leaf)
  {
    var n := "cuenta/" + leaf;
    assert n[0] == 'c';
    assert !StartsWith(n, "CUENTA/") by { assert n[..7][0] == 'c'; }
    assert !StartsWith(n, "TARJETA/") by { assert |n| >= 8 ==> n[..8][0] == 'c'; }
    assert ("CUENTA/" + leaf)[..7] == "CUENTA/";
    assert ("TARJETA/" + leaf)[..8] == "TARJETA/";
  }
}

=== FILE: hashing.dfy ===
/**
 * Row identifiers. Every variant hashes a text built from the row's fecha,
 * concepto and importe; they differ in how that text is built. SHA-256
 * itself is the `sha256` field of the library oracle, so the facts proved
 * here are about the hashed text (the preimage).
 */
module Hashing {
  import opened Text
  import opened Frames

  /** `generate_hash_id`'s preimage: the date as text, the description
      stripped and lower-cased, and the amount with two decimals, joined
      by '-'. */
  function HashPreimage(lib: Pandas, fecha: Cell, concepto: Cell, importe: Cell): string {
    Show(lib, fecha) + "-" + Lower(Strip(Show(lib, concepto))) + "-" + lib.fixed2(importe)
  }

  /** `generate_hash_id` / `_generate_hash_id`. */
  function HashId(lib: Pandas, fecha: Cell, concepto: Cell, importe: Cell): string {
    lib.sha256(HashPreimage(lib, fecha, concepto, importe))
  }

  /** `generate_transaction_id`'s preimage in the HTTP and card variants:
      the three cells as text, joined by '-', without normalisation. */
  function RawPreimage(lib: Pandas, fecha: Cell, concepto: Cell, importe: Cell): string {
    Show(lib, fecha) + "-" + Show(lib, concepto) + "-" + Show(lib, importe)
  }

  function RawId(lib: Pandas, fecha: Cell, concepto: Cell, importe: Cell): string {
    lib.sha256(RawPreimage(lib, fecha, concepto, importe))
  }

  /** The Drive-to-Cloud-Storage ETL's preimage: the entity name in front
      of the raw preimage. */
  function EntityPreimage(lib: Pandas, entity: string, fecha: Cell, concepto: Cell, importe: Cell): string {
    entity + "-" + RawPreimage(lib, fecha, concepto, importe)
  }

  function EntityId(lib: Pandas, entity: string, fecha: Cell, concepto: Cell, importe: Cell): string {
    lib.sha256(EntityPreimage(lib, entity, fecha, concepto, importe))
  }

  // ---------------------------------------------------------------------
  // Properties of the normalising preimage

  /** Whitespace around the description does not change the id. */
  lemma {:induction false} HashIgnoresPadding(lib: Pandas, fecha: Cell, p: string, s: string, q: string, importe: Cell)
    requires AllSpace(p) && AllSpace(q)
    ensures HashPreimage(lib, fecha, Str(p + s + q), importe) == HashPreimage(lib, fecha, Str(s), importe)
  {
    StripIgnoresPadding(p, s, q);
  }

  /** Descriptions that differ only in letter case give the same id. */
  lemma {:induction false} HashIgnoresCase(lib: Pandas, fecha: Cell, a: string, b: string, importe: Cell)
    requires Lower(a) == Lower(b)
    ensures HashPreimage(lib, fecha, Str(a), importe) == HashPreimage(lib, fecha, Str(b), importe)
  {
    StripLowerCaseInsensitive(a, b);
  }

  /** The description that enters the preimage is already in normal form:
      hashing a row whose description was normalised first gives the same id. */
  lemma {:induction false} HashOfNormalized(lib: Pandas, fecha: Cell, concepto: Cell, importe: Cell)
    ensures HashPreimage(lib, fecha, Str(Lower(Strip(Show(lib, concepto)))), importe)
         == HashPreimage(lib, fecha, concepto, importe)
  {
    var s := Strip(Show(lib, concepto));
    StripLowerCommute(s);
    StripIdempotent(Show(lib, concepto));
    LowerIdempotent(s);
  }

  /** Two rows share a preimage only when they agree once normalised: with
      dates and formatted amounts of equal widths, equal preimages mean
      equal dates, equal normalised descriptions and equal amounts. */
  lemma {:induction false} HashPreimageSeparates(lib: Pandas, f1: Cell, c1: Cell, i1: Cell, f2: Cell, c2: Cell, i2: Cell)
    requires |Show(lib, f1)| == |Show(lib, f2)| && |lib.fixed2(i1)| == |lib.fixed2(i2)|
    requires HashPreimage(lib, f1, c1, i1) == HashPreimage(lib, f2, c2, i2)
    ensures Show(lib, f1) == Show(lib, f2)
    ensures Lower(Strip(Show(lib, c1))) == Lower(Strip(Show(lib, c2)))
    ensures lib.fixed2(i1) == lib.fixed2(i2)
  {
    Split3(Show(lib, f1), Lower(Strip(Show(lib, c1))), lib.fixed2(i1),
           Show(lib, f2), Lower(Strip(Show(lib, c2))), lib.fixed2(i2));
  }

  // ---------------------------------------------------------------------
  // Properties of the raw preimages

  /** Without normalisation, any difference in a description's text, even
      surrounding whitespace, gives a different preimage. */
  lemma {:induction false} RawPreimageSeparates(lib: Pandas, fecha: Cell, c1: Cell, c2: Cell, importe: Cell)
    requires Show(lib, c1) != Show(lib, c2)
    ensures RawPreimage(lib, fecha, c1, importe) != RawPreimage(lib, fecha, c2, importe)
  {
    var a, b, z := Show(lib, fecha), Show(lib, c1), Show(lib, importe);
    var b' := Show(lib, c2);
    if RawPreimage(lib, fecha, c1, importe) == RawPreimage(lib, fecha, c2, importe) {
      Split3(a, b, z, a, b', z);
      assert false;
    }
  }

  /** Rows of two entities whose names hold no '-' never share a preimage. */
  lemma {:induction false} EntityPreimageSeparates(lib: Pandas, e1: string, e2: string,
                                f1: Cell, c1: Cell, i1: Cell, f2: Cell, c2: Cell, i2: Cell)
    requires e1 != e2 && '-' !in e1 && '-' !in e2
    ensures EntityPreimage(lib, e1, f1, c1, i1) != EntityPreimage(lib, e2, f2, c2, i2)
  {
    DashPrefixSeparates(e1, e2, RawPreimage(lib, f1, c1, i1), RawPreimage(lib, f2, c2, i2));
  }

  // ---------------------------------------------------------------------
  // Helpers

  /** Splitting "a-b-z" back into its parts when the outer parts have known
      widths. */
  lemma {:induction false} Split3(a: string, b: string, z: string, a': string, b': string, z': string)
    requires |a| == |a'| && |z| == |z'|
    requires a + "-" + b + "-" + z == a' + "-" + b' + "-" + z'
    ensures a == a' && b == b' && z == z'
  {
    var x := a + "-" + b + "-" + z;
    var n := |x|;
    assert a == x[..|a|];
    assert a' == x[..|a'|];
    assert z == x[n - |z|..];
    assert z' == x[n - |z'|..];
    assert b == x[|a| + 1..n - |z| - 1];
    assert b' == x[|a'| + 1..n - |z'| - 1];
  }

  lemma {:induction false} DashPrefixSeparates(e1: string, e2: string, r1: string, r2: string)
    requires e1 != e2 && '-' !in e1 && '-' !in e2
    ensures e1 + "-" + r1 != e2 + "-" + r2
  {
    var x, y := e1 + "-" + r1, e2 + "-" + r2;
    if |e1| < |e2| {
      assert x[|e1|] == '-' && y[|e1|] == e2[|e1|];
    } else if |e2| < |e1| {
      assert y[|e2|] == '-' && x[|e2|] == e1[|e2|];
    } else {
      var k :| 0 <= k < |e1| && e1[k] != e2[k];
      assert x[k] == e1[k] && y[k] == e2[k];
    }
  }
}

=== FILE: intake_http.dfy ===
/**
 * The HTTP-triggered intake in `ingestion_fuction/main.py`. There is no
 * lease folder: each file of `pending` is downloaded and transformed, a
 * non-empty result is uploaded as CSV, and the file then moves straight to
 * `processed`, empty or not. An exception anywhere in an iteration is
 * logged and leaves the file in `pending`.
 */
module IntakeHttp {
  import opened Base
  import opened Text
  import opened Paths
  import opened Frames
  import opened Hashing
  import opened Amounts
  import opened Drive
  import opened Sweep
  import opened Config

  const Pending: string := "pending"
  const Processed: string := "processed"

  /** The two state folders of one account. */
  datatype Folders = Folders(pending: FolderId, processed: FolderId)

  // ---------------------------------------------------------------------
  // `process_and_enrich_dataframe`

  /** The cleaning after the mapped columns are selected and renamed: dates
      normalised, ',' turned into '.' in the amount text before numeric
      coercion, rows lacking a core value dropped, then the final columns,
      with the bank and account names as given. */
  function Finish(lib: Pandas, df: Frame, cfg: BankConfig, bank: string, account: string): Result<Frame> {
    match MapColumn(df, "fecha", c => lib.toDate(cfg.dateFormat, c))
    case Err(e) => Err(e)
    case Ok(f1) =>
      match MapColumn(f1, "importe", c => CommaToDotCell(lib, c))
      case Err(e) => Err(e)
      case Ok(f2) =>
        match DropNa(f2, Core)
        case Err(e) => Err(e)
        case Ok(f3) =>
          if IsEmpty(f3) then Ok(f3)
          else Ok(Normalized(f3, "transaction_id", (a, b, c) => RawId(lib, a, b, c),
                             "banco", bank, "tipo_cuenta", account))
  }

  /** `process_and_enrich_dataframe` on the downloaded bytes: the sheet is
      read with openpyxl; the mapping's keys are selected, then renamed to
      its values. Every failure raises: an unreadable file, a configuration
      without `column_mapping`, a missing key column. */
  function Transform(lib: Pandas, data: seq<bv8>, cfg: BankConfig, bank: string, account: string): Result<Frame> {
    match lib.readExcel(Bytes(data), Openpyxl, ReadOpts(cfg.skipRows, cfg.skipFooter, true))
    case None => Err(ValueError)
    case Some(raw) =>
      if cfg.mapping.None? then Err(KeyError)
      else
        var m := cfg.mapping.value;
        match Select(raw, Keys(m))
        case Err(e) => Err(e)
        case Ok(sel) => Finish(lib, Rename(sel, m), cfg, bank, account)
  }

  // ---------------------------------------------------------------------
  // The loop over the files of `pending`

  /** The object a file's rows are uploaded to: the name without its last
      extension, with ".csv". */
  function UploadPath(bank: string, account: string, name: string): string {
    bank + "/" + account + "/" + SplitExtRoot(name) + ".csv"
  }

  /** `move_file_in_drive(pending, processed)`, whose refusal raises. This
      variant keeps no counter; a step reports as counted the file it moved
      to `processed`, so that a run's count is the number of files moved. */
  function Advance(c: Cloud, fs: Folders, f: FileId, cur: Option<FolderId>, trace: seq<Event>): Outcome {
    var m := Move(c, f, cur, fs.pending, fs.processed);
    Outcome(m.parent, trace + [MoveCall(f, fs.pending, fs.processed, m.ok)], m.ok)
  }

  /** One iteration of the loop: the raw download (`get_media`), the
      transform, the upload of a non-empty result, and the move to
      `processed` whether or not the result was empty. A failure before the
      move leaves the file where it is. */
  function FileStep(c: Cloud, fs: Folders, f: FileId, path: string, transform: seq<bv8> -> Result<Frame>, cur: Option<FolderId>): Outcome {
    match c.media(f, false)
    case None => Outcome(cur, [Fetched(f, false)], false)
    case Some(bytes) =>
      var tr := [Fetched(f, true)];
      match transform(bytes)
      case Err(_) => Outcome(cur, tr, false)
      case Ok(df) =>
        if IsEmpty(df) then Advance(c, fs, f, cur, tr)
        else
          var up := c.uploadOk(path);
          var tr' := tr + [Upload(path, "text/csv", df, up)];
          if !up then Outcome(cur, tr', false)
          else Advance(c, fs, f, cur, tr')
  }

  /** `FileStep` as a step of the per-file loop, with the listed name
      giving the upload path. */
  function LeaseStep(c: Cloud, fs: Folders, pathOf: Item -> string, transform: seq<bv8> -> Result<Frame>): Step {
    (it: Item, cur: Option<FolderId>) => FileStep(c, fs, it.id, pathOf(it), transform, cur)
  }

  function StepOf(c: Cloud, lib: Pandas, cfg: BankConfig, bank: string, account: string, fs: Folders): Step {
    LeaseStep(c, fs, (it: Item) => UploadPath(bank, account, it.name),
              (data: seq<bv8>) => Transform(lib, data, cfg, bank, account))
  }

  /** One configured account: the first sub-folders named `pending` and
      `processed` (folders in the bin included) are the state folders; an
      account lacking either is skipped. A failed listing raises. */
  function SweepAccount(c: Cloud, t: Tree, account: Item, stepFor: Folders -> Step): Result<Run> {
    match c.list(Query(account.id, true, false))
    case None => Err(HttpError)
    case Some(subs) =>
      var p, d := FirstNamed(subs, Pending), FirstNamed(subs, Processed);
      if p.None? || d.None? then Ok(Run(t, [], 0))
      else
        match c.list(Query(p.value.id, false, true))
        case None => Err(HttpError)
        case Some(files) => Ok(Loop(t, files, stepFor(Folders(p.value.id, d.value.id))))
  }

  function ProcessAccount(c: Cloud, lib: Pandas, t: Tree, bank: string, account: Item, cfg: BankConfig): Result<Run> {
    SweepAccount(c, t, account, fs => StepOf(c, lib, cfg, bank, account.name, fs))
  }

  // ---------------------------------------------------------------------
  // `ingest_bank_statements`

  /** The parents, the events, the files moved so far, and whether an
      exception escaped the handler. */
  datatype Walk = Walk(tree: Tree, trace: seq<Event>, moved: nat, raised: bool)

  type Process = (Tree, string, Item, BankConfig) -> Result<Run>

  /** The loop over one bank's account folders: an account without a
      configuration is skipped; a failed listing inside an account is not
      caught and ends the handler. */
  function Accounts(c: Cloud, cs: Configs, bank: string, accounts: seq<Item>, w: Walk, process: Process): Walk
    decreases |accounts|
  {
    if accounts == [] then w
    else
      match Lookup(cs, bank, accounts[0].name)
      case Err(_) => Accounts(c, cs, bank, accounts[1..], w, process)
      case Ok(cfg) =>
        match process(w.tree, bank, accounts[0], cfg)
        case Err(_) => w.(raised := true)
        case Ok(r) => Accounts(c, cs, bank, accounts[1..], Walk(r.tree, w.trace + r.trace, w.moved + r.count, false), process)
  }

  function Banks(c: Cloud, cs: Configs, banks: seq<Item>, w: Walk, process: Process): Walk
    decreases |banks|
  {
    if banks == [] then w
    else
      match c.list(Query(banks[0].id, true, false))
      case None => w.(raised := true)
      case Some(accounts) =>
        var w' := Accounts(c, cs, banks[0].name, accounts, w, process);
        if w'.raised then w' else Banks(c, cs, banks[1..], w', process)
  }

  /** What the handler leaves behind: the answer it returns, or none when
      an exception escaped it. */
  datatype Reply =
    | Answered(tree: Tree, trace: seq<Event>, message: string, code: int)
    | Escaped(tree: Tree, trace: seq<Event>)

  /** `ingest_bank_statements` with the account processing `process`.
      `configs` is `None` when reading the configuration or the credentials
      raised. */
  function EntryWith(c: Cloud, t: Tree, root: FolderId, configs: Option<Configs>, process: Process): Reply {
    if configs.None? then Answered(t, [], "Error de configuración", 500)
    else
      match c.list(Query(root, true, false))
      case None => Escaped(t, [])
      case Some(banks) =>
        var w := Banks(c, configs.value, banks, Walk(t, [], 0, false), process);
        if w.raised then Escaped(w.tree, w.trace) else Answered(w.tree, w.trace, "Proceso completado.", 200)
  }

  function Entry(c: Cloud, lib: Pandas, t: Tree, root: FolderId, configs: Option<Configs>): Reply {
    EntryWith(c, t, root, configs, (t, b, a, cfg) => ProcessAccount(c, lib, t, b, a, cfg))
  }

  // ---------------------------------------------------------------------
  // Properties of the transform

  /** Every failure of the transform raises: an unreadable file, a
      configuration without `column_mapping`, a mapping key that is not a
      column, and mapped names lacking fecha or importe. */
  lemma TransformFailures(lib: Pandas, data: seq<bv8>, cfg: BankConfig, bank: string, account: string)
    ensures var read := lib.readExcel(Bytes(data), Openpyxl, ReadOpts(cfg.skipRows, cfg.skipFooter, true));
      && (read.None? ==> Transform(lib, data, cfg, bank, account).Err?)
      && (read.Some? && cfg.mapping.None? ==> Transform(lib, data, cfg, bank, account) == Err(KeyError))
      && (read.Some? && cfg.mapping.Some? && !HasAll(read.value, Keys(cfg.mapping.value)) ==>
            Transform(lib, data, cfg, bank, account) == Err(KeyError))
  {
  }

  /** A non-empty result has the columns transaction_id, fecha, concepto,
      importe, banco, tipo_cuenta; in every row the id is the hash of the
      row's own fecha, concepto and importe as text, none of these three is
      missing, and banco and tipo_cuenta are the names as given. */
  lemma {:induction false} FinishShape(lib: Pandas, df: Frame, cfg: BankConfig, bank: string, account: string, i: nat)
    requires Finish(lib, df, cfg, bank, account).Ok?
    requires !IsEmpty(Finish(lib, df, cfg, bank, account).value)
    requires i < |Finish(lib, df, cfg, bank, account).value.rows|
    ensures var r := Finish(lib, df, cfg, bank, account).value;
      && r.columns == ["transaction_id", "fecha", "concepto", "importe", "banco", "tipo_cuenta"]
      && |r.rows[i]| == 6 && r.rows[i][1] != Null && r.rows[i][2] != Null && r.rows[i][3] != Null
      && r.rows[i][0] == Str(lib.sha256(Show(lib, r.rows[i][1]) + "-" + Show(lib, r.rows[i][2]) + "-" + Show(lib, r.rows[i][3])))
      && r.rows[i][4] == Str(bank) && r.rows[i][5] == Str(account)
  {
    var f1 := MapColumn(df, "fecha", c => lib.toDate(cfg.dateFormat, c)).value;
    var f2 := MapColumn(f1, "importe", c => CommaToDotCell(lib, c)).value;
    var f3 := DropNa(f2, Core).value;
    assert Finish(lib, df, cfg, bank, account)
        == Ok(Normalized(f3, "transaction_id", (a, b, c) => RawId(lib, a, b, c), "banco", bank, "tipo_cuenta", account));
    NormalizedAfterDropNa(f2, "transaction_id", (a, b, c) => RawId(lib, a, b, c), "banco", bank, "tipo_cuenta", account, i);
  }

  lemma {:induction false} TransformShape(lib: Pandas, data: seq<bv8>, cfg: BankConfig, bank: string, account: string, i: nat)
    requires Transform(lib, data, cfg, bank, account).Ok?
    requires !IsEmpty(Transform(lib, data, cfg, bank, account).value)
    requires i < |Transform(lib, data, cfg, bank, account).value.rows|
    ensures var r := Transform(lib, data, cfg, bank, account).value;
      && r.columns == ["transaction_id", "fecha", "concepto", "importe", "banco", "tipo_cuenta"]
      && |r.rows[i]| == 6 && r.rows[i][1] != Null && r.rows[i][2] != Null && r.rows[i][3] != Null
      && r.rows[i][0] == Str(lib.sha256(Show(lib, r.rows[i][1]) + "-" + Show(lib, r.rows[i][2]) + "-" + Show(lib, r.rows[i][3])))
      && r.rows[i][4] == Str(bank) && r.rows[i][5] == Str(account)
  {
    var raw := lib.readExcel(Bytes(data), Openpyxl, ReadOpts(cfg.skipRows, cfg.skipFooter, true)).value;
    var m := cfg.mapping.value;
    var sel := Select(raw, Keys(m)).value;
    FinishShape(lib, Rename(sel, m), cfg, bank, account, i);
  }

  /** The object is named after the listed file with its last extension
      replaced by ".csv", under bank/account: that extension is all the
      name loses, and it is empty or a single dot-led extension of the
      final component. "extracto.xlsx" in bank B, account A goes to
      "B/A/extracto.csv". */
  lemma {:induction false} UploadPathShape(bank: string, account: string, name: string)
    ensures var e := SplitExtExt(name);
      && |e| <= |name| && name[..|name| - |e|] + e == name
      && UploadPath(bank, account, name) == bank + "/" + account + "/" + name[..|name| - |e|] + ".csv"
      && (e == [] || (e[0] == '.' && '.' !in e[1..] && '/' !in e))
    ensures UploadPath("B", "A", "extracto.xlsx") == "B/A/extracto.csv"
  {
    SplitExtRoundTrip(name);
    SplitExtExtShape(name);
    var e := SplitExtExt(name);
    assert SplitExtRoot(name) == name[..|name| - |e|];
    LastIndexOfAbsent("extracto.xlsx", '/');
    LastIndexOfIs("extracto.xlsx", '.', 8);
    assert "extracto.xlsx"[0] != '.';
    assert SplitExtRoot("extracto.xlsx") == "extracto";
  }

  // ---------------------------------------------------------------------
  // Properties of one file

  /** The iteration succeeds when the download and the transform succeed,
      the upload of a non-empty result is accepted, and Drive accepts the
      move to `processed`. */
  predicate Advances(c: Cloud, fs: Folders, f: FileId, path: string, tf: seq<bv8> -> Result<Frame>) {
    && c.media(f, false).Some?
    && tf(c.media(f, false).value).Ok?
    && (IsEmpty(tf(c.media(f, false).value).value) || c.uploadOk(path))
    && c.moveOk(f, fs.pending, fs.processed)
  }

  /** A file listed in `pending` ends in `processed` exactly when its
      iteration succeeds, and stays in `pending` otherwise; only a
      successful iteration requests a move. */
  lemma StepEndsInOneFolder(c: Cloud, fs: Folders, f: FileId, path: string, tf: seq<bv8> -> Result<Frame>)
    requires fs.pending != fs.processed
    ensures var o := FileStep(c, fs, f, path, tf, Some(fs.pending));
      && (o.parent == Some(fs.pending) || o.parent == Some(fs.processed))
      && (o.parent == Some(fs.processed) <==> Advances(c, fs, f, path, tf))
      && (o.counted <==> o.parent == Some(fs.processed))
  {
  }

  /** An exception in the download, the transform or the upload requests
      no move: the file stays where it was and the log ends before any
      move. */
  lemma StepFailureStays(c: Cloud, fs: Folders, f: FileId, path: string, tf: seq<bv8> -> Result<Frame>, cur: Option<FolderId>)
    requires c.media(f, false).None? || tf(c.media(f, false).value).Err?
          || (!IsEmpty(tf(c.media(f, false).value).value) && !c.uploadOk(path))
    ensures var o := FileStep(c, fs, f, path, tf, cur);
      && o.parent == cur && !o.counted
      && forall e :: e in o.trace ==> !e.MoveCall?
  {
  }

  /** An empty result is not uploaded, and the file still moves to
      `processed` when Drive accepts the move. */
  lemma StepEmptyAdvances(c: Cloud, fs: Folders, f: FileId, path: string, tf: seq<bv8> -> Result<Frame>)
    requires c.media(f, false).Some? && tf(c.media(f, false).value).Ok? && IsEmpty(tf(c.media(f, false).value).value)
    requires c.moveOk(f, fs.pending, fs.processed)
    ensures var o := FileStep(c, fs, f, path, tf, Some(fs.pending));
      && o.parent == Some(fs.processed)
      && o.trace == [Fetched(f, true), MoveCall(f, fs.pending, fs.processed, true)]
  {
  }

  /** Every upload carries the transform's non-empty result to the file's
      path as CSV, and comes before the move. */
  lemma StepUploadIsTransform(c: Cloud, fs: Folders, f: FileId, path: string, tf: seq<bv8> -> Result<Frame>, cur: Option<FolderId>, k: nat)
    requires k < |FileStep(c, fs, f, path, tf, cur).trace| && FileStep(c, fs, f, path, tf, cur).trace[k].Upload?
    ensures var e := FileStep(c, fs, f, path, tf, cur).trace[k];
      && c.media(f, false).Some? && tf(c.media(f, false).value) == Ok(e.rows)
      && !IsEmpty(e.rows) && e.path == path && e.contentType == "text/csv"
      && k == 1
  {
  }

  // ---------------------------------------------------------------------
  // Properties of one account

  predicate Listed(t: Tree, files: seq<Item>, fs: Folders) {
    && DistinctIds(files)
    && forall k :: 0 <= k < |files| ==> ParentOf(t, files[k].id) == Some(fs.pending)
  }

  /** One account's sweep: every listed file ends in `pending` or
      `processed`, and in `processed` exactly when its own iteration
      succeeds, whatever happened to the files before it; the count is the
      number of files in `processed`; no other file moves. */
  lemma {:induction false} SweepSettles(c: Cloud, fs: Folders, pathOf: Item -> string, tf: seq<bv8> -> Result<Frame>, t: Tree, files: seq<Item>)
    requires fs.pending != fs.processed && Listed(t, files, fs)
    ensures var r := Loop(t, files, LeaseStep(c, fs, pathOf, tf));
      && r.tree.Keys == t.Keys
      && (forall k :: 0 <= k < |files| ==>
            (ParentOf(r.tree, files[k].id) == Some(fs.pending) || ParentOf(r.tree, files[k].id) == Some(fs.processed)))
      && (forall k :: 0 <= k < |files| ==>
            (ParentOf(r.tree, files[k].id) == Some(fs.processed) <==> Advances(c, fs, files[k].id, pathOf(files[k]), tf)))
      && r.count == CountIn(r.tree, files, fs.processed)
      && forall g :: (forall k :: 0 <= k < |files| ==> files[k].id != g) ==> ParentOf(r.tree, g) == ParentOf(t, g)
  {
    var step := LeaseStep(c, fs, pathOf, tf);
    LoopIsBatch(t, files, step);
    var r := Batch(t, files, step);
    forall k | 0 <= k < |files|
      ensures ParentOf(r.tree, files[k].id) == Some(fs.pending) || ParentOf(r.tree, files[k].id) == Some(fs.processed)
      ensures ParentOf(r.tree, files[k].id) == Some(fs.processed) <==> Advances(c, fs, files[k].id, pathOf(files[k]), tf)
      ensures Own(t, files[k], step).counted <==> Lands(t, files[k], step) == Some(fs.processed)
    {
      var it := files[k];
      assert Own(t, it, step) == FileStep(c, fs, it.id, pathOf(it), tf, Some(fs.pending));
      StepEndsInOneFolder(c, fs, it.id, pathOf(it), tf);
      BatchAt(t, files, step, k);
    }
    BatchCount(t, files, step, fs.processed);
    forall g | forall k :: 0 <= k < |files| ==> files[k].id != g
      ensures ParentOf(r.tree, g) == ParentOf(t, g)
    {
      BatchFrame(t, files, step, g);
    }
    BatchFrame(t, files, step, "");
  }

  /** Nothing is listed or moved in an account lacking a sub-folder named
      `pending` or one named `processed`. */
  lemma SweepAccountSkips(c: Cloud, t: Tree, account: Item, stepFor: Folders -> Step)
    ensures c.list(Query(account.id, true, false)).None? ==> SweepAccount(c, t, account, stepFor).Err?
    ensures c.list(Query(account.id, true, false)).Some? ==>
      var subs := c.list(Query(account.id, true, false)).value;
      ((forall k :: 0 <= k < |subs| ==> subs[k].name != Pending) || (forall k :: 0 <= k < |subs| ==> subs[k].name != Processed)) ==>
        SweepAccount(c, t, account, stepFor) == Ok(Run(t, [], 0))
  {
  }

  // ---------------------------------------------------------------------
  // Properties of the handler

  /** A failed initialisation answers ("Error de configuración", 500)
      before any listing; otherwise the handler answers ("Proceso
      completado.", 200) unless an exception escaped it. */
  lemma EntryAnswer(c: Cloud, t: Tree, root: FolderId, configs: Option<Configs>, process: Process)
    ensures configs.None? ==> EntryWith(c, t, root, configs, process) == Answered(t, [], "Error de configuración", 500)
    ensures configs.Some? && EntryWith(c, t, root, configs, process).Answered? ==>
      EntryWith(c, t, root, configs, process).message == "Proceso completado." && EntryWith(c, t, root, configs, process).code == 200
  {
  }

  /** An account without a configuration is skipped. */
  lemma {:induction false} AccountsSkip(c: Cloud, cs: Configs, bank: string, a: Item, rest: seq<Item>, w: Walk, process: Process)
    requires !(bank in cs && a.name in cs[bank])
    ensures Accounts(c, cs, bank, [a] + rest, w, process) == Accounts(c, cs, bank, rest, w, process)
  {
    assert ([a] + rest)[1..] == rest;
  }

  /** A configured account whose listing fails ends the handler with what
      the earlier accounts did. */
  lemma AccountsRaise(c: Cloud, cs: Configs, bank: string, a: Item, rest: seq<Item>, w: Walk, process: Process)
    requires bank in cs && a.name in cs[bank] && process(w.tree, bank, a, cs[bank][a.name]).Err?
    ensures Accounts(c, cs, bank, [a] + rest, w, process) == w.(raised := true)
  {
  }
}

=== FILE: intake_local.dfy ===
/**
 * The command-line runner in `ingestion/main.py`. It walks the bank and
 * account folders, and for each configured account moves every file of
 * `PENDING` to `in_progress`, downloads and transforms it, uploads the
 * non-empty result as JSON lines and moves the file to `PROCESSED`. Every
 * move goes through a helper that logs and swallows Drive's errors, so a
 * refused move never stops an iteration; an empty result or an exception
 * sends the file back to `PENDING`.
 */
module IntakeLocal {
  import opened Base
  import opened Text
  import opened Frames
  import opened Hashing
  import opened Amounts
  import opened Drive
  import opened Sweep
  import opened Config
  import IntakeV2

  type Folders = IntakeV2.Folders

  const Pending: string := "PENDING"
  const Processed: string := "PROCESSED"

  // ---------------------------------------------------------------------
  // `load_configs`

  /** `load_configs()`: the parsed JSON when the file exists and parses
      (`parsed` is `None` when reading or parsing raised), `{}` otherwise. */
  function LoadConfigs(present: bool, parsed: Option<Configs>): Configs {
    if present && parsed.Some? then parsed.value else map[]
  }

  // ---------------------------------------------------------------------
  // `transform_dataframe`

  /** The reader: CSV when the type contains "csv", Excel with the engine
      pandas infers otherwise. `None` when the reader raised. */
  function ReadAs(lib: Pandas, data: seq<bv8>, fileType: string, cfg: BankConfig): Option<Frame> {
    var opts := ReadOpts(cfg.skipRows, cfg.skipFooter, true);
    if Contains(fileType, "csv") then lib.readCsv(Bytes(data), opts)
    else lib.readExcel(Bytes(data), Inferred, opts)
  }

  /** The cleaning after the columns are selected: dates normalised, the
      amount text rewritten and parsed (a text that does not parse becomes a
      missing value), rows lacking a core value dropped, then the final
      columns. A missing fecha, importe or concepto column raises. */
  function Finish(lib: Pandas, df: Frame, cfg: BankConfig, bank: string, account: string): Result<Frame> {
    match MapColumn(df, "fecha", c => lib.toDate(cfg.dateFormat, c))
    case Err(e) => Err(e)
    case Ok(f1) =>
      match MapColumn(f1, "importe", c => UnifyCellLocal(lib, c))
      case Err(e) => Err(e)
      case Ok(f2) =>
        match DropNa(f2, Core)
        case Err(e) => Err(e)
        case Ok(f3) =>
          if IsEmpty(f3) then Ok(f3)
          else Ok(Normalized(f3, "hash_id", (a, b, c) => HashId(lib, a, b, c),
                             "entidad", Capitalize(bank), "origen", Capitalize(account)))
  }

  /** `transform_dataframe`: an unreadable file, a configuration without
      `column_mapping` and a file lacking a mapped column all give an empty
      frame. The rename uses only the mapping keys that are columns. */
  function Transform(lib: Pandas, data: seq<bv8>, fileType: string, cfg: BankConfig, bank: string, account: string): Result<Frame> {
    match ReadAs(lib, data, fileType, cfg)
    case None => Ok(NoFrame)
    case Some(raw) =>
      if cfg.mapping.None? then Ok(NoFrame)
      else
        var m := cfg.mapping.value;
        var df := Rename(raw, Restrict(m, raw.columns));
        match Select(df, Values(m))
        case Err(_) => Ok(NoFrame)
        case Ok(sel) => Finish(lib, sel, cfg, bank, account)
  }

  // ---------------------------------------------------------------------
  // `process_account_folder`

  /** `move_file_in_drive(progress, pending)`, as both the empty-result path
      and the `except` branch call it: one move request whose refusal is
      logged and swallowed. */
  function GiveBack(c: Cloud, fs: Folders, f: FileId, cur: Option<FolderId>, trace: seq<Event>): Outcome {
    var m := Move(c, f, cur, fs.progress, fs.pending);
    Outcome(m.parent, trace + [MoveCall(f, fs.progress, fs.pending, m.ok)], false)
  }

  /** The upload of a non-empty frame; once it is accepted the file counts,
      whatever Drive answers to the move to `PROCESSED`. A refused upload
      raises into the `except` branch. */
  function Deliver(c: Cloud, fs: Folders, f: FileId, path: string, df: Frame,
                   cur: Option<FolderId>, trace: seq<Event>): Outcome
  {
    var up := c.uploadOk(path);
    var tr := trace + [Upload(path, "application/jsonl", df, up)];
    if !up then GiveBack(c, fs, f, cur, tr)
    else
      var m := Move(c, f, cur, fs.progress, fs.processed);
      Outcome(m.parent, tr + [MoveCall(f, fs.progress, fs.processed, m.ok)], true)
  }

  /** An iteration after the lease request: download, transform, and either
      the delivery of a non-empty frame or the move back to `PENDING`. */
  function AfterLease(c: Cloud, fs: Folders, f: FileId, pathOf: Download -> string,
                      transform: Download -> Result<Frame>, cur: Option<FolderId>, trace: seq<Event>): Outcome
  {
    match FetchFile(c, f)
    case Err(_) => GiveBack(c, fs, f, cur, trace + [Fetched(f, false)])
    case Ok(d) =>
      var tr := trace + [Fetched(f, true)];
      match transform(d)
      case Err(_) => GiveBack(c, fs, f, cur, tr)
      case Ok(df) =>
        if IsEmpty(df) then GiveBack(c, fs, f, cur, tr)
        else Deliver(c, fs, f, pathOf(d), df, cur, tr)
  }

  /** One iteration of the loop over the files of `PENDING`: the lease
      request, whose refusal is swallowed, then the rest of the iteration
      whatever its answer. */
  function FileStep(c: Cloud, fs: Folders, f: FileId, pathOf: Download -> string,
                    transform: Download -> Result<Frame>, cur: Option<FolderId>): Outcome
  {
    var m := Move(c, f, cur, fs.pending, fs.progress);
    AfterLease(c, fs, f, pathOf, transform, m.parent, [MoveCall(f, fs.pending, fs.progress, m.ok)])
  }

  /** `FileStep` as a step of the per-file loop. */
  function LeaseStep(c: Cloud, fs: Folders, pathOf: Download -> string, transform: Download -> Result<Frame>): Step {
    (it: Item, cur: Option<FolderId>) => FileStep(c, fs, it.id, pathOf, transform, cur)
  }

  /** The loop body of one account: the downloaded file's name gives the
      upload path, and its effective type chooses the reader. */
  function StepOf(c: Cloud, lib: Pandas, cfg: BankConfig, bank: string, account: string, fs: Folders): Step {
    LeaseStep(c, fs, (d: Download) => IntakeV2.UploadPath(bank, account, d.name),
              (d: Download) => Transform(lib, d.data, d.fileType, cfg, bank, account))
  }

  /** `process_account_folder`: nothing happens unless `PENDING` and
      `PROCESSED` are known (the lease folder is created when missing); a
      failed sub-folder or file listing raises. */
  function SweepAccount(c: Cloud, t: Tree, account: Item, stepFor: Folders -> Step): Result<Run> {
    match SubfolderIds(c, account.id)
    case Err(e) => Err(e)
    case Ok(sub) =>
      var p, d := Present(sub.ids, Pending), Present(sub.ids, Processed);
      if p.None? || d.None? then Ok(Run(t, [], 0))
      else
        match c.list(Query(p.value, false, true))
        case None => Err(HttpError)
        case Some(files) => Ok(Loop(t, files, stepFor(IntakeV2.Folders(p.value, d.value, sub.ids[InProgress]))))
  }

  function ProcessAccount(c: Cloud, lib: Pandas, t: Tree, bank: string, account: Item, cfg: BankConfig): Result<Run> {
    SweepAccount(c, t, account, fs => StepOf(c, lib, cfg, bank, account.name, fs))
  }

  // ---------------------------------------------------------------------
  // The main block

  /** The loop over one bank's account folders: an account without a
      configuration is skipped; an account whose processing raises ends the
      whole walk, through the outer `try`. */
  function Accounts(c: Cloud, cs: Configs, bank: string, accounts: seq<Item>, w: IntakeV2.Walk, process: IntakeV2.Process): IntakeV2.Walk
    decreases |accounts|
  {
    if accounts == [] then w
    else
      match Lookup(cs, bank, accounts[0].name)
      case Err(_) => Accounts(c, cs, bank, accounts[1..], w, process)
      case Ok(cfg) =>
        match process(w.tree, bank, accounts[0], cfg)
        case Err(_) => w.(fatal := true)
        case Ok(r) => Accounts(c, cs, bank, accounts[1..], w.(tree := r.tree, trace := w.trace + r.trace, total := w.total + r.count), process)
  }

  /** The loop over bank folders; a failed account listing, like a failed
      account, ends the walk. */
  function Banks(c: Cloud, cs: Configs, banks: seq<Item>, w: IntakeV2.Walk, process: IntakeV2.Process): IntakeV2.Walk
    decreases |banks|
  {
    if banks == [] then w
    else
      match c.list(Query(banks[0].id, true, true))
      case None => w.(fatal := true)
      case Some(accounts) =>
        var w' := Accounts(c, cs, banks[0].name, accounts, w, process);
        if w'.fatal then w' else Banks(c, cs, banks[1..], w', process)
  }

  /** How a run of the script ends: `exit(1)` before any Drive call, an
      exception caught by the outer `try` (nothing more is done and no total
      is printed), or the end of the walk with the total printed. */
  datatype Ending =
    | Exited(code: int)
    | Crashed(tree: Tree, trace: seq<Event>)
    | Finished(tree: Tree, trace: seq<Event>, total: nat)

  /** The walk of the main block with the account processing `process`.
      `envSet` says whether the three environment variables are set and
      `credsOk` whether building the Drive client succeeded. */
  function MainWith(c: Cloud, t: Tree, envSet: bool, root: FolderId, configs: Configs, credsOk: bool, process: IntakeV2.Process): Ending {
    if !envSet || configs == map[] then Exited(1)
    else if !credsOk then Crashed(t, [])
    else
      match c.list(Query(root, true, true))
      case None => Crashed(t, [])
      case Some(banks) =>
        var w := Banks(c, configs, banks, IntakeV2.Walk(t, [], 0, false), process);
        if w.fatal then Crashed(w.tree, w.trace) else Finished(w.tree, w.trace, w.total)
  }

  /** The main block of `ingestion/main.py`. */
  function Main(c: Cloud, lib: Pandas, t: Tree, envSet: bool, root: FolderId, configs: Configs, credsOk: bool): Ending {
    MainWith(c, t, envSet, root, configs, credsOk, (t, b, a, cfg) => ProcessAccount(c, lib, t, b, a, cfg))
  }

  // ---------------------------------------------------------------------
  // Properties of the transform

  /** The reader is CSV exactly when the type contains "csv": for a ".csv"
      suffix, but not for an exported spreadsheet or an Excel suffix, which
      are read by the Excel reader with the engine left to pandas. */
  lemma {:induction false} ReadAsDispatch(lib: Pandas, data: seq<bv8>, cfg: BankConfig, stem: string)
    ensures var opts := ReadOpts(cfg.skipRows, cfg.skipFooter, true);
      && ReadAs(lib, data, stem + "csv", cfg) == lib.readCsv(Bytes(data), opts)
      && ReadAs(lib, data, "excel", cfg) == lib.readExcel(Bytes(data), Inferred, opts)
      && ReadAs(lib, data, ".xlsx", cfg) == lib.readExcel(Bytes(data), Inferred, opts)
      && ReadAs(lib, data, ".xls", cfg) == lib.readExcel(Bytes(data), Inferred, opts)
  {
    ContainsEnd(stem, "csv");
    assert !Contains("excel", "csv") by {
      ContainsAt("excel", "csv");
      forall i | 0 <= i && i + 3 <= 5 ensures At("excel", i, 3) != "csv" {
        assert At("excel", i, 3)[0] == "excel"[i] && At("excel", i, 3)[1] == "excel"[i + 1];
      }
    }
    assert !Contains(".xlsx", "csv") by {
      ContainsAt(".xlsx", "csv");
      forall i | 0 <= i && i + 3 <= 5 ensures At(".xlsx", i, 3) != "csv" {
        assert At(".xlsx", i, 3)[0] == ".xlsx"[i] && At(".xlsx", i, 3)[1] == ".xlsx"[i + 1];
      }
    }
    assert !Contains(".xls", "csv") by {
      ContainsAt(".xls", "csv");
      forall i | 0 <= i && i + 3 <= 4 ensures At(".xls", i, 3) != "csv" {
        assert At(".xls", i, 3)[0] == ".xls"[i] && At(".xls", i, 3)[1] == ".xls"[i + 1];
      }
    }
  }

  /** The transform's failure modes. An unreadable file, a configuration
      without `column_mapping` and a file lacking a mapped column give an
      empty frame; with all mapped columns present, a mapping whose values
      lack fecha or importe raises `KeyError`. */
  lemma {:induction false} TransformFailures(lib: Pandas, data: seq<bv8>, fileType: string, cfg: BankConfig, bank: string, account: string)
    ensures var read := ReadAs(lib, data, fileType, cfg);
      && (read.None? ==> Transform(lib, data, fileType, cfg, bank, account) == Ok(NoFrame))
      && (read.Some? && cfg.mapping.None? ==> Transform(lib, data, fileType, cfg, bank, account) == Ok(NoFrame))
      && (read.Some? && cfg.mapping.Some? && !HasAll(Rename(read.value, cfg.mapping.value), Values(cfg.mapping.value)) ==>
            Transform(lib, data, fileType, cfg, bank, account) == Ok(NoFrame))
      && ((read.Some? && cfg.mapping.Some? && HasAll(Rename(read.value, cfg.mapping.value), Values(cfg.mapping.value))
           && ("fecha" !in Values(cfg.mapping.value) || "importe" !in Values(cfg.mapping.value))) ==>
            Transform(lib, data, fileType, cfg, bank, account) == Err(KeyError))
  {
    var read := ReadAs(lib, data, fileType, cfg);
    if read.Some? && cfg.mapping.Some? {
      RestrictedRenameSame(read.value, cfg.mapping.value);
    }
  }

  /** A non-empty result has exactly the six output columns; in every row
      the id is the hash of that row's own fecha, concepto and importe,
      none of these three is missing, and entidad and origen are the
      capitalized bank and account names. */
  lemma {:induction false} FinishShape(lib: Pandas, df: Frame, cfg: BankConfig, bank: string, account: string, i: nat)
    requires Finish(lib, df, cfg, bank, account).Ok?
    requires !IsEmpty(Finish(lib, df, cfg, bank, account).value)
    requires i < |Finish(lib, df, cfg, bank, account).value.rows|
    ensures var r := Finish(lib, df, cfg, bank, account).value;
      && r.columns == ["hash_id", "fecha", "concepto", "importe", "entidad", "origen"]
      && |r.rows[i]| == 6 && r.rows[i][1] != Null && r.rows[i][2] != Null && r.rows[i][3] != Null
      && r.rows[i][0] == Str(HashId(lib, r.rows[i][1], r.rows[i][2], r.rows[i][3]))
      && r.rows[i][4] == Str(Capitalize(bank)) && r.rows[i][5] == Str(Capitalize(account))
  {
    var f1 := MapColumn(df, "fecha", c => lib.toDate(cfg.dateFormat, c)).value;
    var f2 := MapColumn(f1, "importe", c => UnifyCellLocal(lib, c)).value;
    var f3 := DropNa(f2, Core).value;
    assert Finish(lib, df, cfg, bank, account)
        == Ok(Normalized(f3, "hash_id", (a, b, c) => HashId(lib, a, b, c), "entidad", Capitalize(bank), "origen", Capitalize(account)));
    NormalizedAfterDropNa(f2, "hash_id", (a, b, c) => HashId(lib, a, b, c), "entidad", Capitalize(bank), "origen", Capitalize(account), i);
  }

  lemma {:induction false} TransformShape(lib: Pandas, data: seq<bv8>, fileType: string, cfg: BankConfig, bank: string, account: string, i: nat)
    requires Transform(lib, data, fileType, cfg, bank, account).Ok?
    requires !IsEmpty(Transform(lib, data, fileType, cfg, bank, account).value)
    requires i < |Transform(lib, data, fileType, cfg, bank, account).value.rows|
    ensures var r := Transform(lib, data, fileType, cfg, bank, account).value;
      && r.columns == ["hash_id", "fecha", "concepto", "importe", "entidad", "origen"]
      && |r.rows[i]| == 6 && r.rows[i][1] != Null && r.rows[i][2] != Null && r.rows[i][3] != Null
      && r.rows[i][0] == Str(HashId(lib, r.rows[i][1], r.rows[i][2], r.rows[i][3]))
      && r.rows[i][4] == Str(Capitalize(bank)) && r.rows[i][5] == Str(Capitalize(account))
  {
    var raw := ReadAs(lib, data, fileType, cfg).value;
    var m := cfg.mapping.value;
    var sel := Select(Rename(raw, Restrict(m, raw.columns)), Values(m)).value;
    FinishShape(lib, sel, cfg, bank, account, i);
  }

  // ---------------------------------------------------------------------
  // Properties of one file

  /** A move back to `PENDING` requests one move, never counts, and leaves
      the file in `PENDING` when accepted and where it was otherwise. */
  lemma {:induction false} GiveBackFacts(c: Cloud, fs: Folders, f: FileId, cur: Option<FolderId>, trace: seq<Event>)
    ensures var o := GiveBack(c, fs, f, cur, trace);
      var m := Move(c, f, cur, fs.progress, fs.pending);
      && !o.counted
      && o.parent in {cur, Some(fs.pending)}
      && o.trace == trace + [MoveCall(f, fs.progress, fs.pending, m.ok)]
      && UploadsDone(o.trace) == UploadsDone(trace)
  {
    var m := Move(c, f, cur, fs.progress, fs.pending);
    var tr := trace + [MoveCall(f, fs.progress, fs.pending, m.ok)];
    assert tr[..|tr| - 1] == trace;
  }

  /** The file is counted exactly when its upload was accepted, and the log
      then holds that one accepted upload more. */
  lemma {:induction false} DeliverCounts(c: Cloud, fs: Folders, f: FileId, path: string, df: Frame, cur: Option<FolderId>, trace: seq<Event>)
    ensures var o := Deliver(c, fs, f, path, df, cur, trace);
      && (o.counted <==> c.uploadOk(path))
      && UploadsDone(o.trace) == UploadsDone(trace) + (if o.counted then 1 else 0)
  {
    var up := c.uploadOk(path);
    var tr := trace + [Upload(path, "application/jsonl", df, up)];
    assert tr[..|tr| - 1] == trace;
    if !up {
      GiveBackFacts(c, fs, f, cur, tr);
    } else {
      var m := Move(c, f, cur, fs.progress, fs.processed);
      var tr' := tr + [MoveCall(f, fs.progress, fs.processed, m.ok)];
      assert tr'[..|tr'| - 1] == tr;
    }
  }

  /** The file of an iteration is counted exactly when it downloads, the
      transform makes a non-empty frame of it and the upload is accepted. */
  predicate Delivered(c: Cloud, f: FileId, pathOf: Download -> string, tf: Download -> Result<Frame>) {
    && FetchFile(c, f).Ok?
    && tf(FetchFile(c, f).value).Ok?
    && !IsEmpty(tf(FetchFile(c, f).value).value)
    && c.uploadOk(pathOf(FetchFile(c, f).value))
  }

  lemma {:induction false} AfterLeaseCounts(c: Cloud, fs: Folders, f: FileId, pathOf: Download -> string, tf: Download -> Result<Frame>,
                         cur: Option<FolderId>, trace: seq<Event>)
    ensures var o := AfterLease(c, fs, f, pathOf, tf, cur, trace);
      && (o.counted <==> Delivered(c, f, pathOf, tf))
      && UploadsDone(o.trace) == UploadsDone(trace) + (if o.counted then 1 else 0)
  {
    match FetchFile(c, f)
    case Err(_) =>
      var tr := trace + [Fetched(f, false)];
      assert tr[..|tr| - 1] == trace;
      GiveBackFacts(c, fs, f, cur, tr);
    case Ok(d) =>
      var tr := trace + [Fetched(f, true)];
      assert tr[..|tr| - 1] == trace;
      match tf(d)
      case Err(_) =>
        GiveBackFacts(c, fs, f, cur, tr);
      case Ok(df) =>
        if IsEmpty(df) {
          GiveBackFacts(c, fs, f, cur, tr);
        } else {
          DeliverCounts(c, fs, f, pathOf(d), df, cur, tr);
        }
  }

  /** What the counter counts: an iteration counts its file exactly when
      the file downloads, transforms to a non-empty frame and its upload is
      accepted, whatever Drive answers to the moves; its log then holds one
      accepted upload, and none otherwise. */
  lemma {:induction false} StepCounts(c: Cloud, fs: Folders, f: FileId, pathOf: Download -> string, tf: Download -> Result<Frame>, cur: Option<FolderId>)
    ensures var o := FileStep(c, fs, f, pathOf, tf, cur);
      && (o.counted <==> Delivered(c, f, pathOf, tf))
      && UploadsDone(o.trace) == (if o.counted then 1 else 0)
  {
    var m := Move(c, f, cur, fs.pending, fs.progress);
    var tr := [MoveCall(f, fs.pending, fs.progress, m.ok)];
    assert tr[..|tr| - 1] == [];
    AfterLeaseCounts(c, fs, f, pathOf, tf, m.parent, tr);
  }

  /** Where an iteration may leave a file taken from `PENDING`: in one of
      the three folders, in `PROCESSED` only when counted; and no iteration
      logs an unrecoverable failure, since every move error is swallowed. */
  predicate Placed(fs: Folders, f: FileId, o: Outcome) {
    && (o.parent == Some(fs.pending) || o.parent == Some(fs.progress) || o.parent == Some(fs.processed))
    && (o.parent == Some(fs.processed) ==> o.counted)
    && Critical(f) !in o.trace
  }

  lemma {:induction false} GiveBackPlaced(c: Cloud, fs: Folders, f: FileId, cur: Option<FolderId>, trace: seq<Event>)
    requires IntakeV2.DistinctFolders(fs)
    requires cur == Some(fs.pending) || cur == Some(fs.progress)
    requires Critical(f) !in trace
    ensures Placed(fs, f, GiveBack(c, fs, f, cur, trace))
  {
    GiveBackFacts(c, fs, f, cur, trace);
  }

  lemma {:induction false} AfterLeasePlaced(c: Cloud, fs: Folders, f: FileId, pathOf: Download -> string, tf: Download -> Result<Frame>,
                         cur: Option<FolderId>, trace: seq<Event>)
    requires IntakeV2.DistinctFolders(fs)
    requires cur == Some(fs.pending) || cur == Some(fs.progress)
    requires Critical(f) !in trace
    ensures Placed(fs, f, AfterLease(c, fs, f, pathOf, tf, cur, trace))
  {
    match FetchFile(c, f)
    case Err(_) =>
      GiveBackPlaced(c, fs, f, cur, trace + [Fetched(f, false)]);
    case Ok(d) =>
      var tr := trace + [Fetched(f, true)];
      match tf(d)
      case Err(_) =>
        GiveBackPlaced(c, fs, f, cur, tr);
      case Ok(df) =>
        if IsEmpty(df) {
          GiveBackPlaced(c, fs, f, cur, tr);
        } else {
          var path := pathOf(d);
          var up := c.uploadOk(path);
          var tr2 := tr + [Upload(path, "application/jsonl", df, up)];
          if !up {
            GiveBackPlaced(c, fs, f, cur, tr2);
          } else {
            var m := Move(c, f, cur, fs.progress, fs.processed);
            assert AfterLease(c, fs, f, pathOf, tf, cur, trace)
                == Outcome(m.parent, tr2 + [MoveCall(f, fs.progress, fs.processed, m.ok)], true);
          }
        }
  }

  /** Where a file listed in `PENDING` ends: see `Placed`. */
  lemma {:induction false} StepPlaced(c: Cloud, fs: Folders, f: FileId, pathOf: Download -> string, tf: Download -> Result<Frame>)
    requires IntakeV2.DistinctFolders(fs)
    ensures Placed(fs, f, FileStep(c, fs, f, pathOf, tf, Some(fs.pending)))
  {
    var m := Move(c, f, Some(fs.pending), fs.pending, fs.progress);
    AfterLeasePlaced(c, fs, f, pathOf, tf, m.parent, [MoveCall(f, fs.pending, fs.progress, m.ok)]);
  }

  /** The lease does not lock: when Drive refuses the move to `in_progress`
      the file is still downloaded, uploaded and counted, and it stays in
      `PENDING`, where the next run finds it again. */
  lemma {:induction false} StepWithoutLease(c: Cloud, fs: Folders, f: FileId, pathOf: Download -> string, tf: Download -> Result<Frame>)
    requires IntakeV2.DistinctFolders(fs)
    requires !c.moveOk(f, fs.pending, fs.progress)
    requires Delivered(c, f, pathOf, tf)
    ensures var o := FileStep(c, fs, f, pathOf, tf, Some(fs.pending));
      && o.counted
      && o.parent == Some(fs.pending)
      && o.trace[0] == MoveCall(f, fs.pending, fs.progress, false)
  {
    var d := FetchFile(c, f).value;
    var tr1 := [MoveCall(f, fs.pending, fs.progress, false)];
    var tr2 := tr1 + [Fetched(f, true)];
    assert Move(c, f, Some(fs.pending), fs.pending, fs.progress) == Moved(false, Some(fs.pending));
    assert FileStep(c, fs, f, pathOf, tf, Some(fs.pending)) == AfterLease(c, fs, f, pathOf, tf, Some(fs.pending), tr1);
    assert AfterLease(c, fs, f, pathOf, tf, Some(fs.pending), tr1) == Deliver(c, fs, f, pathOf(d), tf(d).value, Some(fs.pending), tr2);
    assert Move(c, f, Some(fs.pending), fs.progress, fs.processed) == Moved(false, Some(fs.pending));
  }

  /** A counted file may stay in `in_progress`: when Drive refuses the move
      to `PROCESSED` after an accepted upload, the file is counted but not
      moved. */
  lemma {:induction false} StepCountedInProgress(c: Cloud, fs: Folders, f: FileId, pathOf: Download -> string, tf: Download -> Result<Frame>)
    requires IntakeV2.DistinctFolders(fs)
    requires c.moveOk(f, fs.pending, fs.progress) && !c.moveOk(f, fs.progress, fs.processed)
    requires Delivered(c, f, pathOf, tf)
    ensures var o := FileStep(c, fs, f, pathOf, tf, Some(fs.pending));
      o.counted && o.parent == Some(fs.progress)
  {
    var d := FetchFile(c, f).value;
    var tr1 := [MoveCall(f, fs.pending, fs.progress, true)];
    var tr2 := tr1 + [Fetched(f, true)];
    assert Move(c, f, Some(fs.pending), fs.pending, fs.progress) == Moved(true, Some(fs.progress));
    assert FileStep(c, fs, f, pathOf, tf, Some(fs.pending)) == AfterLease(c, fs, f, pathOf, tf, Some(fs.progress), tr1);
    assert AfterLease(c, fs, f, pathOf, tf, Some(fs.progress), tr1) == Deliver(c, fs, f, pathOf(d), tf(d).value, Some(fs.progress), tr2);
    assert Move(c, f, Some(fs.progress), fs.progress, fs.processed) == Moved(false, Some(fs.progress));
  }

  /** A file whose transform gives an empty frame goes back to `PENDING`
      (when Drive accepts both moves) without any upload. */
  lemma {:induction false} StepEmptyGoesBack(c: Cloud, fs: Folders, f: FileId, pathOf: Download -> string, tf: Download -> Result<Frame>)
    requires c.moveOk(f, fs.pending, fs.progress) && c.moveOk(f, fs.progress, fs.pending)
    requires FetchFile(c, f).Ok? && tf(FetchFile(c, f).value).Ok? && IsEmpty(tf(FetchFile(c, f).value).value)
    ensures var o := FileStep(c, fs, f, pathOf, tf, Some(fs.pending));
      && !o.counted && o.parent == Some(fs.pending) && |o.trace| == 3
      && o.trace[0] == MoveCall(f, fs.pending, fs.progress, true)
      && o.trace[1] == Fetched(f, true)
      && o.trace[2] == MoveCall(f, fs.progress, fs.pending, true)
  {
    var tr1 := [MoveCall(f, fs.pending, fs.progress, true)];
    FileStepLeased(c, fs, f, pathOf, tf);
    AfterLeaseEmpty(c, fs, f, pathOf, tf, Some(fs.progress), tr1);
  }

  lemma {:induction false} FileStepLeased(c: Cloud, fs: Folders, f: FileId, pathOf: Download -> string, tf: Download -> Result<Frame>)
    requires c.moveOk(f, fs.pending, fs.progress)
    ensures FileStep(c, fs, f, pathOf, tf, Some(fs.pending))
         == AfterLease(c, fs, f, pathOf, tf, Some(fs.progress), [MoveCall(f, fs.pending, fs.progress, true)])
  {
    assert Move(c, f, Some(fs.pending), fs.pending, fs.progress) == Moved(true, Some(fs.progress));
  }

  lemma {:induction false} AfterLeaseEmpty(c: Cloud, fs: Folders, f: FileId, pathOf: Download -> string, tf: Download -> Result<Frame>,
                        cur: Option<FolderId>, trace: seq<Event>)
    requires cur == Some(fs.progress) && c.moveOk(f, fs.progress, fs.pending)
    requires FetchFile(c, f).Ok? && tf(FetchFile(c, f).value).Ok? && IsEmpty(tf(FetchFile(c, f).value).value)
    ensures AfterLease(c, fs, f, pathOf, tf, cur, trace)
         == Outcome(Some(fs.pending), trace + [Fetched(f, true), MoveCall(f, fs.progress, fs.pending, true)], false)
  {
    var tr := trace + [Fetched(f, true)];
    AfterLeaseGivesBack(c, fs, f, pathOf, tf, cur, trace);
    var m := Move(c, f, cur, fs.progress, fs.pending);
    assert m == Moved(true, Some(fs.pending));
    assert GiveBack(c, fs, f, cur, tr) == Outcome(Some(fs.pending), tr + [MoveCall(f, fs.progress, fs.pending, true)], false);
    AppendTwo(trace, Fetched(f, true), MoveCall(f, fs.progress, fs.pending, true));
  }

  lemma {:induction false} AppendTwo(trace: seq<Event>, a: Event, b: Event)
    ensures trace + [a] + [b] == trace + [a, b]
  {
    assert [a] + [b] == [a, b];
  }

  lemma AfterLeaseGivesBack(c: Cloud, fs: Folders, f: FileId, pathOf: Download -> string, tf: Download -> Result<Frame>,
                            cur: Option<FolderId>, trace: seq<Event>)
    requires FetchFile(c, f).Ok? && tf(FetchFile(c, f).value).Ok? && IsEmpty(tf(FetchFile(c, f).value).value)
    ensures AfterLease(c, fs, f, pathOf, tf, cur, trace) == GiveBack(c, fs, f, cur, trace + [Fetched(f, true)])
  {
  }

  // ---------------------------------------------------------------------
  // Properties of one account

  lemma {:induction false} LandsPlaced(c: Cloud, fs: Folders, pathOf: Download -> string, tf: Download -> Result<Frame>, t: Tree, it: Item)
    requires IntakeV2.DistinctFolders(fs) && ParentOf(t, it.id) == Some(fs.pending)
    ensures var step := LeaseStep(c, fs, pathOf, tf);
      var o := Own(t, it, step);
      && Placed(fs, it.id, o)
      && Lands(t, it, step) == o.parent
  {
    assert Own(t, it, LeaseStep(c, fs, pathOf, tf)) == FileStep(c, fs, it.id, pathOf, tf, Some(fs.pending));
    StepPlaced(c, fs, it.id, pathOf, tf);
  }

  /** One account's sweep: every listed file ends in `PENDING`,
      `in_progress` or `PROCESSED`; the counter is the number of accepted
      uploads, which is at least the number of files that end in
      `PROCESSED` and may exceed it; no other file moves. */
  lemma {:induction false} SweepPlaced(c: Cloud, fs: Folders, pathOf: Download -> string, tf: Download -> Result<Frame>, t: Tree, files: seq<Item>)
    requires IntakeV2.DistinctFolders(fs) && IntakeV2.Listed(t, files, fs)
    ensures var r := Loop(t, files, LeaseStep(c, fs, pathOf, tf));
      && r.tree.Keys == t.Keys
      && (forall k :: 0 <= k < |files| ==>
            ParentOf(r.tree, files[k].id) in {Some(fs.pending), Some(fs.progress), Some(fs.processed)})
      && r.count == UploadsDone(r.trace)
      && CountIn(r.tree, files, fs.processed) <= r.count
      && forall g :: (forall k :: 0 <= k < |files| ==> files[k].id != g) ==> ParentOf(r.tree, g) == ParentOf(t, g)
  {
    var step := LeaseStep(c, fs, pathOf, tf);
    forall it, cur
      ensures UploadsDone(step(it, cur).trace) == (if step(it, cur).counted then 1 else 0)
    {
      StepCounts(c, fs, it.id, pathOf, tf, cur);
    }
    LoopCountsUploads(t, files, step);
    LoopIsBatch(t, files, step);
    var r := Batch(t, files, step);
    forall k | 0 <= k < |files|
      ensures ParentOf(r.tree, files[k].id) in {Some(fs.pending), Some(fs.progress), Some(fs.processed)}
      ensures Lands(t, files[k], step) == Some(fs.processed) ==> Own(t, files[k], step).counted
    {
      LandsPlaced(c, fs, pathOf, tf, t, files[k]);
      BatchAt(t, files, step, k);
    }
    BatchCountAtLeast(t, files, step, fs.processed);
    forall g | forall k :: 0 <= k < |files| ==> files[k].id != g
      ensures ParentOf(r.tree, g) == ParentOf(t, g)
    {
      BatchFrame(t, files, step, g);
    }
    BatchFrame(t, files, step, "");
  }

  /** Nothing is listed or moved in an account that lacks `PENDING` or
      `PROCESSED` (an id that is missing or empty); a failed sub-folder
      listing or creation raises out of the account. A processed account's
      counter is the number of accepted uploads in its log. */
  lemma {:induction false} SweepAccountCounts(c: Cloud, lib: Pandas, t: Tree, bank: string, account: Item, cfg: BankConfig)
    ensures SubfolderIds(c, account.id).Err? ==> ProcessAccount(c, lib, t, bank, account, cfg).Err?
    ensures SubfolderIds(c, account.id).Ok? ==>
      var ids := SubfolderIds(c, account.id).value.ids;
      (Pending !in ids || ids[Pending] == "" || Processed !in ids || ids[Processed] == "") ==>
        ProcessAccount(c, lib, t, bank, account, cfg) == Ok(Run(t, [], 0))
    ensures ProcessAccount(c, lib, t, bank, account, cfg).Ok? ==>
      var r := ProcessAccount(c, lib, t, bank, account, cfg).value;
      r.count == UploadsDone(r.trace)
  {
    if SubfolderIds(c, account.id).Ok? {
      var sub := SubfolderIds(c, account.id).value;
      var p, d := Present(sub.ids, Pending), Present(sub.ids, Processed);
      if p.Some? && d.Some? {
        var fs := IntakeV2.Folders(p.value, d.value, sub.ids[InProgress]);
        if c.list(Query(p.value, false, true)).Some? {
          var files := c.list(Query(p.value, false, true)).value;
          var step := StepOf(c, lib, cfg, bank, account.name, fs);
          forall it, cur
            ensures UploadsDone(step(it, cur).trace) == (if step(it, cur).counted then 1 else 0)
          {
            StepCounts(c, fs, it.id, (d: Download) => IntakeV2.UploadPath(bank, account.name, d.name),
                       (d: Download) => Transform(lib, d.data, d.fileType, cfg, bank, account.name), cur);
          }
          LoopCountsUploads(t, files, step);
        }
      }
    }
  }

  // ---------------------------------------------------------------------
  // Properties of the main block

  /** A missing or unreadable configuration file loads as `{}`, and then,
      as with missing environment variables, the script exits with status 1
      before any Drive call. */
  lemma MainGate(c: Cloud, t: Tree, envSet: bool, root: FolderId, present: bool, parsed: Option<Configs>, credsOk: bool, process: IntakeV2.Process)
    ensures !present || parsed.None? ==> LoadConfigs(present, parsed) == map[]
    ensures present && parsed.Some? ==> LoadConfigs(present, parsed) == parsed.value
    ensures (!envSet || LoadConfigs(present, parsed) == map[]) ==>
      MainWith(c, t, envSet, root, LoadConfigs(present, parsed), credsOk, process) == Exited(1)
    ensures (envSet && LoadConfigs(present, parsed) != map[]) ==>
      !MainWith(c, t, envSet, root, LoadConfigs(present, parsed), credsOk, process).Exited?
  {
  }

  /** An account without a configuration is skipped. */
  lemma {:induction false} AccountsSkip(c: Cloud, cs: Configs, bank: string, a: Item, rest: seq<Item>, w: IntakeV2.Walk, process: IntakeV2.Process)
    requires !(bank in cs && a.name in cs[bank])
    ensures Accounts(c, cs, bank, [a] + rest, w, process) == Accounts(c, cs, bank, rest, w, process)
  {
    assert ([a] + rest)[1..] == rest;
  }

  /** A configured account whose processing raises ends the walk, keeping
      what the earlier accounts did: the accounts after it are never
      visited. */
  lemma AccountsCrash(c: Cloud, cs: Configs, bank: string, a: Item, rest: seq<Item>, w: IntakeV2.Walk, process: IntakeV2.Process)
    requires bank in cs && a.name in cs[bank]
    requires process(w.tree, bank, a, cs[bank][a.name]).Err?
    ensures Accounts(c, cs, bank, [a] + rest, w, process) == w.(fatal := true)
  {
  }

  /** The running total stays the number of accepted uploads in the log
      when every account's counter is. */
  predicate Tallied(w: IntakeV2.Walk) {
    w.total == UploadsDone(w.trace)
  }

  ghost predicate ProcessTallies(process: IntakeV2.Process) {
    forall t, b, a, cfg :: process(t, b, a, cfg).Ok? ==> process(t, b, a, cfg).value.count == UploadsDone(process(t, b, a, cfg).value.trace)
  }

  lemma {:induction false} AccountsTally(c: Cloud, cs: Configs, bank: string, accounts: seq<Item>, w: IntakeV2.Walk, process: IntakeV2.Process)
    requires Tallied(w) && ProcessTallies(process)
    ensures Tallied(Accounts(c, cs, bank, accounts, w, process))
    decreases |accounts|
  {
    if accounts != [] {
      match Lookup(cs, bank, accounts[0].name)
      case Err(_) =>
        AccountsTally(c, cs, bank, accounts[1..], w, process);
      case Ok(cfg) =>
        match process(w.tree, bank, accounts[0], cfg)
        case Err(_) =>
        case Ok(r) =>
          var w' := w.(tree := r.tree, trace := w.trace + r.trace, total := w.total + r.count);
          TalliedAfter(w, r);
          AccountsTally(c, cs, bank, accounts[1..], w', process);
          assert Accounts(c, cs, bank, accounts, w, process) == Accounts(c, cs, bank, accounts[1..], w', process);
    }
  }

  /** Adding one account's run to a tallied walk keeps it tallied. */
  lemma {:induction false} TalliedAfter(w: IntakeV2.Walk, r: Run)
    requires Tallied(w) && r.count == UploadsDone(r.trace)
    ensures Tallied(w.(tree := r.tree, trace := w.trace + r.trace, total := w.total + r.count))
  {
    UploadsDoneAppend(w.trace, r.trace);
  }

  lemma {:induction false} BanksTally(c: Cloud, cs: Configs, banks: seq<Item>, w: IntakeV2.Walk, process: IntakeV2.Process)
    requires Tallied(w) && ProcessTallies(process)
    ensures Tallied(Banks(c, cs, banks, w, process))
    decreases |banks|
  {
    if banks != [] {
      match c.list(Query(banks[0].id, true, true))
      case None =>
      case Some(accounts) =>
        AccountsTally(c, cs, banks[0].name, accounts, w, process);
        var w' := Accounts(c, cs, banks[0].name, accounts, w, process);
        if !w'.fatal {
          BanksTally(c, cs, banks[1..], w', process);
        }
    }
  }

  /** The total the script prints at the end is the number of accepted
      uploads of the run, not the number of files moved to `PROCESSED`; a
      run that stops on an exception prints no total. */
  lemma {:induction false} MainTotal(c: Cloud, lib: Pandas, t: Tree, envSet: bool, root: FolderId, configs: Configs, credsOk: bool)
    ensures var e := Main(c, lib, t, envSet, root, configs, credsOk);
      e.Finished? ==> e.total == UploadsDone(e.trace)
  {
    var process: IntakeV2.Process := (t, b, a, cfg) => ProcessAccount(c, lib, t, b, a, cfg);
    forall t', b, a, cfg | process(t', b, a, cfg).Ok?
      ensures process(t', b, a, cfg).value.count == UploadsDone(process(t', b, a, cfg).value.trace)
    {
      SweepAccountCounts(c, lib, t', b, a, cfg);
    }
    if envSet && configs != map[] && credsOk && c.list(Query(root, true, true)).Some? {
      BanksTally(c, configs, c.list(Query(root, true, true)).value, IntakeV2.Walk(t, [], 0, false), process);
    }
  }
}

=== FILE: intake_v1.dfy ===
/**
 * The earlier Pub/Sub intake in `ingestion_function/main.py`. Its loop over
 * the files of `pending` has the same lease, download, upload and rollback
 * structure as the later variant, but its transform dispatches on the
 * downloaded file's type, can keep only completed rows, and rewrites the
 * amount text before parsing it. The entry point also decides the dbt
 * arguments from the Pub/Sub message.
 *
 * Two statements of the file do not do what the surrounding code expects:
 * the transform is never called (a tuple stands where the call should be)
 * and the account processing is never called (a tuple is added to the
 * total). Both are modelled as written, next to the corrected versions.
 */
module IntakeV1 {
  import opened Base
  import opened Text
  import opened Paths
  import opened Frames
  import opened Hashing
  import opened Amounts
  import opened Drive
  import opened Sweep
  import opened Config
  import opened IntakeV2

  // ---------------------------------------------------------------------
  // `transform_dataframe`

  /** The reader for a download's type: the CSV reader for ".csv", the
      Excel reader for ".xls" (xlrd), ".xlsx" and "excel" (openpyxl), and
      `None` (an empty frame) for any other type or a reader that raises. */
  function ReadAs(lib: Pandas, data: seq<bv8>, fileType: string, cfg: BankConfig): Option<Frame> {
    var opts := ReadOpts(cfg.skipRows, cfg.skipFooter, true);
    if fileType == ".csv" then lib.readCsv(Bytes(data), opts)
    else if fileType == ".xls" || fileType == ".xlsx" || fileType == "excel" then
      lib.readExcel(Bytes(data), if fileType == ".xlsx" || fileType == "excel" then Openpyxl else Xlrd, opts)
    else None
  }

  /** `filter_completed`: with the option set and a "State" column, only
      the rows whose state is "COMPLETADO". */
  function KeepCompleted(df: Frame, cfg: BankConfig): Frame {
    if cfg.filterCompleted && "State" in df.columns then FilterEqual(df, "State", "COMPLETADO") else df
  }

  /** The cleaning after the columns are selected: dates normalised, the
      amount rewritten and parsed (a text that does not parse becomes a
      missing value), rows lacking a core value dropped, then the final
      columns. */
  function Finish(lib: Pandas, df: Frame, cfg: BankConfig, bank: string, account: string): Result<Frame> {
    match MapColumn(df, "fecha", c => lib.toDate(cfg.dateFormat, c))
    case Err(e) => Err(e)
    case Ok(f1) =>
      match MapColumn(f1, "importe", c => UnifyCell(lib, c))
      case Err(e) => Err(e)
      case Ok(f2) =>
        match DropNa(f2, Core)
        case Err(e) => Err(e)
        case Ok(f3) =>
          if IsEmpty(f3) then Ok(f3)
          else Ok(Normalized(f3, "hash_id", (a, b, c) => HashId(lib, a, b, c),
                             "entidad", Capitalize(bank), "origen", Capitalize(account)))
  }

  /** `transform_dataframe`: an unsupported type, an unreadable file and a
      file lacking a mapped column give an empty frame; a configuration
      without `column_mapping` raises `KeyError`. */
  function Transform(lib: Pandas, data: seq<bv8>, fileType: string, cfg: BankConfig, bank: string, account: string): Result<Frame> {
    match ReadAs(lib, data, fileType, cfg)
    case None => Ok(NoFrame)
    case Some(raw) =>
      var df := KeepCompleted(raw, cfg);
      if cfg.mapping.None? then Err(KeyError)
      else
        match Select(Rename(df, cfg.mapping.value), Values(cfg.mapping.value))
        case Err(_) => Ok(NoFrame)
        case Ok(sel) => Finish(lib, sel, cfg, bank, account)
  }

  // ---------------------------------------------------------------------
  // `process_account_folder`

  /** The object a file's rows go to: named after the downloaded file's own
      name, which the download returns. */
  function PathOf(bank: string, account: string): Download -> string {
    (d: Download) => UploadPath(bank, account, d.name)
  }

  /** The loop body as written: where the transform should be called, a
      tuple of its arguments is built, and `clean_df.empty` raises
      `AttributeError` on it, whatever was downloaded. */
  function StepAsWritten(c: Cloud, bank: string, account: string, fs: Folders): Step {
    LeaseStep(c, fs, (it: Item) => PathOf(bank, account), (it: Item) => (d: Download) => Err(AttributeError))
  }

  /** The loop body as evidently intended: the download is transformed
      according to its own type. */
  function StepOf(c: Cloud, lib: Pandas, cfg: BankConfig, bank: string, account: string, fs: Folders): Step {
    LeaseStep(c, fs, (it: Item) => PathOf(bank, account),
              (it: Item) => (d: Download) => Transform(lib, d.data, d.fileType, cfg, bank, account))
  }

  function ProcessAccountAsWritten(c: Cloud, t: Tree, bank: string, account: Item): Result<Run> {
    SweepAccount(c, t, account, fs => StepAsWritten(c, bank, account.name, fs))
  }

  function ProcessAccount(c: Cloud, lib: Pandas, t: Tree, bank: string, account: Item, cfg: BankConfig): Result<Run> {
    SweepAccount(c, t, account, fs => StepOf(c, lib, cfg, bank, account.name, fs))
  }

  // ---------------------------------------------------------------------
  // `ingest_bank_statements_pubsub`

  /** The dbt arguments: a full refresh exactly when the event data is an
      object whose "message" is an object with a "data" entry, that entry
      decodes (base64, UTF-8, JSON) to an object, and its "full_refresh" is
      the JSON value `true`. Any other shape, or a decoding failure, keeps
      the default. */
  function DbtArgs(data: Json, decode: Json -> Option<Json>): (r: seq<string>)
    ensures r == ["run"] || r == ["run", "--full-refresh"]
  {
    var message := Key(data, "message");
    if message.Err? || Key(message.value, "data").Err? then ["run"]
    else
      match decode(Key(message.value, "data").value)
      case Some(JObject(params)) =>
        if "full_refresh" in params && params["full_refresh"] == JBool(true) then ["run", "--full-refresh"] else ["run"]
      case _ => ["run"]
  }

  /** Whether the job runs, and with which arguments. */
  datatype Dbt = Skipped | Started(args: seq<string>)

  function DbtDecision(total: nat, args: seq<string>): Dbt {
    if total > 0 || "--full-refresh" in args then Started(args) else Skipped
  }

  /** What the entry point leaves behind and answers. */
  datatype Answer = Answer(tree: Tree, trace: seq<Event>, total: nat, dbt: Dbt, message: string, code: int)

  /** As written, adding a tuple to the total raises `TypeError`, which the
      account's `except Exception` catches, so no account is processed. */
  function ProcessAsWritten(): Process {
    (t: Tree, b: string, a: Item, cfg: BankConfig) => Err(TypeError)
  }

  /** The entry point with a given account processing. */
  function EntryWith(c: Cloud, t: Tree, root: FolderId, configs: Option<Configs>,
                     data: Json, decode: Json -> Option<Json>, process: Process): Answer
  {
    var args := DbtArgs(data, decode);
    var w := Walked(c, t, root, configs, process);
    Answer(w.tree, w.trace, w.total, DbtDecision(w.total, args), "Proceso completado.", 200)
  }

  function EntryAsWritten(c: Cloud, t: Tree, root: FolderId, configs: Option<Configs>,
                          data: Json, decode: Json -> Option<Json>): Answer
  {
    EntryWith(c, t, root, configs, data, decode, ProcessAsWritten())
  }

  function Entry(c: Cloud, lib: Pandas, t: Tree, root: FolderId, configs: Option<Configs>,
                 data: Json, decode: Json -> Option<Json>): Answer
  {
    EntryWith(c, t, root, configs, data, decode,
              (t: Tree, b: string, a: Item, cfg: BankConfig) => ProcessAccount(c, lib, t, b, a, cfg))
  }

  // ---------------------------------------------------------------------
  // The transform

  /** The reader dispatch: CSV exactly for ".csv"; Excel for the three
      spreadsheet types, with xlrd exactly for ".xls"; nothing read for any
      other type. */
  lemma ReadAsDispatch(lib: Pandas, data: seq<bv8>, fileType: string, cfg: BankConfig)
    ensures var opts := ReadOpts(cfg.skipRows, cfg.skipFooter, true);
      && (fileType == ".csv" ==> ReadAs(lib, data, fileType, cfg) == lib.readCsv(Bytes(data), opts))
      && (fileType == ".xls" ==> ReadAs(lib, data, fileType, cfg) == lib.readExcel(Bytes(data), Xlrd, opts))
      && (fileType == ".xlsx" || fileType == "excel" ==>
            ReadAs(lib, data, fileType, cfg) == lib.readExcel(Bytes(data), Openpyxl, opts))
      && (fileType !in {".csv", ".xls", ".xlsx", "excel"} ==> ReadAs(lib, data, fileType, cfg).None?)
  {
  }

  /** Every type a download can have is either one of the supported ones
      or gives an empty frame: a spreadsheet exported from Sheets is read
      with openpyxl, a ".xls" file with xlrd. */
  lemma {:induction false} DownloadTypeDispatch(lib: Pandas, data: seq<bv8>, m: Meta, cfg: BankConfig)
    ensures m.mimeType == SheetsMime ==>
      ReadAs(lib, data, EffectiveType(m), cfg) == lib.readExcel(Bytes(data), Openpyxl, ReadOpts(cfg.skipRows, cfg.skipFooter, true))
    ensures m.mimeType != SheetsMime && Lower(Suffix(m.name)) == ".xls" ==>
      ReadAs(lib, data, EffectiveType(m), cfg) == lib.readExcel(Bytes(data), Xlrd, ReadOpts(cfg.skipRows, cfg.skipFooter, true))
  {
    EffectiveTypeShape(m);
  }

  /** With the option set and a "State" column, the rows kept are exactly
      the completed ones; otherwise every row is kept. */
  lemma KeepCompletedRows(df: Frame, cfg: BankConfig, row: seq<Cell>)
    ensures KeepCompleted(df, cfg).columns == df.columns
    ensures cfg.filterCompleted && "State" in df.columns ==>
      (row in KeepCompleted(df, cfg).rows <==> row in df.rows && row[IndexOf(df.columns, "State")] == Str("COMPLETADO"))
    ensures !(cfg.filterCompleted && "State" in df.columns) ==> KeepCompleted(df, cfg) == df
  {
  }

  /** The completed-rows filter keeps order and repeated rows: two row
      blocks are filtered block by block, and a single row is kept exactly
      when the filter is off or its state is "COMPLETADO". Two identical
      completed charges both go on to the upload. */
  lemma {:induction false} KeepCompletedKeepsOrder(cols: seq<string>, a: seq<seq<Cell>>, b: seq<seq<Cell>>, cfg: BankConfig)
    requires forall row | row in a + b :: |row| == |cols|
    ensures forall row | row in a :: |row| == |cols|
    ensures forall row | row in b :: |row| == |cols|
    ensures KeepCompleted(Table(cols, a + b), cfg).rows
      == KeepCompleted(Table(cols, a), cfg).rows + KeepCompleted(Table(cols, b), cfg).rows
    ensures |a| == 1 ==>
      KeepCompleted(Table(cols, a), cfg).rows
      == if cfg.filterCompleted && "State" in cols && a[0][IndexOf(cols, "State")] != Str("COMPLETADO") then [] else a
  {
    assert forall row | row in a :: row in a + b;
    assert forall row | row in b :: row in a + b;
    if cfg.filterCompleted && "State" in cols {
      FilterEqualKeepsOrder(cols, a, b, "State", "COMPLETADO");
    }
  }

  /** The transform's failure modes: an unreadable or unsupported file
      gives an empty frame, a configuration without `column_mapping` raises
      `KeyError`, and a file lacking a mapped column gives an empty frame. */
  lemma TransformFailures(lib: Pandas, data: seq<bv8>, fileType: string, cfg: BankConfig, bank: string, account: string)
    ensures ReadAs(lib, data, fileType, cfg).None? ==> Transform(lib, data, fileType, cfg, bank, account) == Ok(NoFrame)
    ensures ReadAs(lib, data, fileType, cfg).Some? && cfg.mapping.None? ==>
      Transform(lib, data, fileType, cfg, bank, account) == Err(KeyError)
    ensures (ReadAs(lib, data, fileType, cfg).Some? && cfg.mapping.Some? &&
             !HasAll(Rename(KeepCompleted(ReadAs(lib, data, fileType, cfg).value, cfg), cfg.mapping.value), Values(cfg.mapping.value)))
      ==> Transform(lib, data, fileType, cfg, bank, account) == Ok(NoFrame)
  {
  }

  /** A non-empty result has exactly the six output columns; in every row
      the id is the hash of that row's own fecha, concepto and importe,
      none of these is missing, and entidad and origen are the capitalized
      bank and account names. */
  lemma {:induction false} FinishShape(lib: Pandas, df: Frame, cfg: BankConfig, bank: string, account: string, i: nat)
    requires Finish(lib, df, cfg, bank, account).Ok?
    requires !IsEmpty(Finish(lib, df, cfg, bank, account).value)
    requires i < |Finish(lib, df, cfg, bank, account).value.rows|
    ensures var r := Finish(lib, df, cfg, bank, account).value;
      && r.columns == ["hash_id", "fecha", "concepto", "importe", "entidad", "origen"]
      && |r.rows[i]| == 6 && r.rows[i][1] != Null && r.rows[i][2] != Null && r.rows[i][3] != Null
      && r.rows[i][0] == Str(HashId(lib, r.rows[i][1], r.rows[i][2], r.rows[i][3]))
      && r.rows[i][4] == Str(Capitalize(bank)) && r.rows[i][5] == Str(Capitalize(account))
  {
    var f1 := MapColumn(df, "fecha", c => lib.toDate(cfg.dateFormat, c)).value;
    var f2 := MapColumn(f1, "importe", c => UnifyCell(lib, c)).value;
    var f3 := DropNa(f2, Core).value;
    assert Finish(lib, df, cfg, bank, account)
        == Ok(Normalized(f3, "hash_id", (a, b, c) => HashId(lib, a, b, c), "entidad", Capitalize(bank), "origen", Capitalize(account)));
    NormalizedAfterDropNa(f2, "hash_id", (a, b, c) => HashId(lib, a, b, c), "entidad", Capitalize(bank), "origen", Capitalize(account), i);
  }

  lemma {:induction false} TransformShape(lib: Pandas, data: seq<bv8>, fileType: string, cfg: BankConfig, bank: string, account: string, i: nat)
    requires Transform(lib, data, fileType, cfg, bank, account).Ok?
    requires !IsEmpty(Transform(lib, data, fileType, cfg, bank, account).value)
    requires i < |Transform(lib, data, fileType, cfg, bank, account).value.rows|
    ensures var r := Transform(lib, data, fileType, cfg, bank, account).value;
      && r.columns == ["hash_id", "fecha", "concepto", "importe", "entidad", "origen"]
      && |r.rows[i]| == 6 && r.rows[i][1] != Null && r.rows[i][2] != Null && r.rows[i][3] != Null
      && r.rows[i][0] == Str(HashId(lib, r.rows[i][1], r.rows[i][2], r.rows[i][3]))
      && r.rows[i][4] == Str(Capitalize(bank)) && r.rows[i][5] == Str(Capitalize(account))
  {
    var df := KeepCompleted(ReadAs(lib, data, fileType, cfg).value, cfg);
    var m := cfg.mapping.value;
    var sel := Select(Rename(df, m), Values(m)).value;
    FinishShape(lib, sel, cfg, bank, account, i);
  }

  // ---------------------------------------------------------------------
  // The dbt decision

  /** A full refresh is requested exactly when the message has the expected
      shape, decodes to an object, and its "full_refresh" is `true`. */
  lemma DbtArgsFullRefresh(data: Json, decode: Json -> Option<Json>)
    ensures "--full-refresh" in DbtArgs(data, decode) <==>
      && Key(data, "message").Ok?
      && Key(Key(data, "message").value, "data").Ok?
      && decode(Key(Key(data, "message").value, "data").value).Some?
      && Key(decode(Key(Key(data, "message").value, "data").value).value, "full_refresh") == Ok(JBool(true))
  {
  }

  /** Only the JSON value `true` asks for a full refresh: a truthy number
      or text does not, and neither does a message that is not an object. */
  lemma DbtArgsOnlyTrue(b64: Json, decode: Json -> Option<Json>, v: Json)
    requires decode(b64) == Some(JObject(map["full_refresh" := v]))
    ensures v == JBool(true) ==>
      DbtArgs(JObject(map["message" := JObject(map["data" := b64])]), decode) == ["run", "--full-refresh"]
    ensures v != JBool(true) ==>
      DbtArgs(JObject(map["message" := JObject(map["data" := b64])]), decode) == ["run"]
    ensures DbtArgs(JObject(map["message" := JString("data")]), decode) == ["run"]
  {
  }

  /** The job runs when some file was processed or a full refresh was
      asked for, and is given the decided arguments. */
  lemma DbtDecisionIff(total: nat, data: Json, decode: Json -> Option<Json>)
    ensures var args := DbtArgs(data, decode);
      && (DbtDecision(total, args).Started? <==> total > 0 || args == ["run", "--full-refresh"])
      && (DbtDecision(total, args).Started? ==> DbtDecision(total, args).args == args)
  {
  }

  // ---------------------------------------------------------------------
  // As written: nothing is ever processed

  /** As written, no iteration uploads anything or counts its file: the
      leased file always takes the rollback path, and ends in `pending`, or
      in `in_progress` when the rollback is refused. */
  lemma {:induction false} StepAsWrittenNeverDelivers(c: Cloud, bank: string, account: string, fs: Folders, it: Item, e: Event)
    requires DistinctFolders(fs)
    ensures var o := StepAsWritten(c, bank, account, fs)(it, Some(fs.pending));
      && !o.counted
      && (o.parent == Some(fs.pending) || o.parent == Some(fs.progress))
      && (e in o.trace ==> !e.Upload?)
  {
    var tf := (d: Download) => Err(AttributeError);
    var o := FileStep(c, fs, it.id, PathOf(bank, account), tf, Some(fs.pending));
    assert StepAsWritten(c, bank, account, fs)(it, Some(fs.pending)) == o;
    StepEndsInOneFolder(c, fs, it.id, PathOf(bank, account), tf);
    if o.counted {
      StepCountedTrace(c, fs, it.id, PathOf(bank, account), tf);
    }
    if e in o.trace && e.Upload? {
      StepUploadIsTransform(c, fs, it.id, PathOf(bank, account), tf, e);
    }
  }

  /** As written, an account's sweep uploads nothing and counts nothing, and
      no listed file reaches `processed`. */
  lemma {:induction false} SweepAsWrittenDeliversNothing(c: Cloud, bank: string, account: string, fs: Folders, t: Tree, files: seq<Item>)
    requires DistinctFolders(fs) && Listed(t, files, fs)
    ensures var r := Loop(t, files, StepAsWritten(c, bank, account, fs));
      && r.count == 0
      && (forall e :: e in r.trace ==> !e.Upload?)
      && forall k :: 0 <= k < |files| ==> ParentOf(r.tree, files[k].id) != Some(fs.processed)
  {
    var step := StepAsWritten(c, bank, account, fs);
    forall it, cur, e | e in step(it, cur).trace ensures !e.Upload? {
      var tf := (d: Download) => Err(AttributeError);
      assert step(it, cur) == FileStep(c, fs, it.id, PathOf(bank, account), tf, cur);
      FileStepNoUpload(c, fs, it.id, PathOf(bank, account), tf, cur, e);
    }
    forall it, cur ensures !step(it, cur).counted {
      var tf := (d: Download) => Err(AttributeError);
      assert step(it, cur) == FileStep(c, fs, it.id, PathOf(bank, account), tf, cur);
      FileStepNoUpload(c, fs, it.id, PathOf(bank, account), tf, cur, Critical(""));
    }
    LoopKeeps(t, files, step, (e: Event) => !e.Upload?);
    var r := Loop(t, files, step);
    SweepSettles(c, fs, (it: Item) => PathOf(bank, account), (it: Item) => (d: Download) => Err(AttributeError), t, files);
    forall k | 0 <= k < |files| ensures ParentOf(r.tree, files[k].id) != Some(fs.processed) {
      CountInZero(r.tree, files, fs.processed, k);
    }
  }

  /** With a transform that always raises, an iteration from any parent
      neither uploads nor counts. */
  lemma {:induction false} FileStepNoUpload(c: Cloud, fs: Folders, f: FileId, pathOf: Download -> string,
                         tf: Download -> Result<Frame>, cur: Option<FolderId>, e: Event)
    requires forall d :: tf(d).Err?
    ensures !FileStep(c, fs, f, pathOf, tf, cur).counted
    ensures e in FileStep(c, fs, f, pathOf, tf, cur).trace ==> !e.Upload?
  {
    var m := Move(c, f, cur, fs.pending, fs.progress);
    var tr := [MoveCall(f, fs.pending, fs.progress, m.ok)];
    if !m.ok {
      RollbackFacts(c, fs, f, m.parent, tr);
    } else {
      assert FileStep(c, fs, f, pathOf, tf, cur) == AfterLease(c, fs, f, pathOf, tf, m.parent, tr);
      AfterLeaseNoUpload(c, fs, f, pathOf, tf, m.parent, tr, e);
    }
  }

  lemma {:induction false} AfterLeaseNoUpload(c: Cloud, fs: Folders, f: FileId, pathOf: Download -> string,
                           tf: Download -> Result<Frame>, cur: Option<FolderId>, trace: seq<Event>, e: Event)
    requires forall d :: tf(d).Err?
    requires forall x :: x in trace ==> !x.Upload?
    ensures !AfterLease(c, fs, f, pathOf, tf, cur, trace).counted
    ensures e in AfterLease(c, fs, f, pathOf, tf, cur, trace).trace ==> !e.Upload?
  {
    var ok := FetchFile(c, f).Ok?;
    var tr := trace + [Fetched(f, ok)];
    assert AfterLease(c, fs, f, pathOf, tf, cur, trace) == Rollback(c, fs, f, cur, tr) by {
      if ok {
        assert tf(FetchFile(c, f).value).Err?;
      }
    }
    RollbackFacts(c, fs, f, cur, tr);
    if e in Rollback(c, fs, f, cur, tr).trace && e.Upload? {
      RollbackAddsNothing(c, fs, f, cur, tr, e);
    }
  }

  /** As written, the entry point processes no account: the tree and the
      log are untouched, the total is zero, and dbt runs exactly when a
      full refresh was asked for. */
  lemma {:induction false} EntryAsWrittenIdle(c: Cloud, t: Tree, root: FolderId, configs: Option<Configs>, data: Json, decode: Json -> Option<Json>)
    ensures var a := EntryAsWritten(c, t, root, configs, data, decode);
      && a.tree == t && a.trace == [] && a.total == 0
      && (a.dbt.Started? <==> DbtArgs(data, decode) == ["run", "--full-refresh"])
      && a.message == "Proceso completado." && a.code == 200
  {
    if configs.Some? {
      match c.list(Query(root, true, true))
      case None =>
      case Some(banks) =>
        BanksIdle(c, configs.value, banks, Walk(t, [], 0, false), ProcessAsWritten());
    }
  }

  // ---------------------------------------------------------------------
  // Corrected: files and accounts are processed

  /** With the transform called, a file is counted, and ends in
      `processed`, whenever Drive accepts both moves, the download and its
      upload succeed and the transform gives a non-empty frame; the
      uploaded rows are that frame. */
  lemma {:induction false} StepOfDelivers(c: Cloud, lib: Pandas, cfg: BankConfig, bank: string, account: string, fs: Folders, it: Item)
    requires c.moveOk(it.id, fs.pending, fs.progress) && c.moveOk(it.id, fs.progress, fs.processed)
    requires FetchFile(c, it.id).Ok?
    requires var d := FetchFile(c, it.id).value;
      Transform(lib, d.data, d.fileType, cfg, bank, account).Ok? &&
      !IsEmpty(Transform(lib, d.data, d.fileType, cfg, bank, account).value) &&
      c.uploadOk(UploadPath(bank, account, d.name))
    ensures var o := StepOf(c, lib, cfg, bank, account, fs)(it, Some(fs.pending));
      var d := FetchFile(c, it.id).value;
      && o.counted && o.parent == Some(fs.processed)
      && Upload(UploadPath(bank, account, d.name), "application/jsonl",
                Transform(lib, d.data, d.fileType, cfg, bank, account).value, true) in o.trace
  {
    var tf := (d: Download) => Transform(lib, d.data, d.fileType, cfg, bank, account);
    assert StepOf(c, lib, cfg, bank, account, fs)(it, Some(fs.pending))
        == FileStep(c, fs, it.id, PathOf(bank, account), tf, Some(fs.pending));
    StepSucceeds(c, fs, it.id, PathOf(bank, account), tf);
    StepCountedTrace(c, fs, it.id, PathOf(bank, account), tf);
  }

  /** The discrepancy on one file: under answers with which the corrected
      iteration counts the file and moves it to `processed`, the iteration
      as written does not count it. */
  lemma {:induction false} StepAsWrittenMissesDelivery(c: Cloud, lib: Pandas, cfg: BankConfig, bank: string, account: string, fs: Folders, it: Item)
    requires DistinctFolders(fs)
    requires c.moveOk(it.id, fs.pending, fs.progress) && c.moveOk(it.id, fs.progress, fs.processed)
    requires FetchFile(c, it.id).Ok?
    requires var d := FetchFile(c, it.id).value;
      Transform(lib, d.data, d.fileType, cfg, bank, account).Ok? &&
      !IsEmpty(Transform(lib, d.data, d.fileType, cfg, bank, account).value) &&
      c.uploadOk(UploadPath(bank, account, d.name))
    ensures StepOf(c, lib, cfg, bank, account, fs)(it, Some(fs.pending)).counted
    ensures StepOf(c, lib, cfg, bank, account, fs)(it, Some(fs.pending)).parent == Some(fs.processed)
    ensures !StepAsWritten(c, bank, account, fs)(it, Some(fs.pending)).counted
    ensures StepAsWritten(c, bank, account, fs)(it, Some(fs.pending)).parent != Some(fs.processed)
  {
    StepOfDelivers(c, lib, cfg, bank, account, fs, it);
    StepAsWrittenNeverDelivers(c, bank, account, fs, it, Critical(it.id));
  }

  /** With the account processing called, a configured account whose
      processing succeeds adds its count to the total. */
  lemma {:induction false} EntryCountsAccounts(c: Cloud, lib: Pandas, cs: Configs, bank: string, a: Item, rest: seq<Item>, w: Walk, r: Run)
    requires Lookup(cs, bank, a.name).Ok?
    requires ProcessAccount(c, lib, w.tree, bank, a, Lookup(cs, bank, a.name).value) == Ok(r)
    ensures var process := (t: Tree, b: string, x: Item, cfg: BankConfig) => ProcessAccount(c, lib, t, b, x, cfg);
      Accounts(c, cs, bank, [a] + rest, w, process)
        == Accounts(c, cs, bank, rest, Walk(r.tree, w.trace + r.trace, w.total + r.count, false), process)
  {
    var process := (t: Tree, b: string, x: Item, cfg: BankConfig) => ProcessAccount(c, lib, t, b, x, cfg);
    AccountsAdd(c, cs, bank, a, rest, w, process, r);
  }

  /** The discrepancy on one account: the account whose processing the
      corrected walk adds to the total is, as written, passed over. */
  lemma {:induction false} EntryAsWrittenSkipsAccounts(c: Cloud, lib: Pandas, cs: Configs, bank: string, a: Item, rest: seq<Item>, w: Walk, r: Run)
    requires Lookup(cs, bank, a.name).Ok?
    requires ProcessAccount(c, lib, w.tree, bank, a, Lookup(cs, bank, a.name).value) == Ok(r)
    ensures var process := (t: Tree, b: string, x: Item, cfg: BankConfig) => ProcessAccount(c, lib, t, b, x, cfg);
      Accounts(c, cs, bank, [a] + rest, w, process)
        == Accounts(c, cs, bank, rest, Walk(r.tree, w.trace + r.trace, w.total + r.count, false), process)
    ensures Accounts(c, cs, bank, [a] + rest, w, ProcessAsWritten()) == Accounts(c, cs, bank, rest, w, ProcessAsWritten())
  {
    EntryCountsAccounts(c, lib, cs, bank, a, rest, w, r);
    AccountsSkip(c, cs, bank, a, rest, w, ProcessAsWritten());
  }
}

=== FILE: intake_v2.dfy ===
/**
 * The Pub/Sub-triggered intake in `ingestion_function/main2.py`. For each
 * account folder with a configuration, every file in `pending` is leased
 * by moving it to `in_progress`, downloaded, transformed, uploaded as JSON
 * lines and moved to `processed`; any failure moves it back to `pending`.
 */
module IntakeV2 {
  import opened Base
  import opened Text
  import opened Paths
  import opened Frames
  import opened Hashing
  import opened Amounts
  import opened Drive
  import opened Sweep
  import opened Config

  const Pending: string := "pending"
  const Processed: string := "processed"

  /** The three state folders of one account. */
  datatype Folders = Folders(pending: FolderId, processed: FolderId, progress: FolderId)

  predicate DistinctFolders(fs: Folders) {
    fs.pending != fs.processed && fs.pending != fs.progress && fs.processed != fs.progress
  }

  // ---------------------------------------------------------------------
  // `_transform_dataframe`

  /** The Excel engine: xlrd for a ".xls" suffix, openpyxl for anything
      else, exported spreadsheets included. */
  function EngineFor(name: string): Engine {
    var ext := Lower(Suffix(name));
    if ext == ".xlsx" || ext == ".xlsm" then Openpyxl
    else if ext == ".xls" then Xlrd
    else Openpyxl
  }

  /** The cleaning after the columns are selected: dates normalised, the
      amount text reduced to digits and separators and parsed (a text that
      does not parse raises), rows lacking a core value dropped, then the
      final columns. */
  function Finish(lib: Pandas, df: Frame, cfg: BankConfig, bank: string, account: string): Result<Frame> {
    match MapColumn(df, "fecha", c => lib.toDate(cfg.dateFormat, c))
    case Err(e) => Err(e)
    case Ok(f1) =>
      match TryMapColumn(f1, "importe", c => AtofCell(lib, c))
      case Err(e) => Err(e)
      case Ok(f2) =>
        match DropNa(f2, Core)
        case Err(e) => Err(e)
        case Ok(f3) =>
          if IsEmpty(f3) then Ok(f3)
          else Ok(Normalized(f3, "hash_id", (a, b, c) => HashId(lib, a, b, c),
                             "entidad", Capitalize(bank), "origen", Capitalize(account)))
  }

  /** `_transform_dataframe`: an unreadable file and a file lacking a
      mapped column give an empty frame; a configuration without
      `column_mapping` raises `KeyError`. */
  function Transform(lib: Pandas, data: seq<bv8>, name: string, cfg: BankConfig, bank: string, account: string): Result<Frame> {
    match lib.readExcel(Bytes(data), EngineFor(name), ReadOpts(cfg.skipRows, cfg.skipFooter, true))
    case None => Ok(NoFrame)
    case Some(raw) =>
      if cfg.mapping.None? then Err(KeyError)
      else
        var df := Rename(raw, cfg.mapping.value);
        var required := Values(cfg.mapping.value);
        match Select(df, required)
        case Err(_) => Ok(NoFrame)
        case Ok(sel) => Finish(lib, sel, cfg, bank, account)
  }

  // ---------------------------------------------------------------------
  // `_process_account_folder`

  /** The object a file's rows are uploaded to. */
  function UploadPath(bank: string, account: string, name: string): string {
    bank + "/" + account + "/" + Stem(name) + ".jsonl"
  }

  /** The `except` branch: one attempt to move the file back to `pending`;
      when that is refused too the file stays where it is and the failure
      is logged as critical. */
  function Rollback(c: Cloud, fs: Folders, f: FileId, cur: Option<FolderId>, trace: seq<Event>): Outcome {
    var m := Move(c, f, cur, fs.progress, fs.pending);
    var tr := trace + [MoveCall(f, fs.progress, fs.pending, m.ok)];
    Outcome(m.parent, if m.ok then tr else tr + [Critical(f)], false)
  }

  /** The end of a successful iteration: the upload of a non-empty frame,
      then the move from `in_progress` to `processed` that makes it count. */
  function Deliver(c: Cloud, fs: Folders, f: FileId, path: string, df: Frame,
                   cur: Option<FolderId>, trace: seq<Event>): Outcome
  {
    var up := c.uploadOk(path);
    var tr := trace + [Upload(path, "application/jsonl", df, up)];
    if !up then Rollback(c, fs, f, cur, tr)
    else
      var m := Move(c, f, cur, fs.progress, fs.processed);
      var tr' := tr + [MoveCall(f, fs.progress, fs.processed, m.ok)];
      if !m.ok then Rollback(c, fs, f, m.parent, tr')
      else Outcome(m.parent, tr', true)
  }

  /** An iteration after the lease: download, transform, and either the
      delivery of a non-empty frame or the rollback. */
  function AfterLease(c: Cloud, fs: Folders, f: FileId, pathOf: Download -> string,
                      transform: Download -> Result<Frame>, cur: Option<FolderId>, trace: seq<Event>): Outcome
  {
    match FetchFile(c, f)
    case Err(_) => Rollback(c, fs, f, cur, trace + [Fetched(f, false)])
    case Ok(d) =>
      var tr := trace + [Fetched(f, true)];
      match transform(d)
      case Err(_) => Rollback(c, fs, f, cur, tr)
      case Ok(df) =>
        if IsEmpty(df) then Rollback(c, fs, f, cur, tr)
        else Deliver(c, fs, f, pathOf(d), df, cur, tr)
  }

  /** One iteration of the loop over the files of `pending` for the file
      `f`: lease, download, transform, upload, move to `processed`; any
      failure after the lease takes the `except` branch. `pathOf` names the
      object the rows go to and `transform` makes the final frame of the
      download, or raises. */
  function FileStep(c: Cloud, fs: Folders, f: FileId, pathOf: Download -> string,
                    transform: Download -> Result<Frame>, cur: Option<FolderId>): Outcome
  {
    var m := Move(c, f, cur, fs.pending, fs.progress);
    var tr := [MoveCall(f, fs.pending, fs.progress, m.ok)];
    if !m.ok then Rollback(c, fs, f, m.parent, tr)
    else AfterLease(c, fs, f, pathOf, transform, m.parent, tr)
  }

  /** The loop body `FileStep` as a step of the per-file loop, with the
      upload path and the transform chosen per listed file. */
  function LeaseStep(c: Cloud, fs: Folders, pathOf: Item -> Download -> string,
                     transform: Item -> Download -> Result<Frame>): Step
  {
    (it: Item, cur: Option<FolderId>) => FileStep(c, fs, it.id, pathOf(it), transform(it), cur)
  }

  /** The loop body of one account in this variant: the name in the listing
      gives the upload path and the Excel engine. */
  function StepOf(c: Cloud, lib: Pandas, cfg: BankConfig, bank: string, account: string, fs: Folders): Step {
    LeaseStep(c, fs, (it: Item) => (d: Download) => UploadPath(bank, account, it.name),
              (it: Item) => (d: Download) => Transform(lib, d.data, it.name, cfg, bank, account))
  }

  /** `_process_account_folder` with the loop body `stepFor` gives for the
      account's state folders: nothing happens unless all three are known
      (the lease folder is created when missing); a failed listing raises. */
  function SweepAccount(c: Cloud, t: Tree, account: Item, stepFor: Folders -> Step): Result<Run> {
    match SubfolderIds(c, account.id)
    case Err(e) => Err(e)
    case Ok(sub) =>
      var p, d, g := Present(sub.ids, Pending), Present(sub.ids, Processed), Present(sub.ids, InProgress);
      if p.None? || d.None? || g.None? then Ok(Run(t, [], 0))
      else
        match c.list(Query(p.value, false, true))
        case None => Err(HttpError)
        case Some(files) =>
          if files == [] then Ok(Run(t, [], 0))
          else Ok(Loop(t, files, stepFor(Folders(p.value, d.value, g.value))))
  }

  /** `_process_account_folder` of this variant. */
  function ProcessAccount(c: Cloud, lib: Pandas, t: Tree, bank: string, account: Item, cfg: BankConfig): Result<Run> {
    SweepAccount(c, t, account, fs => StepOf(c, lib, cfg, bank, account.name, fs))
  }

  // ---------------------------------------------------------------------
  // `ingest_bank_statements_pubsub`

  /** Progress of the entry point: the parents, the events, the running
      total, and whether a fatal error ended the walk. */
  datatype Walk = Walk(tree: Tree, trace: seq<Event>, total: nat, fatal: bool)

  /** What the entry point does with one configured account: the bank
      name, the account folder and its configuration, on the current tree. */
  type Process = (Tree, string, Item, BankConfig) -> Result<Run>

  /** The loop over one bank's account folders: an account without a
      configuration, or whose processing raises, is skipped. */
  function Accounts(c: Cloud, cs: Configs, bank: string, accounts: seq<Item>, w: Walk, process: Process): Walk
    decreases |accounts|
  {
    if accounts == [] then w
    else
      var next :=
        match Lookup(cs, bank, accounts[0].name)
        case Err(_) => w
        case Ok(cfg) =>
          match process(w.tree, bank, accounts[0], cfg)
          case Err(_) => w
          case Ok(r) => Walk(r.tree, w.trace + r.trace, w.total + r.count, false);
      Accounts(c, cs, bank, accounts[1..], next, process)
  }

  /** The loop over bank folders: a failed account listing is fatal and
      ends the walk with the total reached so far. */
  function Banks(c: Cloud, cs: Configs, banks: seq<Item>, w: Walk, process: Process): Walk
    decreases |banks|
  {
    if banks == [] then w
    else
      match c.list(Query(banks[0].id, true, true))
      case None => w.(fatal := true)
      case Some(accounts) => Banks(c, cs, banks[1..], Accounts(c, cs, banks[0].name, accounts, w, process), process)
  }

  /** The outer `try` of the entry point. `configs` is `None` when loading
      the configuration or the credentials raised. */
  function Walked(c: Cloud, t: Tree, root: FolderId, configs: Option<Configs>, process: Process): Walk {
    if configs.None? then Walk(t, [], 0, true)
    else
      match c.list(Query(root, true, true))
      case None => Walk(t, [], 0, true)
      case Some(banks) => Banks(c, configs.value, banks, Walk(t, [], 0, false), process)
  }

  /** What the entry point leaves behind and answers. */
  datatype Report = Report(tree: Tree, trace: seq<Event>, total: nat, dbtTriggered: bool, message: string, code: int)

  /** `ingest_bank_statements_pubsub`: the job is triggered when some file
      was processed, and the answer is always the same. */
  function Entry(c: Cloud, lib: Pandas, t: Tree, root: FolderId, configs: Option<Configs>): Report {
    var w := Walked(c, t, root, configs, (t, b, a, cfg) => ProcessAccount(c, lib, t, b, a, cfg));
    Report(w.tree, w.trace, w.total, w.total > 0, "Proceso completado.", 200)
  }

  // ---------------------------------------------------------------------
  // Properties of one file

  /** How an iteration may leave a file: in `processed` exactly when it
      was counted, in `pending` or `in_progress` otherwise; a file left in
      `in_progress` has the critical log line, and a file with that line
      was not counted. */
  predicate Settled(fs: Folders, f: FileId, o: Outcome) {
    && (o.parent == Some(fs.pending) || o.parent == Some(fs.progress) || o.parent == Some(fs.processed))
    && (o.counted <==> o.parent == Some(fs.processed))
    && (o.parent == Some(fs.progress) ==> Critical(f) in o.trace)
    && (Critical(f) in o.trace ==> !o.counted)
  }

  /** A rollback requests exactly one move, from `in_progress` to `pending`;
      the file lands in `pending` when it is accepted and otherwise stays,
      with the critical log line, where it was. */
  lemma RollbackFacts(c: Cloud, fs: Folders, f: FileId, cur: Option<FolderId>, trace: seq<Event>)
    ensures var o := Rollback(c, fs, f, cur, trace);
      var m := Move(c, f, cur, fs.progress, fs.pending);
      && !o.counted
      && (m.ok ==> o.parent == Some(fs.pending) && o.trace == trace + [MoveCall(f, fs.progress, fs.pending, true)])
      && (!m.ok ==> o.parent == cur && o.trace == trace + [MoveCall(f, fs.progress, fs.pending, false), Critical(f)])
  {
  }

  lemma {:induction false} RollbackSettles(c: Cloud, fs: Folders, f: FileId, cur: Option<FolderId>, trace: seq<Event>)
    requires DistinctFolders(fs)
    requires cur == Some(fs.pending) || cur == Some(fs.progress)
    ensures Settled(fs, f, Rollback(c, fs, f, cur, trace))
  {
    RollbackFacts(c, fs, f, cur, trace);
    var m := Move(c, f, cur, fs.progress, fs.pending);
    if !m.ok {
      var o := Rollback(c, fs, f, cur, trace);
      assert o.trace[|o.trace| - 1] == Critical(f);
    }
  }

  lemma {:induction false} DeliverSettles(c: Cloud, fs: Folders, f: FileId, path: string, df: Frame, trace: seq<Event>)
    requires DistinctFolders(fs)
    requires Critical(f) !in trace
    ensures Settled(fs, f, Deliver(c, fs, f, path, df, Some(fs.progress), trace))
  {
    var up := c.uploadOk(path);
    var tr := trace + [Upload(path, "application/jsonl", df, up)];
    if !up {
      RollbackSettles(c, fs, f, Some(fs.progress), tr);
    } else {
      var m := Move(c, f, Some(fs.progress), fs.progress, fs.processed);
      var tr' := tr + [MoveCall(f, fs.progress, fs.processed, m.ok)];
      if !m.ok {
        RollbackSettles(c, fs, f, m.parent, tr');
      } else {
        assert Critical(f) !in tr';
      }
    }
  }

  lemma {:induction false} AfterLeaseSettles(c: Cloud, fs: Folders, f: FileId, pathOf: Download -> string, tf: Download -> Result<Frame>, trace: seq<Event>)
    requires DistinctFolders(fs)
    requires Critical(f) !in trace
    ensures Settled(fs, f, AfterLease(c, fs, f, pathOf, tf, Some(fs.progress), trace))
  {
    var cur := Some(fs.progress);
    match FetchFile(c, f)
    case Err(_) =>
      RollbackSettles(c, fs, f, cur, trace + [Fetched(f, false)]);
    case Ok(d) =>
      var tr := trace + [Fetched(f, true)];
      assert Critical(f) !in tr;
      match tf(d)
      case Err(_) =>
        RollbackSettles(c, fs, f, cur, tr);
      case Ok(df) =>
        if IsEmpty(df) {
          RollbackSettles(c, fs, f, cur, tr);
        } else {
          DeliverSettles(c, fs, f, pathOf(d), df, tr);
        }
  }

  /** Where a file listed in `pending` ends: see `Settled`. */
  lemma {:induction false} StepEndsInOneFolder(c: Cloud, fs: Folders, f: FileId, pathOf: Download -> string, tf: Download -> Result<Frame>)
    requires DistinctFolders(fs)
    ensures Settled(fs, f, FileStep(c, fs, f, pathOf, tf, Some(fs.pending)))
  {
    var m := Move(c, f, Some(fs.pending), fs.pending, fs.progress);
    var tr := [MoveCall(f, fs.pending, fs.progress, m.ok)];
    if !m.ok {
      RollbackSettles(c, fs, f, m.parent, tr);
    } else {
      AfterLeaseSettles(c, fs, f, pathOf, tf, tr);
    }
  }

  /** A rollback adds no upload and no download to the log. */
  lemma {:induction false} RollbackAddsNothing(c: Cloud, fs: Folders, f: FileId, cur: Option<FolderId>, trace: seq<Event>, e: Event)
    requires e in Rollback(c, fs, f, cur, trace).trace && (e.Upload? || e.Fetched?)
    ensures e in trace
  {
    RollbackFacts(c, fs, f, cur, trace);
  }

  /** Only the transform's result is uploaded: every upload in the log of an
      iteration went to the file's path, with the JSON-lines content type,
      after an accepted lease and a successful download, and carries exactly
      the non-empty frame the transform made of the downloaded bytes. */
  lemma {:induction false} StepUploadIsTransform(c: Cloud, fs: Folders, f: FileId, pathOf: Download -> string, tf: Download -> Result<Frame>, e: Event)
    requires e in FileStep(c, fs, f, pathOf, tf, Some(fs.pending)).trace && e.Upload?
    ensures Move(c, f, Some(fs.pending), fs.pending, fs.progress).ok
    ensures FetchFile(c, f).Ok? && tf(FetchFile(c, f).value) == Ok(e.rows)
    ensures !IsEmpty(e.rows) && e.path == pathOf(FetchFile(c, f).value) && e.contentType == "application/jsonl"
  {
    var m := Move(c, f, Some(fs.pending), fs.pending, fs.progress);
    var tr := [MoveCall(f, fs.pending, fs.progress, m.ok)];
    if !m.ok {
      assert FileStep(c, fs, f, pathOf, tf, Some(fs.pending)) == Rollback(c, fs, f, m.parent, tr);
      RollbackAddsNothing(c, fs, f, m.parent, tr, e);
    } else {
      assert FileStep(c, fs, f, pathOf, tf, Some(fs.pending)) == AfterLease(c, fs, f, pathOf, tf, m.parent, tr);
      AfterLeaseUploadIsTransform(c, fs, f, pathOf, tf, m.parent, tr, e);
    }
  }

  /** The part of `StepUploadIsTransform` after the lease. */
  lemma {:induction false} AfterLeaseUploadIsTransform(c: Cloud, fs: Folders, f: FileId, pathOf: Download -> string, tf: Download -> Result<Frame>,
                                    cur: Option<FolderId>, trace: seq<Event>, e: Event)
    requires e in AfterLease(c, fs, f, pathOf, tf, cur, trace).trace && e.Upload?
    requires forall x :: x in trace ==> !x.Upload?
    ensures FetchFile(c, f).Ok? && tf(FetchFile(c, f).value) == Ok(e.rows)
    ensures !IsEmpty(e.rows) && e.path == pathOf(FetchFile(c, f).value) && e.contentType == "application/jsonl"
  {
    match FetchFile(c, f)
    case Err(_) =>
      RollbackAddsNothing(c, fs, f, cur, trace + [Fetched(f, false)], e);
    case Ok(d) =>
      var tr := trace + [Fetched(f, true)];
      match tf(d)
      case Err(_) =>
        RollbackAddsNothing(c, fs, f, cur, tr, e);
      case Ok(df) =>
        if IsEmpty(df) {
          RollbackAddsNothing(c, fs, f, cur, tr, e);
        } else {
          assert AfterLease(c, fs, f, pathOf, tf, cur, trace) == Deliver(c, fs, f, pathOf(d), df, cur, tr);
          DeliverUploads(c, fs, f, pathOf(d), df, cur, tr, e);
        }
  }

  lemma {:induction false} DeliverUploads(c: Cloud, fs: Folders, f: FileId, path: string, df: Frame,
                       cur: Option<FolderId>, trace: seq<Event>, e: Event)
    requires e in Deliver(c, fs, f, path, df, cur, trace).trace && e.Upload?
    requires forall x :: x in trace ==> !x.Upload?
    ensures e.rows == df && e.path == path && e.contentType == "application/jsonl"
  {
    var up := c.uploadOk(path);
    var tr := trace + [Upload(path, "application/jsonl", df, up)];
    if !up {
      RollbackAddsNothing(c, fs, f, cur, tr, e);
    } else {
      var m := Move(c, f, cur, fs.progress, fs.processed);
      var tr' := tr + [MoveCall(f, fs.progress, fs.processed, m.ok)];
      if !m.ok {
        RollbackAddsNothing(c, fs, f, m.parent, tr', e);
      }
    }
  }

  lemma {:induction false} DeliverCounted(c: Cloud, fs: Folders, f: FileId, path: string, df: Frame,
                       cur: Option<FolderId>, trace: seq<Event>)
    requires Deliver(c, fs, f, path, df, cur, trace).counted
    ensures Deliver(c, fs, f, path, df, cur, trace).trace ==
      trace + [Upload(path, "application/jsonl", df, true), MoveCall(f, fs.progress, fs.processed, true)]
  {
    var up := c.uploadOk(path);
    var tr := trace + [Upload(path, "application/jsonl", df, up)];
    if !up {
      RollbackFacts(c, fs, f, cur, tr);
    } else {
      var m := Move(c, f, cur, fs.progress, fs.processed);
      if !m.ok {
        RollbackFacts(c, fs, f, m.parent, tr + [MoveCall(f, fs.progress, fs.processed, false)]);
      }
    }
  }

  lemma {:induction false} AfterLeaseCounted(c: Cloud, fs: Folders, f: FileId, pathOf: Download -> string, tf: Download -> Result<Frame>,
                          cur: Option<FolderId>, trace: seq<Event>)
    requires AfterLease(c, fs, f, pathOf, tf, cur, trace).counted
    ensures FetchFile(c, f).Ok? && tf(FetchFile(c, f).value).Ok?
    ensures var df := tf(FetchFile(c, f).value).value;
      && !IsEmpty(df)
      && AfterLease(c, fs, f, pathOf, tf, cur, trace).trace ==
           trace + [Fetched(f, true), Upload(pathOf(FetchFile(c, f).value), "application/jsonl", df, true), MoveCall(f, fs.progress, fs.processed, true)]
  {
    match FetchFile(c, f)
    case Err(_) =>
      RollbackFacts(c, fs, f, cur, trace + [Fetched(f, false)]);
    case Ok(d) =>
      var tr := trace + [Fetched(f, true)];
      match tf(d)
      case Err(_) =>
        RollbackFacts(c, fs, f, cur, tr);
      case Ok(df) =>
        if IsEmpty(df) {
          RollbackFacts(c, fs, f, cur, tr);
        } else {
          DeliverCounted(c, fs, f, pathOf(d), df, cur, tr);
          assert tr + [Upload(pathOf(d), "application/jsonl", df, true), MoveCall(f, fs.progress, fs.processed, true)]
              == trace + [Fetched(f, true), Upload(pathOf(d), "application/jsonl", df, true), MoveCall(f, fs.progress, fs.processed, true)];
        }
  }

  /** A counted file went through exactly this sequence: accepted lease,
      download, accepted upload of the transform's non-empty frame to its
      path, accepted move to `processed`. The upload therefore precedes the
      move that makes the file count. */
  lemma {:induction false} StepCountedTrace(c: Cloud, fs: Folders, f: FileId, pathOf: Download -> string, tf: Download -> Result<Frame>)
    requires FileStep(c, fs, f, pathOf, tf, Some(fs.pending)).counted
    ensures FetchFile(c, f).Ok? && tf(FetchFile(c, f).value).Ok?
    ensures var df := tf(FetchFile(c, f).value).value;
      && !IsEmpty(df)
      && FileStep(c, fs, f, pathOf, tf, Some(fs.pending)).trace ==
           [MoveCall(f, fs.pending, fs.progress, true), Fetched(f, true),
            Upload(pathOf(FetchFile(c, f).value), "application/jsonl", df, true), MoveCall(f, fs.progress, fs.processed, true)]
  {
    var m := Move(c, f, Some(fs.pending), fs.pending, fs.progress);
    var tr := [MoveCall(f, fs.pending, fs.progress, m.ok)];
    if !m.ok {
      RollbackFacts(c, fs, f, m.parent, tr);
    } else {
      AfterLeaseCounted(c, fs, f, pathOf, tf, m.parent, tr);
    }
  }

  /** Conversely, a file is counted, and ends in `processed`, whenever
      Drive accepts both moves, the download succeeds, the transform makes
      a non-empty frame of it and its upload is accepted. */
  lemma {:induction false} StepSucceeds(c: Cloud, fs: Folders, f: FileId, pathOf: Download -> string, tf: Download -> Result<Frame>)
    requires c.moveOk(f, fs.pending, fs.progress) && c.moveOk(f, fs.progress, fs.processed)
    requires FetchFile(c, f).Ok? && tf(FetchFile(c, f).value).Ok? && !IsEmpty(tf(FetchFile(c, f).value).value)
    requires c.uploadOk(pathOf(FetchFile(c, f).value))
    ensures FileStep(c, fs, f, pathOf, tf, Some(fs.pending)).counted
    ensures FileStep(c, fs, f, pathOf, tf, Some(fs.pending)).parent == Some(fs.processed)
  {
    var d := FetchFile(c, f).value;
    var tr1 := [MoveCall(f, fs.pending, fs.progress, true)];
    var tr2 := tr1 + [Fetched(f, true)];
    assert Move(c, f, Some(fs.pending), fs.pending, fs.progress) == Moved(true, Some(fs.progress));
    assert FileStep(c, fs, f, pathOf, tf, Some(fs.pending)) == AfterLease(c, fs, f, pathOf, tf, Some(fs.progress), tr1);
    assert AfterLease(c, fs, f, pathOf, tf, Some(fs.progress), tr1) == Deliver(c, fs, f, pathOf(d), tf(d).value, Some(fs.progress), tr2);
    DeliverSucceeds(c, fs, f, pathOf(d), tf(d).value, tr2);
  }

  lemma {:induction false} DeliverSucceeds(c: Cloud, fs: Folders, f: FileId, path: string, df: Frame, trace: seq<Event>)
    requires c.uploadOk(path) && c.moveOk(f, fs.progress, fs.processed)
    ensures Deliver(c, fs, f, path, df, Some(fs.progress), trace).counted
    ensures Deliver(c, fs, f, path, df, Some(fs.progress), trace).parent == Some(fs.processed)
  {
    assert Move(c, f, Some(fs.progress), fs.progress, fs.processed) == Moved(true, Some(fs.processed));
  }

  /** A refused lease ends the iteration before any download: the log is
      the refused move and the rollback, and the file is not counted. */
  lemma {:induction false} StepRefusedLease(c: Cloud, fs: Folders, f: FileId, pathOf: Download -> string, tf: Download -> Result<Frame>)
    requires !c.moveOk(f, fs.pending, fs.progress)
    ensures var o := FileStep(c, fs, f, pathOf, tf, Some(fs.pending));
      && !o.counted
      && o.trace[0] == MoveCall(f, fs.pending, fs.progress, false)
      && forall e :: e in o.trace ==> !e.Fetched? && !e.Upload?
  {
    RollbackFacts(c, fs, f, Some(fs.pending), [MoveCall(f, fs.pending, fs.progress, false)]);
  }

  // ---------------------------------------------------------------------
  // Properties of one account

  /** The files of a `pending` listing: each listed once, each known to the
      tree with `pending` as its parent. */
  predicate Listed(t: Tree, files: seq<Item>, fs: Folders) {
    && DistinctIds(files)
    && forall k :: 0 <= k < |files| ==> ParentOf(t, files[k].id) == Some(fs.pending)
  }

  lemma {:induction false} LandsSettled(c: Cloud, fs: Folders, pathOf: Item -> Download -> string,
                     tf: Item -> Download -> Result<Frame>, t: Tree, it: Item)
    requires DistinctFolders(fs) && ParentOf(t, it.id) == Some(fs.pending)
    ensures var step := LeaseStep(c, fs, pathOf, tf);
      var o := Own(t, it, step);
      && Settled(fs, it.id, o)
      && Lands(t, it, step) == o.parent
  {
    assert Own(t, it, LeaseStep(c, fs, pathOf, tf)) == FileStep(c, fs, it.id, pathOf(it), tf(it), Some(fs.pending));
    StepEndsInOneFolder(c, fs, it.id, pathOf(it), tf(it));
  }

  /** One account's sweep: every listed file ends in `pending`,
      `in_progress` or `processed`, the counter is the number of listed
      files that end in `processed`, and no other file moves. */
  lemma {:induction false} SweepSettles(c: Cloud, fs: Folders, pathOf: Item -> Download -> string,
                     tf: Item -> Download -> Result<Frame>, t: Tree, files: seq<Item>)
    requires DistinctFolders(fs) && Listed(t, files, fs)
    ensures var r := Loop(t, files, LeaseStep(c, fs, pathOf, tf));
      && r.tree.Keys == t.Keys
      && (forall k :: 0 <= k < |files| ==>
            ParentOf(r.tree, files[k].id) in {Some(fs.pending), Some(fs.progress), Some(fs.processed)})
      && r.count == CountIn(r.tree, files, fs.processed)
      && forall g :: (forall k :: 0 <= k < |files| ==> files[k].id != g) ==> ParentOf(r.tree, g) == ParentOf(t, g)
  {
    var step := LeaseStep(c, fs, pathOf, tf);
    LoopIsBatch(t, files, step);
    var r := Batch(t, files, step);
    forall k | 0 <= k < |files|
      ensures ParentOf(r.tree, files[k].id) in {Some(fs.pending), Some(fs.progress), Some(fs.processed)}
      ensures Own(t, files[k], step).counted <==> Lands(t, files[k], step) == Some(fs.processed)
    {
      LandsSettled(c, fs, pathOf, tf, t, files[k]);
      BatchAt(t, files, step, k);
    }
    BatchCount(t, files, step, fs.processed);
    forall g | forall k :: 0 <= k < |files| ==> files[k].id != g
      ensures ParentOf(r.tree, g) == ParentOf(t, g)
    {
      BatchFrame(t, files, step, g);
    }
    BatchFrame(t, files, step, "");
  }

  // ---------------------------------------------------------------------
  // Properties of the transform

  /** The engine: xlrd exactly for a name whose lower-cased suffix is ".xls". */
  lemma EngineForXls(name: string)
    ensures EngineFor(name) == Xlrd <==> Lower(Suffix(name)) == ".xls"
    ensures EngineFor(name) != Inferred
  {
  }

  /** The transform's failure modes: an unreadable file gives an empty
      frame, a configuration without `column_mapping` raises `KeyError`,
      and a file lacking a mapped column gives an empty frame. */
  lemma TransformFailures(lib: Pandas, data: seq<bv8>, name: string, cfg: BankConfig, bank: string, account: string)
    ensures var read := lib.readExcel(Bytes(data), EngineFor(name), ReadOpts(cfg.skipRows, cfg.skipFooter, true));
      && (read.None? ==> Transform(lib, data, name, cfg, bank, account) == Ok(NoFrame))
      && (read.Some? && cfg.mapping.None? ==> Transform(lib, data, name, cfg, bank, account) == Err(KeyError))
      && (read.Some? && cfg.mapping.Some? && !HasAll(Rename(read.value, cfg.mapping.value), Values(cfg.mapping.value)) ==>
            Transform(lib, data, name, cfg, bank, account) == Ok(NoFrame))
  {
  }

  /** A non-empty result has exactly the six output columns; in every row
      the id is the hash of that row's own fecha, concepto and importe,
      none of these three is missing, and entidad and origen are the
      capitalized bank and account names. */
  lemma {:induction false} FinishShape(lib: Pandas, df: Frame, cfg: BankConfig, bank: string, account: string, i: nat)
    requires Finish(lib, df, cfg, bank, account).Ok?
    requires !IsEmpty(Finish(lib, df, cfg, bank, account).value)
    requires i < |Finish(lib, df, cfg, bank, account).value.rows|
    ensures var r := Finish(lib, df, cfg, bank, account).value;
      && r.columns == ["hash_id", "fecha", "concepto", "importe", "entidad", "origen"]
      && |r.rows[i]| == 6 && r.rows[i][1] != Null && r.rows[i][2] != Null && r.rows[i][3] != Null
      && r.rows[i][0] == Str(HashId(lib, r.rows[i][1], r.rows[i][2], r.rows[i][3]))
      && r.rows[i][4] == Str(Capitalize(bank)) && r.rows[i][5] == Str(Capitalize(account))
  {
    var f1 := MapColumn(df, "fecha", c => lib.toDate(cfg.dateFormat, c)).value;
    var f2 := TryMapColumn(f1, "importe", c => AtofCell(lib, c)).value;
    var f3 := DropNa(f2, Core).value;
    assert Finish(lib, df, cfg, bank, account)
        == Ok(Normalized(f3, "hash_id", (a, b, c) => HashId(lib, a, b, c), "entidad", Capitalize(bank), "origen", Capitalize(account)));
    NormalizedAfterDropNa(f2, "hash_id", (a, b, c) => HashId(lib, a, b, c), "entidad", Capitalize(bank), "origen", Capitalize(account), i);
  }

  lemma {:induction false} TransformShape(lib: Pandas, data: seq<bv8>, name: string, cfg: BankConfig, bank: string, account: string, i: nat)
    requires Transform(lib, data, name, cfg, bank, account).Ok?
    requires !IsEmpty(Transform(lib, data, name, cfg, bank, account).value)
    requires i < |Transform(lib, data, name, cfg, bank, account).value.rows|
    ensures var r := Transform(lib, data, name, cfg, bank, account).value;
      && r.columns == ["hash_id", "fecha", "concepto", "importe", "entidad", "origen"]
      && |r.rows[i]| == 6 && r.rows[i][1] != Null && r.rows[i][2] != Null && r.rows[i][3] != Null
      && r.rows[i][0] == Str(HashId(lib, r.rows[i][1], r.rows[i][2], r.rows[i][3]))
      && r.rows[i][4] == Str(Capitalize(bank)) && r.rows[i][5] == Str(Capitalize(account))
  {
    var raw := lib.readExcel(Bytes(data), EngineFor(name), ReadOpts(cfg.skipRows, cfg.skipFooter, true)).value;
    var m := cfg.mapping.value;
    var sel := Select(Rename(raw, m), Values(m)).value;
    FinishShape(lib, sel, cfg, bank, account, i);
  }

  // ---------------------------------------------------------------------
  // Properties of the account and the entry point

  /** Nothing is listed or moved in an account that lacks one of the three
      state folders (an id that is missing or empty), nor in one whose
      `pending` folder is empty; a failed sub-folder listing or creation
      raises out of the account. */
  lemma SweepAccountSkips(c: Cloud, t: Tree, account: Item, stepFor: Folders -> Step)
    ensures SubfolderIds(c, account.id).Err? ==> SweepAccount(c, t, account, stepFor).Err?
    ensures SubfolderIds(c, account.id).Ok? ==>
      var ids := SubfolderIds(c, account.id).value.ids;
      (Pending !in ids || ids[Pending] == "" || Processed !in ids || ids[Processed] == "" || ids[InProgress] == "") ==>
        SweepAccount(c, t, account, stepFor) == Ok(Run(t, [], 0))
    ensures SubfolderIds(c, account.id).Ok? ==>
      var ids := SubfolderIds(c, account.id).value.ids;
      (Pending in ids && c.list(Query(ids[Pending], false, true)) == Some([])) ==>
        SweepAccount(c, t, account, stepFor) == Ok(Run(t, [], 0))
  {
  }

  /** An account without a configuration, or whose processing raises, is
      skipped: the walk goes on as if it had not been listed. */
  lemma {:induction false} AccountsSkip(c: Cloud, cs: Configs, bank: string, a: Item, rest: seq<Item>, w: Walk, process: Process)
    requires Lookup(cs, bank, a.name).Err? || process(w.tree, bank, a, Lookup(cs, bank, a.name).value).Err?
    ensures Accounts(c, cs, bank, [a] + rest, w, process) == Accounts(c, cs, bank, rest, w, process)
  {
    assert ([a] + rest)[1..] == rest;
  }

  /** A configured account whose processing succeeds adds its run: the
      parents it leaves, its events after the earlier ones, its count to
      the total. */
  lemma {:induction false} AccountsAdd(c: Cloud, cs: Configs, bank: string, a: Item, rest: seq<Item>, w: Walk, process: Process, r: Run)
    requires Lookup(cs, bank, a.name).Ok? && process(w.tree, bank, a, Lookup(cs, bank, a.name).value) == Ok(r)
    ensures Accounts(c, cs, bank, [a] + rest, w, process)
         == Accounts(c, cs, bank, rest, Walk(r.tree, w.trace + r.trace, w.total + r.count, false), process)
  {
    assert ([a] + rest)[1..] == rest;
  }

  /** The walk over accounts only adds: the total never goes down and the
      events so far stay a prefix of the log. */
  lemma {:induction false} AccountsGrow(c: Cloud, cs: Configs, bank: string, accounts: seq<Item>, w: Walk, process: Process)
    ensures Accounts(c, cs, bank, accounts, w, process).total >= w.total
    ensures w.trace <= Accounts(c, cs, bank, accounts, w, process).trace
    decreases |accounts|
  {
    if accounts != [] {
      var next :=
        match Lookup(cs, bank, accounts[0].name)
        case Err(_) => w
        case Ok(cfg) =>
          match process(w.tree, bank, accounts[0], cfg)
          case Err(_) => w
          case Ok(r) => Walk(r.tree, w.trace + r.trace, w.total + r.count, false);
      AccountsGrow(c, cs, bank, accounts[1..], next, process);
    }
  }

  /** When no account can be processed, the walk over accounts changes
      nothing. */
  lemma {:induction false} AccountsIdle(c: Cloud, cs: Configs, bank: string, accounts: seq<Item>, w: Walk, process: Process)
    requires forall t, b, a, cfg :: process(t, b, a, cfg).Err?
    ensures Accounts(c, cs, bank, accounts, w, process) == w
    decreases |accounts|
  {
    if accounts != [] {
      AccountsIdle(c, cs, bank, accounts[1..], w, process);
    }
  }

  /** When no account can be processed, the walk over banks changes nothing
      but, after a failed listing, the fatal flag. */
  lemma {:induction false} BanksIdle(c: Cloud, cs: Configs, banks: seq<Item>, w: Walk, process: Process)
    requires forall t, b, a, cfg :: process(t, b, a, cfg).Err?
    ensures Banks(c, cs, banks, w, process).(fatal := w.fatal) == w
    decreases |banks|
  {
    if banks != [] {
      match c.list(Query(banks[0].id, true, true))
      case None =>
      case Some(accounts) =>
        AccountsIdle(c, cs, banks[0].name, accounts, w, process);
        BanksIdle(c, cs, banks[1..], w, process);
    }
  }

  /** A failed account listing ends the walk over banks, keeping what the
      earlier banks did. */
  lemma BanksFatal(c: Cloud, cs: Configs, b: Item, rest: seq<Item>, w: Walk, process: Process)
    requires c.list(Query(b.id, true, true)).None?
    ensures Banks(c, cs, [b] + rest, w, process) == w.(fatal := true)
  {
  }

  /** The answer never depends on the outcome, and the dbt job is started
      exactly when some file was processed. A failed initialisation
      processes nothing and leaves the tree as it was. */
  lemma EntryAnswer(c: Cloud, lib: Pandas, t: Tree, root: FolderId, configs: Option<Configs>)
    ensures var r := Entry(c, lib, t, root, configs);
      && r.message == "Proceso completado." && r.code == 200
      && (r.dbtTriggered <==> r.total > 0)
    ensures configs.None? ==>
      var r := Entry(c, lib, t, root, configs);
      r.total == 0 && !r.dbtTriggered && r.tree == t && r.trace == []
  {
  }
}

=== FILE: paths.dfy ===
/**
 * File-name arithmetic used to name uploaded objects and tables:
 * `pathlib.Path(name).name / .stem / .suffix`, `os.path.splitext` and
 * `os.path.dirname`, all with '/' as the only separator.
 */
module Paths {

  /** `s.rfind(c)`: the last index holding `c`, or -1. */
  function LastIndexOf(s: string, c: char): (r: int)
    ensures -1 <= r < |s|
    ensures r >= 0 ==> s[r] == c
    ensures forall k :: r < k < |s| ==> s[k] != c
  {
    if s == [] then -1
    else if s[|s| - 1] == c then |s| - 1
    else LastIndexOf(s[..|s| - 1], c)
  }

  /** `Path(p).name`: the final component. */
  function BaseName(p: string): (r: string)
    ensures '/' !in r
  {
    p[LastIndexOf(p, '/') + 1..]
  }

  /** `Path(p).suffix`: the final component's extension from its last dot,
      empty when that dot is the first or the last character. */
  function Suffix(p: string): string {
    var n := BaseName(p);
    var i := LastIndexOf(n, '.');
    if 0 < i < |n| - 1 then n[i..] else ""
  }

  /** `Path(p).stem`: the final component without its suffix. */
  function Stem(p: string): string {
    var n := BaseName(p);
    var i := LastIndexOf(n, '.');
    if 0 < i < |n| - 1 then n[..i] else n
  }

  /** Index where `os.path.splitext` cuts `p`, or `|p|` when it does not:
      the last dot after the last separator, provided some character before
      it in the final component is not a dot. */
  function SplitExtIndex(p: string): (k: nat)
    ensures k <= |p|
  {
    var sep := LastIndexOf(p, '/');
    var dot := LastIndexOf(p, '.');
    if dot > sep && exists j :: sep < j < dot && p[j] != '.' then dot else |p|
  }

  /** `os.path.splitext(p)[0]`. */
  function SplitExtRoot(p: string): string {
    p[..SplitExtIndex(p)]
  }

  /** `os.path.splitext(p)[1]`. */
  function SplitExtExt(p: string): string {
    p[SplitExtIndex(p)..]
  }

  predicate AllSlashes(s: string) {
    forall i :: 0 <= i < |s| ==> s[i] == '/'
  }

  /** `s.rstrip('/')`. */
  function TrimSlashes(s: string): (r: string)
    ensures |r| <= |s| && r == s[..|r|]
    ensures |r| > 0 ==> r[|r| - 1] != '/'
  {
    if |s| > 0 && s[|s| - 1] == '/' then TrimSlashes(s[..|s| - 1]) else s
  }

  /** `os.path.dirname(p)`: everything before the last separator, with
      trailing separators removed unless it consists only of separators. */
  function DirName(p: string): string {
    var head := p[..LastIndexOf(p, '/') + 1];
    if head != [] && !AllSlashes(head) then TrimSlashes(head) else head
  }

  // ---------------------------------------------------------------------
  // Properties

  /** The stem and the suffix together give back the final component. */
  lemma {:induction false} StemSuffixRoundTrip(p: string)
    ensures Stem(p) + Suffix(p) == BaseName(p)
  {
    var n := BaseName(p);
    var i := LastIndexOf(n, '.');
    if 0 < i < |n| - 1 {
      assert n[..i] + n[i..] == n;
    }
  }

  /** A suffix is empty, or a dot followed by at least one character and no
      further dot; the stem never contains a separator. */
  lemma {:induction false} SuffixShape(p: string)
    ensures Suffix(p) == "" || (|Suffix(p)| >= 2 && Suffix(p)[0] == '.' && '.' !in Suffix(p)[1..])
    ensures '/' !in Stem(p)
  {
    var n := BaseName(p);
    var i := LastIndexOf(n, '.');
    if 0 < i < |n| - 1 {
      assert forall k :: 0 <= k < |n[i..]| - 1 ==> n[i..][1..][k] == n[i + 1 + k];
      assert '/' !in n;
      assert forall c :: c in n[..i] ==> c in n;
    }
  }

  /** `splitext` splits without losing characters. */
  lemma SplitExtRoundTrip(p: string)
    ensures SplitExtRoot(p) + SplitExtExt(p) == p
  {
  }

  /** The extension `splitext` cuts off is empty, or a dot followed by
      characters that are neither dots nor separators: it is the last
      extension of the final component and nothing more. */
  lemma {:induction false} SplitExtExtShape(p: string)
    ensures var e := SplitExtExt(p);
      e == [] || (e[0] == '.' && '.' !in e[1..] && '/' !in e)
  {
    var k := SplitExtIndex(p);
    if k < |p| {
      var sep := LastIndexOf(p, '/');
      var dot := LastIndexOf(p, '.');
      assert k == dot && dot > sep;
      var e := p[k..];
      assert forall i :: 0 <= i < |e| ==> e[i] == p[k + i];
      assert forall i :: 1 <= i < |e| ==> e[i] != '.';
      assert forall i :: 0 <= i < |e| ==> e[i] != '/';
      assert forall i :: 0 <= i < |e[1..]| ==> e[1..][i] == e[i + 1];
    }
  }

  /** `splitext` and `Path.stem` disagree on a name ending in a dot. */
  lemma {:induction false} SplitExtDiffersFromStem()
    ensures SplitExtRoot("extracto.") == "extracto"
    ensures Stem("extracto.") == "extracto."
  {
    LastIndexOfAbsent("extracto.", '/');
    LastIndexOfIs("extracto.", '.', 8);
    assert "extracto."[0] != '.';
  }

  /** The directory of `dir/leaf` is `dir` when `dir` does not end with a
      separator and `leaf` holds none. */
  lemma {:induction false} DirNameOfChild(dir: string, leaf: string)
    requires |dir| > 0 && dir[|dir| - 1] != '/'
    requires '/' !in leaf
    ensures DirName(dir + "/" + leaf) == dir
  {
    var p := dir + "/" + leaf;
    var k := |dir|;
    assert p[k] == '/';
    assert forall j :: k < j < |p| ==> p[j] == leaf[j - k - 1];
    LastIndexOfIs(p, '/', k);
    var head := p[..k + 1];
    assert head == dir + "/";
    assert head[k - 1] == dir[k - 1];
    assert !AllSlashes(head);
    assert TrimSlashes(head) == TrimSlashes(dir);
  }

  /** A file at the root has an empty directory. */
  lemma {:induction false} DirNameOfRootFile(leaf: string)
    requires '/' !in leaf
    ensures DirName(leaf) == ""
  {
    LastIndexOfAbsent(leaf, '/');
  }

  lemma {:induction false} LastIndexOfIs(s: string, c: char, k: int)
    requires 0 <= k < |s| && s[k] == c
    requires forall j :: k < j < |s| ==> s[j] != c
    ensures LastIndexOf(s, c) == k
  {
    var r := LastIndexOf(s, c);
    assert r >= k;
  }

  lemma {:induction false} LastIndexOfAbsent(s: string, c: char)
    requires c !in s
    ensures LastIndexOf(s, c) == -1
  {
    assert forall i :: 0 <= i < |s| ==> s[i] != c;
  }
}

=== FILE: sweep.dfy ===
/**
 * The per-file loop every intake variant runs over the files listed in a
 * pending folder: one step per file, in listing order, each seeing the
 * parents the earlier steps left behind. `Loop` is that loop; `Batch` is a
 * reference in which every step sees the tree as it was before the loop.
 * The two agree when the listing names each file once, which is what makes
 * one file's failure irrelevant to its siblings.
 */
module Sweep {
  import opened Base
  import opened Drive

  /** What processing one file did: the parent it left the file in, the
      events it caused, and whether the loop's counter went up. */
  datatype Outcome = Outcome(parent: Option<FolderId>, trace: seq<Event>, counted: bool)

  /** The state after a loop: the parents, the events in order, the counter. */
  datatype Run = Run(tree: Tree, trace: seq<Event>, count: nat)

  /** Processing one listed file whose parent is currently the given one. */
  type Step = (Item, Option<FolderId>) -> Outcome

  /** The tree after a step: the file's parent replaced, other files untouched. */
  function Apply(t: Tree, f: FileId, p: Option<FolderId>): (r: Tree)
    ensures r.Keys == t.Keys
    ensures forall g :: g != f ==> ParentOf(r, g) == ParentOf(t, g)
  {
    if f in t && p.Some? then t[f := p.value] else t
  }

  /** The step of `it` when it starts from the parents in `t`. */
  function Own(t: Tree, it: Item, step: Step): Outcome {
    step(it, ParentOf(t, it.id))
  }

  /** Where the step of `it`, starting from `t`, leaves it. */
  function Lands(t: Tree, it: Item, step: Step): Option<FolderId> {
    ParentOf(Apply(t, it.id, Own(t, it, step).parent), it.id)
  }

  /** No file is listed twice. */
  predicate DistinctIds(items: seq<Item>) {
    forall i, j :: 0 <= i < j < |items| ==> items[i].id != items[j].id
  }

  /** `for item in items: ...`: the steps in order, each on the tree the
      previous ones left. */
  function Loop(t: Tree, items: seq<Item>, step: Step): Run {
    if items == [] then Run(t, [], 0)
    else
      var o := Own(t, items[0], step);
      var rest := Loop(Apply(t, items[0].id, o.parent), items[1..], step);
      Run(rest.tree, o.trace + rest.trace, (if o.counted then 1 else 0) + rest.count)
  }

  /** Reference: every step starts from `t` itself, and each file ends
      where its own step put it. */
  function Batch(t: Tree, items: seq<Item>, step: Step): Run {
    if items == [] then Run(t, [], 0)
    else
      var o := Own(t, items[0], step);
      var rest := Batch(t, items[1..], step);
      Run(Apply(rest.tree, items[0].id, o.parent), o.trace + rest.trace, (if o.counted then 1 else 0) + rest.count)
  }

  /** Number of listed files whose parent in `t` is `target`. */
  function CountIn(t: Tree, items: seq<Item>, target: FolderId): nat {
    if items == [] then 0
    else (if ParentOf(t, items[0].id) == Some(target) then 1 else 0) + CountIn(t, items[1..], target)
  }

  // ---------------------------------------------------------------------
  // The loop is the reference

  /** With each file listed once, the loop ends exactly as the reference:
      a step never sees another file's effects. */
  lemma {:induction false} LoopIsBatch(t: Tree, items: seq<Item>, step: Step)
    requires DistinctIds(items)
    ensures Loop(t, items, step) == Batch(t, items, step)
    decreases |items|
  {
    if items != [] {
      var it := items[0];
      var o := Own(t, it, step);
      var tail := items[1..];
      assert DistinctIds(tail) by {
        forall i, j | 0 <= i < j < |tail| ensures tail[i].id != tail[j].id {
          assert tail[i] == items[i + 1] && tail[j] == items[j + 1];
        }
      }
      LoopIsBatch(Apply(t, it.id, o.parent), tail, step);
      assert forall k :: 0 <= k < |tail| ==> tail[k].id != it.id by {
        forall k | 0 <= k < |tail| ensures tail[k].id != it.id {
          assert tail[k] == items[k + 1];
        }
      }
      BatchShift(t, it.id, o.parent, tail, step);
    }
  }

  /** Changing a file the steps do not list changes nothing they do. */
  lemma {:induction false} BatchShift(t: Tree, f: FileId, p: Option<FolderId>, items: seq<Item>, step: Step)
    requires forall k :: 0 <= k < |items| ==> items[k].id != f
    ensures Batch(Apply(t, f, p), items, step)
         == Run(Apply(Batch(t, items, step).tree, f, p), Batch(t, items, step).trace, Batch(t, items, step).count)
    decreases |items|
  {
    if items != [] {
      var it := items[0];
      assert it.id != f;
      assert Own(Apply(t, f, p), it, step) == Own(t, it, step);
      BatchShift(t, f, p, items[1..], step);
      ApplyCommute(Batch(t, items[1..], step).tree, f, p, it.id, Own(t, it, step).parent);
    }
  }

  lemma ApplyCommute(t: Tree, f: FileId, p: Option<FolderId>, g: FileId, q: Option<FolderId>)
    requires f != g
    ensures Apply(Apply(t, f, p), g, q) == Apply(Apply(t, g, q), f, p)
  {
  }

  // ---------------------------------------------------------------------
  // Properties of the reference

  /** The loop neither adds nor removes files, and leaves every file it
      does not list where it was. */
  lemma {:induction false} BatchFrame(t: Tree, items: seq<Item>, step: Step, g: FileId)
    ensures Batch(t, items, step).tree.Keys == t.Keys
    ensures (forall k :: 0 <= k < |items| ==> items[k].id != g) ==>
      ParentOf(Batch(t, items, step).tree, g) == ParentOf(t, g)
    decreases |items|
  {
    if items != [] {
      BatchFrame(t, items[1..], step, g);
    }
  }

  /** Each listed file ends where its own step, run from the original
      tree, put it: no other file's step affects it. */
  lemma {:induction false} BatchAt(t: Tree, items: seq<Item>, step: Step, k: nat)
    requires DistinctIds(items) && k < |items|
    ensures ParentOf(Batch(t, items, step).tree, items[k].id) == Lands(t, items[k], step)
    decreases |items|
  {
    var it := items[0];
    var tail := items[1..];
    var rest := Batch(t, tail, step);
    if k == 0 {
      assert forall j :: 0 <= j < |tail| ==> tail[j].id != it.id by {
        forall j | 0 <= j < |tail| ensures tail[j].id != it.id {
          assert tail[j] == items[j + 1];
        }
      }
      BatchFrame(t, tail, step, it.id);
      ApplySame(rest.tree, t, it.id, Own(t, it, step).parent);
    } else {
      assert tail[k - 1] == items[k];
      assert DistinctIds(tail) by {
        forall i, j | 0 <= i < j < |tail| ensures tail[i].id != tail[j].id {
          assert tail[i] == items[i + 1] && tail[j] == items[j + 1];
        }
      }
      BatchAt(t, tail, step, k - 1);
      assert items[k].id != it.id;
    }
  }

  lemma ApplySame(a: Tree, b: Tree, f: FileId, p: Option<FolderId>)
    requires ParentOf(a, f) == ParentOf(b, f)
    ensures ParentOf(Apply(a, f, p), f) == ParentOf(Apply(b, f, p), f)
  {
  }

  /** The loop's events are those of the steps, nothing else: an event
      occurs exactly when some file's own step caused it. */
  lemma {:induction false} BatchTrace(t: Tree, items: seq<Item>, step: Step, e: Event)
    ensures e in Batch(t, items, step).trace <==> exists k :: 0 <= k < |items| && e in Own(t, items[k], step).trace
    decreases |items|
  {
    if items != [] {
      var tail := items[1..];
      BatchTrace(t, tail, step, e);
      if exists k :: 0 <= k < |tail| && e in Own(t, tail[k], step).trace {
        var k :| 0 <= k < |tail| && e in Own(t, tail[k], step).trace;
        assert tail[k] == items[k + 1];
      }
      if exists k :: 0 <= k < |items| && e in Own(t, items[k], step).trace {
        var k :| 0 <= k < |items| && e in Own(t, items[k], step).trace;
        if k > 0 {
          assert items[k] == tail[k - 1];
        }
      }
    }
  }

  /** When a step counts a file exactly when it lands in `target`, the
      counter equals the number of listed files that end in `target`. */
  lemma {:induction false} BatchCount(t: Tree, items: seq<Item>, step: Step, target: FolderId)
    requires DistinctIds(items)
    requires forall k :: 0 <= k < |items| ==> (Own(t, items[k], step).counted <==> Lands(t, items[k], step) == Some(target))
    ensures Batch(t, items, step).count == CountIn(Batch(t, items, step).tree, items, target)
    decreases |items|
  {
    if items != [] {
      var it := items[0];
      var tail := items[1..];
      assert DistinctIds(tail) by {
        forall i, j | 0 <= i < j < |tail| ensures tail[i].id != tail[j].id {
          assert tail[i] == items[i + 1] && tail[j] == items[j + 1];
        }
      }
      assert forall k :: 0 <= k < |tail| ==> (Own(t, tail[k], step).counted <==> Lands(t, tail[k], step) == Some(target)) by {
        forall k | 0 <= k < |tail|
          ensures Own(t, tail[k], step).counted <==> Lands(t, tail[k], step) == Some(target)
        {
          assert tail[k] == items[k + 1];
        }
      }
      BatchCount(t, tail, step, target);
      assert forall j :: 0 <= j < |tail| ==> tail[j].id != it.id by {
        forall j | 0 <= j < |tail| ensures tail[j].id != it.id {
          assert tail[j] == items[j + 1];
        }
      }
      var rest := Batch(t, tail, step);
      CountInApply(rest.tree, it.id, Own(t, it, step).parent, tail, target);
      BatchAt(t, items, step, 0);
    }
  }

  lemma {:induction false} CountInApply(t: Tree, f: FileId, p: Option<FolderId>, items: seq<Item>, target: FolderId)
    requires forall k :: 0 <= k < |items| ==> items[k].id != f
    ensures CountIn(Apply(t, f, p), items, target) == CountIn(t, items, target)
    decreases |items|
  {
    if items != [] {
      assert items[0].id != f;
      CountInApply(t, f, p, items[1..], target);
    }
  }

  /** The counter never exceeds the number of listed files. */
  lemma {:induction false} LoopCountBound(t: Tree, items: seq<Item>, step: Step)
    ensures Loop(t, items, step).count <= |items|
    decreases |items|
  {
    if items != [] {
      var o := Own(t, items[0], step);
      LoopCountBound(Apply(t, items[0].id, o.parent), items[1..], step);
    }
  }

  /** A property every step's events have is a property of every event of
      the loop, and a loop whose steps never count has a zero counter. */
  lemma {:induction false} LoopKeeps(t: Tree, items: seq<Item>, step: Step, P: Event -> bool)
    requires forall it, cur, e :: e in step(it, cur).trace ==> P(e)
    ensures forall e :: e in Loop(t, items, step).trace ==> P(e)
    ensures (forall it, cur :: !step(it, cur).counted) ==> Loop(t, items, step).count == 0
    decreases |items|
  {
    if items != [] {
      var o := Own(t, items[0], step);
      LoopKeeps(Apply(t, items[0].id, o.parent), items[1..], step, P);
    }
  }

  /** A zero count means no listed file is in `target`. */
  lemma {:induction false} CountInZero(t: Tree, items: seq<Item>, target: FolderId, k: nat)
    requires CountIn(t, items, target) == 0 && k < |items|
    ensures ParentOf(t, items[k].id) != Some(target)
    decreases |items|
  {
    if k > 0 {
      CountInZero(t, items[1..], target, k - 1);
    }
  }
  /** When each step counts its file exactly when it made one accepted
      upload, the loop's counter is the number of accepted uploads in its
      log. */
  lemma {:induction false} LoopCountsUploads(t: Tree, items: seq<Item>, step: Step)
    requires forall it, cur :: UploadsDone(step(it, cur).trace) == (if step(it, cur).counted then 1 else 0)
    ensures Loop(t, items, step).count == UploadsDone(Loop(t, items, step).trace)
    decreases |items|
  {
    if items != [] {
      var o := Own(t, items[0], step);
      var rest := Loop(Apply(t, items[0].id, o.parent), items[1..], step);
      LoopCountsUploads(Apply(t, items[0].id, o.parent), items[1..], step);
      UploadsDoneAppend(o.trace, rest.trace);
    }
  }

  /** When a step counts every file it leaves in `target`, the counter is
      at least the number of listed files that end in `target`. */
  lemma {:induction false} BatchCountAtLeast(t: Tree, items: seq<Item>, step: Step, target: FolderId)
    requires DistinctIds(items)
    requires forall k :: 0 <= k < |items| ==> Lands(t, items[k], step) == Some(target) ==> Own(t, items[k], step).counted
    ensures CountIn(Batch(t, items, step).tree, items, target) <= Batch(t, items, step).count
    decreases |items|
  {
    if items != [] {
      var it := items[0];
      var tail := items[1..];
      assert DistinctIds(tail) by {
        forall i, j | 0 <= i < j < |tail| ensures tail[i].id != tail[j].id {
          assert tail[i] == items[i + 1] && tail[j] == items[j + 1];
        }
      }
      assert forall k :: 0 <= k < |tail| ==> Lands(t, tail[k], step) == Some(target) ==> Own(t, tail[k], step).counted by {
        forall k | 0 <= k < |tail|
          ensures Lands(t, tail[k], step) == Some(target) ==> Own(t, tail[k], step).counted
        {
          assert tail[k] == items[k + 1];
        }
      }
      BatchCountAtLeast(t, tail, step, target);
      assert forall j :: 0 <= j < |tail| ==> tail[j].id != it.id by {
        forall j | 0 <= j < |tail| ensures tail[j].id != it.id {
          assert tail[j] == items[j + 1];
        }
      }
      var rest := Batch(t, tail, step);
      CountInApply(rest.tree, it.id, Own(t, it, step).parent, tail, target);
      BatchAt(t, items, step, 0);
    }
  }
}

=== FILE: text.dfy ===
/**
 * The Python string operations the pipeline relies on: `str.strip`,
 * `str.lower`, `str.capitalize`, `str.replace`, `str.startswith` and the
 * substring test `in`.
 * Case mapping covers the one-to-one pairs of ASCII and Latin-1 letters.
 * Python also upper-cases 'ß' to "SS", 'µ' to U+039C and 'ÿ' to U+0178,
 * and maps the letters of other scripts; here those are left unchanged.
 */
module Text {

  /** Characters for which Python's `str.isspace()` holds; `str.strip()`
      with no argument removes exactly these. */
  predicate IsSpace(c: char) {
    || c == ' '
    || ('\t' <= c <= '\r')
    || ('\U{1C}' <= c <= '\U{1F}')
    || c == '\U{85}' || c == '\U{A0}' || c == '\U{1680}'
    || ('\U{2000}' <= c <= '\U{200A}')
    || c == '\U{2028}' || c == '\U{2029}' || c == '\U{202F}' || c == '\U{205F}' || c == '\U{3000}'
  }

  predicate AllSpace(s: string) {
    forall i :: 0 <= i < |s| ==> IsSpace(s[i])
  }

  /** `str.lstrip()`: drops the leading whitespace. */
  function TrimLeft(s: string): (r: string)
    ensures |r| <= |s| && r == s[|s| - |r|..]
    ensures AllSpace(s[..|s| - |r|])
    ensures |r| > 0 ==> !IsSpace(r[0])
  {
    if |s| > 0 && IsSpace(s[0]) then TrimLeft(s[1..]) else s
  }

  /** `str.rstrip()`: drops the trailing whitespace. */
  function TrimRight(s: string): (r: string)
    ensures |r| <= |s| && r == s[..|r|]
    ensures AllSpace(s[|r|..])
    ensures |r| > 0 ==> !IsSpace(r[|r| - 1])
  {
    if |s| > 0 && IsSpace(s[|s| - 1]) then TrimRight(s[..|s| - 1]) else s
  }

  /** `str.strip()`: the result neither starts nor ends with whitespace. */
  function Strip(s: string): (r: string)
    ensures |r| <= |s|
    ensures |r| > 0 ==> !IsSpace(r[0]) && !IsSpace(r[|r| - 1])
  {
    TrimRight(TrimLeft(s))
  }

  function LowerChar(c: char): (d: char) {
    if 'A' <= c <= 'Z' || ('\U{C0}' <= c <= '\U{DE}' && c != '\U{D7}') then
      (c as int + 32) as char
    else
      c
  }

  function UpperChar(c: char): (d: char) {
    if 'a' <= c <= 'z' || ('\U{E0}' <= c <= '\U{FE}' && c != '\U{F7}') then
      (c as int - 32) as char
    else
      c
  }

  /** `str.lower()`. */
  function Lower(s: string): (r: string)
    ensures |r| == |s|
    ensures forall i :: 0 <= i < |s| ==> r[i] == LowerChar(s[i])
  {
    if s == [] then [] else [LowerChar(s[0])] + Lower(s[1..])
  }

  /** `str.upper()`. */
  function Upper(s: string): (r: string)
    ensures |r| == |s|
    ensures forall i :: 0 <= i < |s| ==> r[i] == UpperChar(s[i])
  {
    if s == [] then [] else [UpperChar(s[0])] + Upper(s[1..])
  }

  /** `str.capitalize()`: the first character upper-cased, the rest lower-cased. */
  function Capitalize(s: string): (r: string)
    ensures |r| == |s|
  {
    if s == [] then [] else [UpperChar(s[0])] + Lower(s[1..])
  }

  /** `str.replace(pat, rep)` for a non-empty pattern: occurrences are
      replaced from left to right without overlapping. */
  function ReplaceAll(s: string, pat: string, rep: string): (r: string)
    requires |pat| > 0
    decreases |s|
  {
    if |s| < |pat| then s
    else if s[..|pat|] == pat then rep + ReplaceAll(s[|pat|..], pat, rep)
    else [s[0]] + ReplaceAll(s[1..], pat, rep)
  }

  /** Every occurrence of the character `a` in `s` replaced by `b`. */
  function MapChar(s: string, a: char, b: string): string {
    if s == [] then [] else (if s[0] == a then b else [s[0]]) + MapChar(s[1..], a, b)
  }

  /** `s.startswith(p)`. */
  predicate StartsWith(s: string, p: string) {
    |p| <= |s| && s[..|p|] == p
  }

  /** `p in s` for strings: `s` starts with `p`, or its tail contains it. */
  predicate Contains(s: string, p: string)
    decreases |s|
  {
    StartsWith(s, p) || (s != [] && Contains(s[1..], p))
  }

  /** The slice of `s` of length `n` starting at `i`. */
  function At(s: string, i: nat, n: nat): string
    requires i + n <= |s|
  {
    s[i..i + n]
  }

  // ---------------------------------------------------------------------
  // Properties

  /** Lower-casing never changes whether a character is whitespace. */
  lemma LowerCharKeepsSpace(c: char)
    ensures IsSpace(LowerChar(c)) <==> IsSpace(c)
  {
  }

  /** Lower-casing is idempotent. */
  lemma LowerIdempotent(s: string)
    ensures Lower(Lower(s)) == Lower(s)
  {
  }

  /** Upper-casing then lower-casing is the same as lower-casing. */
  lemma LowerOfUpper(s: string)
    ensures Lower(Upper(s)) == Lower(s)
  {
  }

  /** `capitalize` is idempotent and agrees with `lower` up to case. */
  lemma {:induction false} CapitalizeIdempotent(s: string)
    ensures Capitalize(Capitalize(s)) == Capitalize(s)
    ensures Lower(Capitalize(s)) == Lower(s)
  {
    if s != [] {
      var t := Lower(s[1..]);
      assert Capitalize(s)[1..] == t;
      LowerIdempotent(s[1..]);
      assert Capitalize(Capitalize(s)) == [UpperChar(UpperChar(s[0]))] + Lower(t);
      assert Lower(Capitalize(s)) == [LowerChar(UpperChar(s[0]))] + Lower(t);
      assert Lower(s) == [LowerChar(s[0])] + Lower(s[1..]);
    }
  }

  /** `strip` empties exactly the strings made only of whitespace. */
  lemma {:induction false} StripEmptyIff(s: string)
    ensures Strip(s) == [] <==> AllSpace(s)
  {
    TrimLeftEmptyIff(s);
    TrimRightEmptyIff(TrimLeft(s));
  }

  /** Surrounding a string with whitespace does not change what `strip` returns. */
  lemma {:induction false} StripIgnoresPadding(p: string, s: string, q: string)
    requires AllSpace(p) && AllSpace(q)
    ensures Strip(p + s + q) == Strip(s)
  {
    var x := p + s + q;
    assert x == p + (s + q);
    TrimLeftPadding(p, s + q);
    assert TrimLeft(x) == TrimLeft(s + q);
    TrimBothPadding(s, q);
    assert TrimRight(TrimLeft(x)) == TrimRight(TrimLeft(s));
  }

  /** `strip` commutes with `lower`. */
  lemma {:induction false} StripLowerCommute(s: string)
    ensures Strip(Lower(s)) == Lower(Strip(s))
  {
    TrimLeftLower(s);
    TrimRightLower(TrimLeft(s));
  }

  /** Two strings that agree once lower-cased also agree once stripped and
      lower-cased. */
  lemma {:induction false} StripLowerCaseInsensitive(a: string, b: string)
    requires Lower(a) == Lower(b)
    ensures Lower(Strip(a)) == Lower(Strip(b))
  {
    StripLowerCommute(a);
    StripLowerCommute(b);
  }

  /** `strip` is idempotent. */
  lemma {:induction false} StripIdempotent(s: string)
    ensures Strip(Strip(s)) == Strip(s)
  {
    var r := Strip(s);
    if r != [] {
      assert TrimLeft(r) == r;
      assert TrimRight(r) == r;
    }
  }

  /** Replacing a one-character pattern works character by character. */
  lemma {:induction false} ReplaceOneChar(s: string, a: char, b: string)
    ensures ReplaceAll(s, [a], b) == MapChar(s, a, b)
    decreases |s|
  {
    if s != [] {
      ReplaceOneChar(s[1..], a, b);
      assert s[..1] == [s[0]];
    }
  }

  /** A string without leading or trailing whitespace is its own strip. */
  lemma {:induction false} StripPlain(s: string)
    requires |s| > 0 && !IsSpace(s[0]) && !IsSpace(s[|s| - 1])
    ensures Strip(s) == s
  {
    assert TrimLeft(s) == s;
    assert TrimRight(s) == s;
  }

  /** A character that the replacement does not hold is gone afterwards,
      and a string without the character is left unchanged. */
  lemma {:induction false} MapCharRemoves(s: string, a: char, b: string)
    ensures a !in b ==> a !in MapChar(s, a, b)
    ensures a !in s ==> MapChar(s, a, b) == s
    decreases |s|
  {
    if s != [] {
      MapCharRemoves(s[1..], a, b);
    }
  }

  /** Replacing characters distributes over concatenation. */
  lemma {:induction false} MapCharAppend(x: string, y: string, a: char, b: string)
    ensures MapChar(x + y, a, b) == MapChar(x, a, b) + MapChar(y, a, b)
    decreases |x|
  {
    if x == [] {
      assert x + y == y;
    } else {
      assert (x + y)[1..] == x[1..] + y;
      MapCharAppend(x[1..], y, a, b);
    }
  }

  // ---------------------------------------------------------------------
  // Helpers for the properties above

  lemma {:induction false} TrimLeftEmptyIff(s: string)
    ensures TrimLeft(s) == [] <==> AllSpace(s)
    decreases |s|
  {
    if s != [] {
      TrimLeftEmptyIff(s[1..]);
      AllSpaceCons(s);
    }
  }

  lemma {:induction false} AllSpaceCons(s: string)
    requires s != []
    ensures AllSpace(s) <==> IsSpace(s[0]) && AllSpace(s[1..])
  {
    if IsSpace(s[0]) && AllSpace(s[1..]) {
      forall i | 0 <= i < |s|
        ensures IsSpace(s[i])
      {
        if i > 0 {
          assert s[i] == s[1..][i - 1];
        }
      }
    }
  }

  lemma {:induction false} TrimRightEmptyIff(s: string)
    ensures TrimRight(s) == [] <==> AllSpace(s)
  {
    if TrimRight(s) == [] {
      assert s[0..] == s;
    } else {
      var r := TrimRight(s);
      assert !IsSpace(s[|r| - 1]);
    }
  }

  lemma {:induction false} AllSpaceAppend(a: string, b: string)
    requires AllSpace(a) && AllSpace(b)
    ensures AllSpace(a + b)
  {
    assert forall i | 0 <= i < |a + b| :: (a + b)[i] == if i < |a| then a[i] else b[i - |a|];
  }

  lemma {:induction false} TrimBothPadding(s: string, q: string)
    requires AllSpace(q)
    ensures TrimRight(TrimLeft(s + q)) == TrimRight(TrimLeft(s))
  {
    if TrimLeft(s) == [] {
      TrimLeftEmptyIff(s);
      AllSpaceAppend(s, q);
      TrimLeftAllSpace(s + q);
    } else {
      TrimLeftAppend(s, q);
      TrimRightPadding(TrimLeft(s), q);
    }
  }

  lemma {:induction false} TrimLeftAllSpace(s: string)
    requires AllSpace(s)
    ensures TrimLeft(s) == []
    decreases |s|
  {
    if s != [] {
      TrimLeftAllSpace(s[1..]);
    }
  }

  lemma {:induction false} TrimLeftPadding(p: string, s: string)
    requires AllSpace(p)
    ensures TrimLeft(p + s) == TrimLeft(s)
    decreases |p|
  {
    if p != [] {
      assert (p + s)[0] == p[0];
      assert (p + s)[1..] == p[1..] + s;
      TrimLeftPadding(p[1..], s);
    } else {
      assert p + s == s;
    }
  }

  lemma {:induction false} TrimLeftAppend(s: string, q: string)
    requires TrimLeft(s) != []
    ensures TrimLeft(s + q) == TrimLeft(s) + q
    decreases |s|
  {
    if IsSpace(s[0]) {
      assert (s + q)[1..] == s[1..] + q;
      TrimLeftAppend(s[1..], q);
    }
  }

  lemma {:induction false} TrimRightPadding(s: string, q: string)
    requires AllSpace(q)
    ensures TrimRight(s + q) == TrimRight(s)
    decreases |q|
  {
    if q == [] {
      assert s + q == s;
    } else {
      var q' := q[..|q| - 1];
      assert (s + q)[..|s + q| - 1] == s + q';
      assert IsSpace((s + q)[|s + q| - 1]);
      TrimRightPadding(s, q');
    }
  }

  lemma {:induction false} TrimLeftLower(s: string)
    ensures TrimLeft(Lower(s)) == Lower(TrimLeft(s))
    decreases |s|
  {
    if s != [] {
      LowerCharKeepsSpace(s[0]);
      assert Lower(s)[1..] == Lower(s[1..]);
      TrimLeftLower(s[1..]);
    }
  }

  lemma {:induction false} TrimRightLower(s: string)
    ensures TrimRight(Lower(s)) == Lower(TrimRight(s))
    decreases |s|
  {
    if s != [] {
      var s' := s[..|s| - 1];
      LowerCharKeepsSpace(s[|s| - 1]);
      assert Lower(s)[..|s| - 1] == Lower(s');
      TrimRightLower(s');
    }
  }
  /** `Contains` is the substring test: `p` occurs in `s` exactly when some
      slice of `s` of the length of `p` equals `p`. */
  lemma {:induction false} ContainsAt(s: string, p: string)
    ensures Contains(s, p) <==> exists i :: 0 <= i && i + |p| <= |s| && At(s, i, |p|) == p
    decreases |s|
  {
    if exists i :: 0 <= i && i + |p| <= |s| && At(s, i, |p|) == p {
      var i :| 0 <= i && i + |p| <= |s| && At(s, i, |p|) == p;
      if i == 0 {
        assert StartsWith(s, p);
      } else {
        assert At(s[1..], i - 1, |p|) == p;
        ContainsAt(s[1..], p);
      }
    }
    if Contains(s, p) {
      if StartsWith(s, p) {
        assert At(s, 0, |p|) == p;
      } else {
        ContainsAt(s[1..], p);
        var i :| 0 <= i && i + |p| <= |s[1..]| && At(s[1..], i, |p|) == p;
        assert At(s, i + 1, |p|) == p;
      }
    }
  }

  /** A string contains every string it ends with. */
  lemma {:induction false} ContainsEnd(a: string, p: string)
    ensures Contains(a + p, p)
    decreases |a|
  {
    if a == [] {
      assert a + p == p;
      assert StartsWith(p, p);
    } else {
      assert (a + p)[1..] == a[1..] + p;
      ContainsEnd(a[1..], p);
    }
  }
}
